=== FILE: README.md ===
# spotify-migrater in Dafny

A model of the server routes and the page logic of spotify-migrater. This
Next.js application copies one music-streaming library (liked songs,
playlists, saved albums, followed artists) from a *source* account to a
*target* account. It can also turn the source library into one new playlist:
a "mega playlist" of every track the library holds, or a playlist of the
liked songs.

The remote streaming API is an oracle, in three parts:

- **Listings** are finite sequences that the server hands out in windows.
  The server model makes three assumptions:
  - each followed artist is listed once (`Distinct(artists)`, `FetchData.WellFormed`);
  - a followed-artists page carries `next`, and `cursors.after` as the id
    of its last artist, exactly when more artists follow (`Paging.FollowedPage`);
  - the `total` that `getAllItems` reads is the listing's length (`Migrate.ReadAll`).
  `Paging.CursorLoopsAgree`, `Paging.FollowByCursorAll` and the migrate
  lemmas about what is read rely on these assumptions.
- **Created objects** (a new playlist's id and URL) are parameters.
- **Failures** come from a responder `respond(call, attempt)`, which says
  whether a given attempt of a given call is rejected, and with what status
  and message.

Each route is modelled in two parts:

- **Script.** A function computes the route's *script*: the remote calls it
  makes and the progress events it writes, in order, on the assumption that
  nothing fails.
- **Run.** `Api.Execute` runs the script against the responder, with the
  route's retry policy. It stops at the first call that fails, and the
  route's `catch` turns that failure into the route's reply.

The page's part is modelled as pure functions over its state:

- reading the URL;
- the connect link;
- the event-stream reader;
- the next-step choices;
- the migrate request.

Modules, by file:

| file | models |
|---|---|
| `base.dfy`, `seqs.dfy`, `strings.dfy`, `urls.dfy` | `Option`, arithmetic, slicing into batches, the insertion-ordered `Set`, JavaScript's `split` / `replace` / `toString`, query strings and `URLSearchParams.get` |
| `retry.dfy` | `retryWithBackoff` of the two playlist routes |
| `paging.dfy` | the three pagination loops: the short-page offset loop, the total-driven `do … while` of `getAllItems`, and the followed-artists cursor loops |
| `api.dfy` | the entities, the remote calls, progress events, scripts and their execution |
| `auth.dfy`, `callback.dfy`, `logout.dfy` | the sign-in routes and the cookie jar |
| `fetch_data.dfy`, `migrate.dfy`, `liked_songs_playlist.dfy`, `mega_playlist.dfy`, `playlist_stream.dfy` | the data routes; the last one holds what both playlist routes share |
| `event_stream.dfy` | the `data: …\n\n` framing and the page's chunk reader |
| `client.dfy` | the decisions in `app/page.tsx` |
| `sign_in.dfy` | the whole sign-in round, from the page's connect link to the page loading the callback's redirect |

The data routes read ids that may be absent (`item.track?.id`,
`item.track.uri`). An absent id, or an absent track, is modelled as the
empty string. Where the code tests the id for truthiness, it skips such a
track. Where the code reads `item.track.id` or `item.album.id` without a
guard, the model reads the empty string (see "Left out"). A JavaScript `Set` iterates
in insertion order, so the mega playlist's pool of track ids is modelled as
a sequence without repeats, extended in insertion order (`Seqs.InsertAll`).

The routes that stream progress run every remote call through
`retryWithBackoff(fn, 3, 1000)`. `fetch-data` and `migrate` call directly,
which is modelled as one attempt per call (`Retry.SingleAttemptIsDirect`).

## Model

| member | source | states |
|---|---|---|
| Retry.RetryWithBackoff | app/api/create-mega-playlist/route.ts:5-35 | At most `maxRetries` calls. Wait `k` is `delayMs * 2^k`. Every call before the last failed with status 502, 429 or 503. The result is the last call's own outcome. Stopping early means that outcome was not retryable. With `maxRetries <= 0` nothing is called and "Max retries exceeded" is thrown. |
| Retry.RetryFrom | app/api/create-mega-playlist/route.ts:10-33 | The same, for the loop entered at attempt `i`: waits `delayMs * 2^(i+k)`. |
| Retry.FirstSuccessReturned | app/api/create-mega-playlist/route.ts:10-13 | After only retryable failures, the first success is returned unchanged, after exactly `j + 1` calls. |
| Retry.NonRetryableThrownAtOnce | app/api/create-mega-playlist/route.ts:15-22 | A failure that is not 502/429/503 is thrown on its own attempt. No wait follows it: `j` waits for `j + 1` calls. |
| Retry.ExhaustedThrowsLastError | app/api/create-mega-playlist/route.ts:14-22 | When every attempt is retryable, all `maxRetries` calls are made and the last failure is thrown unchanged. |
| Retry.MaxRetriesExceededOnlyWithoutAttempts | app/api/create-mega-playlist/route.ts:10-34 | "Max retries exceeded" is thrown exactly when `maxRetries <= 0`. |
| Retry.SingleAttemptIsDirect | app/api/create-mega-playlist/route.ts:10-22 | One permitted attempt is a plain call: its outcome, one call, no wait. |
| Retry.TwoTransientsThenSuccess | app/api/create-mega-playlist/route.ts:14-31 | Worked example, not a general property: two 503s, then a success, with the routes' 3 attempts: three calls, with waits `delayMs` and `2 * delayMs`. |
| Retry.TotalWait | app/api/create-mega-playlist/route.ts:25-31 | The total time waited is `delayMs * (2^n - 1)` for `n` waits. |
| Paging.ShortPages | app/api/fetch-data/route.ts:101-114 | The short-page loop on `n` items makes `floor(n / limit) + 1` calls at offsets `0, limit, 2 * limit, …`. Every page but the last is full, and the last holds `n % limit` items. The pages concatenate to the whole listing, in order. |
| Paging.ShortPagesStepped | app/api/fetch-data/route.ts:106-111 | Each call's offset is the previous one plus `limit`. Each page is the server's window at that offset. |
| Paging.ShortPagesCount | app/api/fetch-data/route.ts:106-111 | From `offset`, the loop makes `floor((n - offset) / limit) + 1` calls. |
| Paging.ShortPagesFull | app/api/fetch-data/route.ts:106-111 | The loop goes on only after a full page. |
| Paging.ShortPagesLast | app/api/fetch-data/route.ts:106-111 | The last page holds the `(n - offset) % limit` remaining items. |
| Paging.ShortPagesItems | app/api/fetch-data/route.ts:101-114 | Every item from `offset` on is read once, in listing order. |
| Paging.ExactMultipleEndsWithEmptyPage | app/api/create-mega-playlist/route.ts:84-95 | A listing whose length is a multiple of the limit costs one more call, which returns an empty page. |
| Paging.TotalPages | app/api/migrate/route.ts:5-23 | `getAllItems` makes `max(1, ceil(total / limit))` calls and always at least one. The items it reads are a prefix of the listing, and are all of it when `total` is the listing's length. |
| Paging.TotalPagesStepped | app/api/migrate/route.ts:15-20 | Offsets grow by `limit` per call. Each page is the window at its offset. |
| Paging.TotalPagesCount | app/api/migrate/route.ts:15-20 | The call count is `max(1, ceil((total - offset) / limit))`. The last offset is below `total` (or is the start), and the last offset plus `limit` reaches `total`. |
| Paging.TotalPagesPrefix | app/api/migrate/route.ts:15-20 | What is read is a prefix of the listing from `offset`. |
| Paging.TotalPagesComplete | app/api/migrate/route.ts:5-23 | When the server's `total` covers the listing, everything from `offset` on is read, in order. |
| Paging.ResumeAfterLast | app/api/fetch-data/route.ts:183-188 | Sending the last id of a page with `next` resumes the listing exactly `limit` places further. |
| Paging.CursorStep | app/api/fetch-data/route.ts:183-188 | One call of a cursor loop splits the rest of the listing into the page it read and what follows. When the page has `next`, the cursor it hands on starts exactly `limit` places further. Without `next`, nothing follows. |
| Paging.CursorNamed | app/api/migrate/route.ts:121-124 | When no artist id is empty, a page with `next` hands on a truthy cursor, so the migrate loop does not stop there. |
| Paging.FollowByNextItems | app/api/fetch-data/route.ts:183-188 | The fetch-data loop reads the first page's artists and then, when that page has `next`, what the loop resumed from the last id reads. |
| Paging.FollowByCursorItems | app/api/migrate/route.ts:121-125 | The migrate loop reads the first page's artists and then, when `cursors.after` is truthy, what the loop resumed from it reads. |
| Paging.FollowByCursorPrefix | app/api/migrate/route.ts:121-125 | The migrate loop reads a prefix of the followed artists after its starting cursor. |
| Paging.FollowByCursorAll | app/api/migrate/route.ts:121-125 | When no artist id is empty, the migrate loop reads every followed artist after its starting cursor. |
| Paging.FollowByNextChained | app/api/fetch-data/route.ts:179-191 | Each call sends the cursor the previous page named, and each page is the server's answer to it. The last page has no `next`. |
| Paging.FollowByNextGoesOn | app/api/fetch-data/route.ts:186 | Every page but the last has `next`, so the loop stops only on the final page. |
| Paging.FollowByNextSendsLastId | app/api/fetch-data/route.ts:183-188 | Every call after the first sends as `after` the id of the last artist of the previous page, and that page is never empty. |
| Paging.FollowByNextCount | app/api/fetch-data/route.ts:179-191 | The loop makes `max(1, ceil(remaining / limit))` calls. |
| Paging.FollowByNextReadsAll | app/api/fetch-data/route.ts:179-191 | Every artist after the starting cursor is read once, in order. |
| Paging.FollowByCursorChained | app/api/migrate/route.ts:121-125 | The migrate loop, which goes on while `cursors.after` is truthy, sends each page's cursor to the next call. |
| Paging.FollowByCursorReads | app/api/migrate/route.ts:121-125 | The migrate loop reads a prefix of the followed artists, and all of them when no artist id is empty. |
| Paging.CursorLoopsAgree | app/api/migrate/route.ts:121-125 | When no artist id is empty, the migrate loop and the fetch-data loop (`next`-driven) make the same calls. |
| Seqs.Chunks | app/api/migrate/route.ts:38-41 | Slicing by `size` gives `ceil(n / size)` non-empty slices of at most `size`. All but the last are full, and their concatenation is the whole list. |
| Seqs.Batches | app/api/create-mega-playlist/route.ts:223-237 | The same, for the slices from a start index. |
| Seqs.InsertAll | app/api/create-mega-playlist/route.ts:89-91 | Adding ids to the pool keeps the pool's earlier contents, in order, as a prefix. |
| Seqs.InsertAllSet | app/api/create-mega-playlist/route.ts:79-91 | The pool stays free of repeats, and its members are exactly the old members and the ids added. |
| Seqs.InsertAllFlatten | app/api/create-mega-playlist/route.ts:84-95 | Adding a run of pages is adding the first page, then the rest. |
| Strings.NatToString | app/api/callback/route.ts:73 | `toString` of a non-negative integer is a non-empty string of decimal digits. |
| Strings.ParseNatToString | app/api/callback/route.ts:73 | Reading the digits back gives the number. |
| Strings.Split | app/api/callback/route.ts:25 | `split` always returns at least one piece. |
| Strings.SplitJoin | app/api/callback/route.ts:25 | Joining the pieces with the separator gives back the string. |
| Strings.SplitStream | app/page.tsx:155-157 | Splitting `buffer + chunk` gives the finished pieces of `buffer`, then the pieces of its unfinished last piece followed by the chunk. |
| Strings.ReplaceFirstSuffix | app/api/callback/route.ts:11-13 | Replacing the first "/api/callback" of `b + "/api/callback"` gives `b` when `b` holds no earlier occurrence. |
| Strings.ReplaceFirstAbsent | app/api/callback/route.ts:11-13 | A string without the pattern is left unchanged. |
| Urls.ReadBack | app/page.tsx:60-65 | Reading a key from `path?query`, when keys and values need no escaping, gives the first value written for it, or nothing. |
| Urls.ReadBackAll | app/page.tsx:60-65 | The same, for every key at once. |
| Api.Execute | app/api/create-mega-playlist/route.ts:74-255 | A run stops at the first call whose `retryWithBackoff` run throws, for any retry policy. Every call made before it came back. The failure is the error that call's retried run threw. The events written and calls made are exactly those of the script up to that point. It fails only at a call, and succeeds exactly when the whole script ran. |
| Api.ExecuteFrom | app/api/create-mega-playlist/route.ts:74-255 | From call number `c`: the events written and calls made are those of the script up to the stop point. It stops short only at a call step, and stops short exactly when a failure is recorded. How the failure relates to the service's answers is `Api.ExecuteStopsAtFirstFailure`. |
| Api.ExecuteStopsAtFirstFailure | app/api/create-mega-playlist/route.ts:74-255 | For any retry policy and any starting call `c`: every call made, `c` onward, came back from its retried run. A failure is the error thrown by the retried run of the next call. |
| Api.ExecuteAllSucceed | app/api/create-mega-playlist/route.ts:74-255 | When no attempt is rejected, every event and call of the script happens, in order. |
| Api.ExecuteWithoutRetries | app/api/migrate/route.ts:150-181 | With one attempt per call, a run stops at the first rejected call and throws that call's error. Every call before it was accepted. |
| Api.RejectionEndsRun | app/api/migrate/route.ts:150-189 | The calls made are a prefix of the script, and each was accepted. A failure is the rejection of the next call, which exists. |
| Api.CallsBeforeCall | app/api/migrate/route.ts:150-189 | The calls before a call step are fewer than the script's. |
| Api.EventsOfPrefix | app/api/create-mega-playlist/route.ts:74-255 | A prefix of a script writes a prefix of its events. |
| Api.CallsOfPrefix | app/api/create-mega-playlist/route.ts:74-255 | A prefix of a script makes a prefix of its calls. |
| Api.TrackIds | app/api/fetch-data/route.ts:151-156 | Dropping items without a track id never adds any. |
| Api.TrackIdsMembers | app/api/fetch-data/route.ts:151-156 | The ids kept are exactly the non-empty track ids of the items. |
| Api.TrackIdsAppend | app/api/fetch-data/route.ts:150-159 | The ids of several pages are the ids of each page, concatenated in order, duplicates kept. |
| Api.Uri | app/api/create-liked-songs-playlist/route.ts:144 | A track URI is 14 characters longer than its id. |
| Api.UriInjective | app/api/create-mega-playlist/route.ts:218-220 | The id can be read back from its URI, so distinct ids give distinct URIs. |
| Api.UrisDistinct | app/api/create-mega-playlist/route.ts:218-220 | The URIs of ids without repeats have no repeats. |
| Api.SteppedPageCalls | app/api/fetch-data/route.ts:106-111 | An offset loop that steps by the limit makes one call per page, and call `k` asks for the start offset plus `k` limits. The short-page loop is such a loop, starting at 0. |
| Api.PageCallsEvents | app/api/fetch-data/route.ts:106-111 | An offset loop writes nothing to the target and reports nothing. |
| Api.CallsOfCallSteps | app/api/fetch-data/route.ts:32-44 | A script of calls only makes exactly those calls. |
| Api.FollowedCalls | app/api/fetch-data/route.ts:183-188 | The artist loop makes one call per page. The first call sends the starting cursor, and every later call sends the id of the last artist on the previous page, which is never empty. |
| Api.CursorCallsReadOnly | app/api/fetch-data/route.ts:183-188 | The cursor loop makes those calls and only reads. |
| Api.ShapeAppend | app/api/create-mega-playlist/route.ts:74-237 | Two phases that only report progress, or only read, still do so together. |
| EventStream.ReadBody | app/page.tsx:146-181 | The page's read loop over any chunks yields the payloads of the finished pieces of the whole body. Its final buffer is the unfinished rest: finished pieces and buffer, joined by blank lines, give back the body. |
| EventStream.Receive | app/page.tsx:155-157 | A chunk only re-splits the unfinished piece. The finished pieces so far stay as they are. |
| EventStream.FinishedThenUnfinished | app/page.tsx:156-157 | A buffer is its finished pieces and its unfinished rest, joined by blank lines. |
| EventStream.PayloadsAppend | app/page.tsx:159-161 | The payloads of two runs of pieces are those of each run, in order. |
| EventStream.FrameEndsBefore | app/api/create-mega-playlist/route.ts:50 | A frame whose payload has no line break holds no blank line before its end. |
| EventStream.SplitBody | app/api/create-mega-playlist/route.ts:45-51 | The body of single-line payloads splits into `data: <payload>` pieces and one empty rest. |
| EventStream.PayloadsOfPieces | app/page.tsx:160-161 | Removing the 6-character `data: ` prefix from each piece gives back the payloads. |
| EventStream.ReadsWhatWasWritten | app/page.tsx:155-161 | Round trip: however the body of single-line payloads is cut into chunks, the reader recovers exactly the payloads written, in order, and ends with an empty buffer. |
| EventStream.NoBlankLineNoPayload | app/page.tsx:155-161 | A body without a blank line yields no payload under any chunking. It stays in the buffer. |
| EventStream.TrailingLineBreakLosesFrames | app/page.tsx:155-161 | Having no blank line is not enough: a payload `"x\n"` eats the next frame's `data: ` prefix, and that frame is dropped. |
| PlaylistStream.AddBatchCalls | app/api/create-mega-playlist/route.ts:223-237 | The write loop makes one add call per consecutive slice of at most 100 URIs. |
| PlaylistStream.AddBatchReports | app/api/create-mega-playlist/route.ts:230-235 | After each slice it reports the number of URIs added so far, out of the total. |
| PlaylistStream.ReportsCount | app/api/create-mega-playlist/route.ts:230-235 | Report `k` counts the URIs of slices `0..k`. |
| PlaylistStream.AddBatchProgress | app/api/create-mega-playlist/route.ts:223-237 | One report per slice, counting the URIs added so far. |
| PlaylistStream.AddBatchesCoverUris | app/api/create-mega-playlist/route.ts:223-237 | The add calls carry consecutive slices of at most 100 that concatenate to all URIs. There are `ceil(n / 100)` of them. The count reported after slice `k` is the number of URIs in slices `0..k`, and the last report is `n`. |
| PlaylistStream.AddBatchStepsProgress | app/api/create-mega-playlist/route.ts:223-237 | The write loop reports progress only. |
| PlaylistStream.WriteHeadShape | app/api/create-mega-playlist/route.ts:193-207 | Creating the playlist is one public create call, and only progress is reported. |
| PlaylistStream.WriteStepsShape | app/api/create-mega-playlist/route.ts:193-253 | The write phase is one create call, then the add calls on the new playlist's id. Its last event is COMPLETE with the playlist's URL, id and track count. |
| PlaylistStream.WriteAfter | app/api/create-mega-playlist/route.ts:193-253 | The same, after any collecting phase. |
| PlaylistStream.CollectThenWrite | app/api/create-mega-playlist/route.ts:74-253 | COMPLETE can only be the last event of a playlist script. |
| PlaylistStream.UnauthenticatedStream | app/api/create-mega-playlist/route.ts:61-66 | Without a source token the stream makes no call and writes only "Error: Not authenticated". |
| PlaylistStream.StreamSucceeds | app/api/create-mega-playlist/route.ts:74-255 | When nothing is rejected the stream writes every event of the script and makes every call. |
| PlaylistStream.CollectWriteSucceeds | app/api/create-mega-playlist/route.ts:74-255 | Such a stream ends with the COMPLETE event for the created playlist. |
| PlaylistStream.StreamEndsAtFirstFailure | app/api/create-mega-playlist/route.ts:74-270 | With a token, every call made came back from its three-attempt retried run. The whole script runs, and the stream carries its events, exactly when every call of the script comes back. Otherwise the run stops at the first call whose retried run threw. The last event is then "Error: " + that error's message. |
| PlaylistStream.StreamStopsAtFailure | app/api/create-mega-playlist/route.ts:256-270 | The calls made are a prefix of the script. The events are either all of the script's, or a prefix of them followed by one "Error: …" progress event, with no COMPLETE. The script ran to its end exactly when all its calls came back. Otherwise the last event carries the message of the first call whose retried run threw. |
| PlaylistStream.InterruptedShape | app/api/create-mega-playlist/route.ts:256-270 | A script cut off before its end and followed by an error event contains no COMPLETE event. |
| LikedSongsPlaylist.LikedPageCalls | app/api/create-liked-songs-playlist/route.ts:84-101 | Call `k` of the loop fetches page `k` of the liked songs, at its offset, with limit 50. |
| LikedSongsPlaylist.LikedPageEvents | app/api/create-liked-songs-playlist/route.ts:93-96 | The loop writes one report per page. |
| LikedSongsPlaylist.FetchReportsCount | app/api/create-liked-songs-playlist/route.ts:89-96 | Report `k` counts the ids collected up to and including page `k`, duplicates kept. |
| LikedSongsPlaylist.LikedPageReports | app/api/create-liked-songs-playlist/route.ts:89-96 | After each page, the progress count is the number of ids collected so far. |
| LikedSongsPlaylist.LikedPageShape | app/api/create-liked-songs-playlist/route.ts:84-101 | The loop only reads and only reports progress. |
| LikedSongsPlaylist.CollectStepsReadOnly | app/api/create-liked-songs-playlist/route.ts:76-106 | Collecting liked songs only reads and only reports progress. |
| LikedSongsPlaylist.CollectStepsShape | app/api/create-liked-songs-playlist/route.ts:84-101 | `floor(n / 50) + 1` pages at offsets `50k`. Call `k` fetches page `k`, and event `k` reports the running count. The last report counts every liked id. |
| LikedSongsPlaylist.OffsetsAreMultiples | app/api/create-liked-songs-playlist/route.ts:84-101 | Offsets grow by 50 per page. |
| Paging.SteppedOffset | app/api/create-liked-songs-playlist/route.ts:84-101 | In a loop that steps by the limit, page `k` is fetched at the start offset plus `k` limits, so the liked-songs route reads page `k` at offset `50k`. |
| LikedSongsPlaylist.NoLikedSongsAborts | app/api/create-liked-songs-playlist/route.ts:108-115 | With no ids collected, the route only reads, creates no playlist, and ends with "Error: No liked songs found". |
| LikedSongsPlaylist.LikedWrites | app/api/create-liked-songs-playlist/route.ts:119-161 | Otherwise it reads, creates one playlist named for the day and described with the count, then adds the ids' URIs in `ceil(n / 100)` slices that concatenate to all of them, in order. |
| LikedSongsPlaylist.LikedCompletes | app/api/create-liked-songs-playlist/route.ts:168-177 | When nothing is rejected, every call is made, and the last event is COMPLETE with `totalTracks` equal to the number of collected ids. |
| LikedSongsPlaylist.LikedFailureReported | app/api/create-liked-songs-playlist/route.ts:180-194 | The route runs to its end exactly when every call's three-attempt retried run comes back. Otherwise it stops at the first call whose run threw. It ends the stream with "Error: " + that error's message, after a prefix of the script's events, and sends no COMPLETE. |
| MegaPlaylist.PlaylistIdsMembers | app/api/create-mega-playlist/route.ts:134-148 | The ids taken from playlists are exactly the non-empty track ids of their items. |
| MegaPlaylist.AlbumIdsMembers | app/api/create-mega-playlist/route.ts:177-182 | The ids taken from albums are exactly the non-empty ids of each album's one page of tracks. |
| MegaPlaylist.PoolIsLibrarySet | app/api/create-mega-playlist/route.ts:79-182 | The pool is a set: every non-empty id of a liked song, playlist track or album track appears exactly once, and nothing else does. Its size is the number of distinct ids. |
| MegaPlaylist.PlaylistStepsEvents | app/api/create-mega-playlist/route.ts:126-149 | The playlist phase writes one report per playlist. |
| MegaPlaylist.PlaylistNotesCount | app/api/create-mega-playlist/route.ts:128-132 | Report `k` names playlist `k`, with the pool's size before it and the playlist total. |
| MegaPlaylist.PlaylistStepsReport | app/api/create-mega-playlist/route.ts:126-149 | Before reading each playlist, the route reports its name, the distinct ids pooled so far and the number of playlists. |
| MegaPlaylist.PlaylistStepsReadOnly | app/api/create-mega-playlist/route.ts:126-149 | The playlist phase only reads. |
| MegaPlaylist.AlbumStepsCalls | app/api/create-mega-playlist/route.ts:171-184 | Each album costs exactly one unpaginated track call, in album order. |
| MegaPlaylist.AlbumStepsReadOnly | app/api/create-mega-playlist/route.ts:171-184 | The album phase only reads. |
| MegaPlaylist.AlbumStepsReport | app/api/create-mega-playlist/route.ts:173-176 | Before each album, the route reports its name and the distinct ids pooled so far. |
| MegaPlaylist.OpeningStepsShape | app/api/create-mega-playlist/route.ts:76-118 | The liked-songs and playlist-listing phase only reads and reports progress. |
| MegaPlaylist.AlbumPhaseShape | app/api/create-mega-playlist/route.ts:156-189 | The album phase only reads and reports progress. |
| MegaPlaylist.CollectStepsShape | app/api/create-mega-playlist/route.ts:76-189 | Collecting only reads and reports progress. |
| MegaPlaylist.MegaWrites | app/api/create-mega-playlist/route.ts:193-237 | After reading, the route creates one playlist named for the day and described with the pool's size. It then adds the pool's URIs, without repeats, in slices of 100. |
| MegaPlaylist.MegaCompletes | app/api/create-mega-playlist/route.ts:244-253 | When nothing is rejected, the last event is COMPLETE with `totalTracks` equal to the pool's size. |
| MegaPlaylist.MegaFailureReported | app/api/create-mega-playlist/route.ts:256-270 | The route runs to its end exactly when every call's three-attempt retried run comes back. Otherwise it stops at the first call whose run threw. It ends the stream with "Error: " + that error's message, after a prefix of the script's events, and sends no COMPLETE. |
| FetchData.SnapshotKeepsPlaylist | app/api/fetch-data/route.ts:131-136 | A snapshot keeps the playlist's name and its track ids, in order. The description defaults to "", and `isPublic` is true only when `public` is true. |
| FetchData.CollectedIsLibrary | app/api/fetch-data/route.ts:32-82 | The data holds the liked ids, one snapshot per playlist in listing order, the album ids and the artist ids. Each count is the length of its array. |
| FetchData.PlaylistPageReadOnly | app/api/fetch-data/route.ts:127-137 | Reading a page of playlists only reads. |
| FetchData.PlaylistListingReadOnly | app/api/fetch-data/route.ts:116-143 | Reading all playlists only reads. |
| FetchData.ScriptReadOnly | app/api/fetch-data/route.ts:32-44 | The route never writes to any account. |
| FetchData.ArtistCursors | app/api/fetch-data/route.ts:179-191 | The artists are read by a chained cursor loop of `max(1, ceil(n / 50))` calls, starting without a cursor. |
| FetchData.Unauthenticated | app/api/fetch-data/route.ts:9-19 | Without a source token the reply is 401 "Source account not authenticated", and no call is made. |
| FetchData.FetchSucceeds | app/api/fetch-data/route.ts:32-83 | When nothing is rejected, every call is made. The reply carries the liked ids, the artists and the four counts. |
| FetchData.FetchFailsAtFirstRejection | app/api/fetch-data/route.ts:84-98 | The calls made are a prefix of the script, each accepted. A failure is a 500 whose `details` is the message of the first rejected call. |
| Migrate.ReadAllItems | app/api/migrate/route.ts:5-23 | `getAllItems` over a listing whose `total` is its length returns every item in order, in `max(1, ceil(n / 50))` calls. |
| Migrate.ReadStepsShape | app/api/migrate/route.ts:5-23 | Reading a listing makes `max(1, ceil(n / 50))` read calls, with no write, create or report. |
| Migrate.SaveStepsCalls | app/api/migrate/route.ts:38-41 | The save loop makes one save call per slice, in order. |
| Migrate.AddStepsCalls | app/api/migrate/route.ts:81-84 | The add loop makes one add call per slice on the new playlist, in order. |
| Migrate.PlaylistUrisMembers | app/api/migrate/route.ts:68-70 | A playlist's URIs are exactly the non-empty URIs of its items. |
| Migrate.OwnedMembers | app/api/migrate/route.ts:58 | Only playlists owned by the source user are considered. |
| Migrate.CopyOneCreates | app/api/migrate/route.ts:72-84 | A playlist without URIs gets no create call. Any other gets exactly one, copying its name, description-or-"" and `public ?? false`. |
| Migrate.CopyStepsCreates | app/api/migrate/route.ts:60-88 | The create calls are one per copied playlist, in order. |
| Migrate.PlaylistCountIsCreates | app/api/migrate/route.ts:46-90 | The playlist count returned is the number of create calls made. |
| Migrate.LikedSongsCopied | app/api/migrate/route.ts:25-44 | Liked songs: the reads, then saves of the ids in slices of 50. These saves are the only writes, `ceil(n / 50)` of them. |
| Migrate.AlbumsCopied | app/api/migrate/route.ts:92-110 | The album phase's writes are saves of the album ids in slices of 50, `ceil(n / 50)` of them. |
| Migrate.ArtistsCopied | app/api/migrate/route.ts:112-135 | The artist phase's writes are follows of the artist ids read, in slices of 50. |
| Migrate.ArtistsRead | app/api/migrate/route.ts:121-127 | The artists read are a prefix of the followed artists, and all of them when no id is empty. |
| Migrate.GetMeFirst | app/api/migrate/route.ts:157-158 | The route's first call looks up the source user. |
| Migrate.SaveLimits | app/api/migrate/route.ts:38-41 | Every save call carries at most 50 ids. |
| Migrate.AddLimits | app/api/migrate/route.ts:81-84 | Every add call carries at most 100 URIs. |
| Migrate.CopyLimits | app/api/migrate/route.ts:60-88 | Copying playlists respects both limits. |
| Migrate.ScriptWithinLimits | app/api/migrate/route.ts:150-175 | No call of the route exceeds 50 ids per save or 100 URIs per add. |
| Migrate.BothTokensRequired | app/api/migrate/route.ts:143-148 | The reply is 401 exactly when a token is missing, and then no call is made. |
| Migrate.MigrateSucceeds | app/api/migrate/route.ts:150-180 | When nothing is rejected, every call is made in the order liked, playlists, albums, artists. The results count the liked songs, copied playlists, albums and artists read. |
| Migrate.MigrateFailsAtFirstRejection | app/api/migrate/route.ts:181-189 | The calls made are a prefix of the script, each accepted. A failure is a 500 with no results, whose `details` is the first rejected call's message. |
| Auth.AuthorizeAccepts | app/api/auth/route.ts:8-13 | Only "source" and "target" are accepted. Anything else, absence included, gets 400 and no redirect. |
| Auth.StateReadsBack | app/api/auth/route.ts:15 | The state is the account, "_", and the decimal timestamp, which reads back to the time. |
| Callback.HandleCallback | app/api/callback/route.ts:4-89 | The code is exchanged exactly when there is no error, a code and a state, and the state's first field is a role. Cookies are set exactly when the exchange succeeds. Every redirect goes to `baseUrl + "/?"`. |
| Callback.ErrorFirst | app/api/callback/route.ts:15-17 | An `error` parameter redirects to `baseUrl/?error=<error>` before anything else, with no cookie and no exchange. |
| Callback.ErrorCodes | app/api/callback/route.ts:19-88 | Three error redirects: a missing code or state gives `missing_params`. A bad account field gives `invalid_state`, without an exchange. A failed exchange gives `auth_failed`, without cookies. |
| Callback.CookiesOnSuccess | app/api/callback/route.ts:39-79 | Exactly three cookies are set: `<role>_access_token`, `<role>_refresh_token` and `<role>_expires_at`. Access and expiry live `expires_in` seconds, refresh 2592000. The expiry value is `now + 1000 * expires_in`. |
| Callback.CookieNamesDisjoint | app/api/callback/route.ts:57-79 | The six cookie names of the two roles are all different. |
| Callback.BaseUrlUnset | app/api/callback/route.ts:11-13 | With no redirect URI configured, the base is the request origin. |
| Callback.BaseUrlStripsPath | app/api/callback/route.ts:11-13 | A redirect URI ending in "/api/callback" gives its prefix, or the origin when that prefix is empty. |
| Callback.BaseUrlOtherPath | app/api/callback/route.ts:11-13 | A redirect URI without "/api/callback" is the base itself. |
| Callback.ConnectedQuery | app/api/callback/route.ts:42-51 | The success query is `account=<role>&status=connected`. When a mode exists, it adds `&mode=<mode>&step=fetch-data` for source or `&step=migrate` for target. |
| Callback.ConnectedUrlIsQuery | app/api/callback/route.ts:42 | The success redirect is the base, "/", "?" and that query. |
| Callback.ConnectedValues | app/api/callback/route.ts:42-51 | That query gives `account`, `status`, `mode` and `step` exactly those values, and has no `error`. |
| Callback.ReadConnectedUrl | app/api/callback/route.ts:42-51 | The page's `URLSearchParams` reads those values back from the redirect. |
| Logout.Delete | app/api/logout/route.ts:15-17 | The jar after deleting some names holds every other cookie, with its value, and none of those names. |
| Logout.HandleLogout | app/api/logout/route.ts:4-20 | Success exactly for "source" or "target". A rejected request leaves the jar unchanged. |
| Logout.LogoutRemovesExactly | app/api/logout/route.ts:15-17 | A valid account loses exactly its three cookies. Every other cookie keeps its value. |
| Logout.LogoutKeepsOtherRole | app/api/logout/route.ts:15-17 | Logging one role out leaves the other role's cookies as they were. |
| Logout.LogoutIdempotent | app/api/logout/route.ts:15-19 | Logging out twice gives the same reply and jar as logging out once. |
| Logout.SetCookies | app/api/callback/route.ts:57-79 | After setting cookies, the jar holds exactly the old names and the names set. |
| Logout.SetCookiesElsewhere | app/api/callback/route.ts:57-79 | A cookie that is not set keeps its value. |
| Logout.LogoutUndoesSignIn | app/api/logout/route.ts:15-17 | Logging a role out after its sign-in leaves the jar as it was before, minus that role's earlier cookies. |
| Client.MessageOf | app/page.tsx:163 | The page sees stage "COMPLETE" exactly for the COMPLETE event, or a progress event so named. |
| Client.Shown | app/page.tsx:173-177 | Progress shows the stage and total. The count is 0 exactly when it is absent or zero. |
| Client.OnLoad | app/page.tsx:57-84 | An `error` parameter changes neither step nor mode and loads no user. A user is loaded only for the role named by `account`. |
| Client.OnLoadStep | app/page.tsx:72-75 | A `mode` parameter sets the mode and the step, which is "fetch-data" when no step is given. Without a mode the page is unchanged. |
| Client.ConnectQuery | app/page.tsx:122-125 | The connect link's query is `account=<role>`, plus `&mode=<mode>` when a mode is chosen. |
| Client.ConnectUrlIsQuery | app/page.tsx:122-125 | The connect link is `/api/auth?` and that query. |
| Client.ReadConnectUrl | app/page.tsx:122-125 | The auth route reads the role and the mode back from the link. |
| Client.AfterFetchChoice | app/page.tsx:187-193 | After fetching, "mega-playlist" and "liked-songs-playlist" lead to "create-playlist", and every other mode to "connect-target". |
| Client.EndpointChoice | app/page.tsx:265-268 | "liked-songs-playlist" posts to the liked-songs route, and every other mode to the mega-playlist route. |
| Client.Messages | app/page.tsx:159-162 | One parsed message per payload. |
| Client.AbsorbAll | app/page.tsx:159-178 | After processing the messages: the last non-COMPLETE one is the progress shown. A COMPLETE last one is kept as the result, and progress is cleared when the page clears it. Without COMPLETE the result is unchanged. |
| Client.AbsorbEvents | app/page.tsx:293-310 | The same, stated for the route events behind the payloads. |
| Client.HandleFetchData | app/page.tsx:127-202 | The mode never changes. The step changes only to the step chosen after fetching. A failed response shows "Failed to fetch data" and keeps the step. |
| Client.FetchDataJsonNeverAdvances | app/page.tsx:146-183 | A plain one-line JSON body, however chunked, leaves the page with no data and no step change, stuck at "Starting...". |
| Client.FramedFetchDataAdvances | app/page.tsx:146-194 | The same reply framed as one `data:` event is stored, clears progress, and moves to the step chosen after fetching. |
| Client.HandleCreatePlaylist | app/page.tsx:258-323 | The mode and stored data never change. The step changes only to "complete". A failed response shows "Failed to create playlist". |
| Client.PlaylistRunShown | app/page.tsx:281-310 | A stream written by a playlist route is read back event by event. Ending in COMPLETE shows the playlist URL and moves to "complete". Ending in progress shows that progress and keeps the step. |
| Client.HandleMigrate | app/page.tsx:204-256 | A request is sent exactly when migration data is stored. Without stored data, earlier results are cleared and the "No migration data found" error is shown. The step changes only to "complete", after a successful reply. |
| Client.MigrateReplyShown | app/page.tsx:240-249 | Success shows the results, moves to "complete" and clears the stored data. A refusal shows its error and keeps the data and step. |
| SignIn.RoleNameWord | app/api/auth/route.ts:15 | A role name has no "_" and needs no escaping. |
| SignIn.DigitsNoMode | app/api/callback/route.ts:27 | A timestamp is never "none", nor any of the three modes. |
| SignIn.SplitTwo | app/api/callback/route.ts:25 | A state of two "_"-free fields splits into those two. |
| SignIn.SplitThree | app/api/callback/route.ts:25 | A state of three "_"-free fields splits into those three. |
| SignIn.StateAsRead | app/api/callback/route.ts:25-27 | The callback reads the auth route's state as the right account, with the timestamp as its mode. |
| SignIn.StateWithModeAsRead | app/api/callback/route.ts:25-27 | A state `account_mode_timestamp` reads back the account and the mode, or no mode for "none". |
| SignIn.AsWrittenReturnsTo | app/api/callback/route.ts:42-51 | The sign-in round as written returns the page to the connected URL whose mode is the timestamp. |
| SignIn.WithModeReturnsTo | app/api/callback/route.ts:42-51 | With the mode in the state, the round returns to the connected URL carrying the page's mode. |
| SignIn.TimestampBecomesMode | app/api/auth/route.ts:15 | As written, after signing in, the page's mode is the timestamp's digits, never the mode chosen. After fetching, the page therefore always moves on to "connect-target". |
| SignIn.ModeSurvivesSignIn | app/api/callback/route.ts:24-51 | With the mode in the state, the page keeps its mode, moves to the role's step and loads the role's user. Without a mode the page stays as it was. |

## Left out

- The JSX rendering of `app/page.tsx` is not part of this model, and neither is `app/page_old.tsx`, an older copy of the same flow.
- `app/api/user/route.ts` is not part of this model. It wraps one remote lookup, `getMe`, behind the same account check the other routes make.
- `lib/spotify.ts` builds the client and the consent URL inside the client library. The consent redirect is modelled only by the state it carries.
- `lib/types.ts` declares types only.
- The remote API itself is an oracle:
  - listings are sequences;
  - created playlists are parameters;
  - rejections come from a responder.
- Responses that are malformed (a missing `body`, a missing `items`) are not modelled.
- FetchData.Collected, Migrate.LikedIds and Migrate.AlbumIds read a missing track or album (`item.track` or `item.album` null) as the empty id. The source reads `item.track.id` and `item.album.id` without a guard (app/api/fetch-data/route.ts:108 and :171, app/api/migrate/route.ts:35 and :102), so such an item throws a `TypeError` there. That makes fetch-data answer 500 "Failed to fetch data" and migrate answer 500 "Migration failed". So FetchData.FetchSucceeds and Migrate.MigrateSucceeds promise a reply with "" in the id list where the source fails. The `Album` datatype has no absent value, so the mega playlist's throw on a null `item.album` (app/api/create-mega-playlist/route.ts:174-178) is not modelled either.
- Time is a parameter:
  - `Date.now()` appears as `now` / `later`;
  - `toLocaleDateString` / `toLocaleString` appear as the `today` / `now` strings;
  - the backoff sleeps of `retryWithBackoff` are recorded as values (`Retry.Run.delays`), not waited for;
  - the routes' 100 ms pauses between pages and batches (app/api/create-mega-playlist/route.ts:94, :117, :147, :168, :183, :236; app/api/create-liked-songs-playlist/route.ts:100, :160) are dropped and not recorded;
  - the page's `setTimeout` before changing step is dropped: the model changes the step at once. That delay is 500 ms after fetching (app/page.tsx:187) and 1000 ms after COMPLETE (app/page.tsx:300). Client.HandleFetchData and Client.HandleCreatePlaylist therefore give the step the page reaches once the timer fires.
- JSON is not modelled:
  - a payload is an opaque string with no line break;
  - `JSON.parse` is a parameter `parse`, so a payload that fails to parse is possible but its message is not computed.
- Percent-encoding and decoding of URL parameters is not modelled. The URL lemmas require keys and values that need no escaping.
- The route's detached `async` task, the `TransformStream` and `TextDecoder` are not modelled. The body is the concatenation of its frames, delivered in arbitrary chunks.
- The cookie flags (`httpOnly`, `secure`, `sameSite`, `path`) are the same on every cookie and are not modelled. `localStorage` is reduced to "data is stored or not", and `history.pushState` is not modelled.
- Logging is not modelled.
- Throws of non-`Error` values (`String(error)`, "Unknown error", "Failed to create playlist") are not modelled: every rejection is an `Error` with a message.
- `migrate` ignores its request body and reads the source account afresh. The model does the same and takes no migration data as input.
- Where the code behaves in a way one might not expect, the model follows the code:
  - `migrate` saves albums in slices of 50;
  - the mega playlist reads each album's tracks with one unpaginated call;
  - the `fetch-data` snapshot carries no playlist id;
  - `migrate` does not drop liked songs without an id;
  - `fetch-data` replies with plain JSON rather than a stream (see Findings).

## Findings

| source | as written | input that shows it | evidently intended | confidence | as-written member | corrected member |
|---|---|---|---|---|---|---|
| app/api/auth/route.ts:15 | The state is `account_timestamp`. The callback (app/api/callback/route.ts:24-27) splits it as `account_mode_timestamp`, so it takes the timestamp as the mode. The page's `mode` parameter to the auth route is ignored. | Connect the source in mode "mega-playlist" at time 1700000000000. The state is `source_1700000000000`. The redirect carries `mode=1700000000000&step=fetch-data`, and after fetching the page moves to "connect-target" instead of "create-playlist". | The state carries the page's mode, as `account_mode_timestamp` with "none" for no mode. | not executed | SignIn.TimestampBecomesMode (round: SignIn.SignInAsWritten, state: Auth.Authorize) | SignIn.ModeSurvivesSignIn (round: SignIn.SignIn, state: Auth.AuthorizeWithMode) |
| app/api/fetch-data/route.ts:74-83 | The route replies with one plain JSON object. `handleFetchData` (app/page.tsx:146-183) reads the body as an event stream and only acts on a `data: ` block followed by a blank line. | Any successful fetch: the body `{"success":true,…}` has no blank line. The reader never finishes a block, so no data is stored and the page never advances. | The reply is framed as a COMPLETE event, `data: <json>` followed by a blank line, like the playlist routes' events. | not executed | Client.FetchDataJsonNeverAdvances | Client.FramedFetchDataAdvances |

=== FILE: api.dfy ===
/** The remote music service as the routes see it: the user's library as
    data, the calls a route makes, the progress events it streams, and the
    execution of a route as a script of calls and events against an oracle
    that says which call attempts fail. */
module Api {
  import opened Base
  import opened Seqs
  import opened Retry
  import opened Paging

  /** A track; an empty `id` or `uri` stands for a missing one, and a
      missing track object (`item.track` null) is a track with both empty.
      The routes that test the id for truthiness skip such a track; the
      ones that read `item.track.id` unguarded are read here as getting
      the empty id. */
  datatype Track = Track(id: string, uri: string)

  /** A playlist as listed, with all of its items. */
  datatype Playlist = Playlist(
    id: string,
    name: string,
    description: Option<string>,
    isPublic: Option<bool>,
    ownerId: string,
    items: seq<Track>)

  /** A saved album; `firstPage` is what one `getAlbumTracks(id)` call with
      no paging options returns. */
  datatype Album = Album(id: string, name: string, firstPage: seq<Track>)

  /** One account's library as the service lists it. */
  datatype Library = Library(
    userId: string,
    saved: seq<Track>,
    playlists: seq<Playlist>,
    albums: seq<Album>,
    artists: seq<string>)

  /** The service's answer to `createPlaylist`: the new id and its link. */
  datatype Created = Created(id: string, url: string)

  /** The offset-paged listings. */
  datatype Listing =
    | SavedTracks
    | MyPlaylists
    | UserPlaylists(userId: string)
    | PlaylistTracks(playlistId: string)
    | SavedAlbums

  /** The remote calls the routes make. */
  datatype ApiCall =
    | GetPage(listing: Listing, limit: nat, offset: nat)
    | GetAlbumTracks(albumId: string)
    | GetFollowedArtists(limit: nat, after: Option<string>)
    | GetMe
    | CreatePlaylist(name: string, description: string, isPublic: bool)
    | AddTracksToPlaylist(playlistId: string, uris: seq<string>)
    | AddToMySavedTracks(ids: seq<string>)
    | AddToMySavedAlbums(ids: seq<string>)
    | FollowArtists(ids: seq<string>)
  {
    /** Calls that change the target account. */
    predicate IsWrite()
    {
      CreatePlaylist? || AddTracksToPlaylist? || AddToMySavedTracks? || AddToMySavedAlbums? || FollowArtists?
    }
  }

  /** A streamed event: `{ stage, count, total? }`, or the final
      `{ stage: "COMPLETE", playlistUrl, playlistId, totalTracks }`. */
  datatype Event =
    | Progress(stage: string, count: int, total: Option<int>)
    | Complete(playlistUrl: string, playlistId: string, totalTracks: int)

  /** One step of a route: a remote call or an event written to the stream. */
  datatype Step = Call(call: ApiCall) | Emit(event: Event)

  /** The calls of a script, in order. */
  function Calls(steps: seq<Step>): seq<ApiCall>
  {
    if |steps| == 0 then []
    else (if steps[0].Call? then [steps[0].call] else []) + Calls(steps[1..])
  }

  /** The events of a script, in order. */
  function Events(steps: seq<Step>): seq<Event>
  {
    if |steps| == 0 then []
    else (if steps[0].Emit? then [steps[0].event] else []) + Events(steps[1..])
  }

  lemma {:induction false} CallsAppend(a: seq<Step>, b: seq<Step>)
    ensures Calls(a + b) == Calls(a) + Calls(b)
    decreases |a|
  {
    if |a| == 0 {
      assert a + b == b;
    } else {
      assert (a + b)[0] == a[0];
      assert (a + b)[1..] == a[1..] + b;
      CallsAppend(a[1..], b);
    }
  }

  lemma {:induction false} EventsAppend(a: seq<Step>, b: seq<Step>)
    ensures Events(a + b) == Events(a) + Events(b)
    decreases |a|
  {
    if |a| == 0 {
      assert a + b == b;
    } else {
      assert (a + b)[0] == a[0];
      assert (a + b)[1..] == a[1..] + b;
      EventsAppend(a[1..], b);
    }
  }

  /** A single step contributes its call or its event. */
  lemma StepSingle(x: Step)
    ensures Calls([x]) == (if x.Call? then [x.call] else [])
    ensures Events([x]) == (if x.Emit? then [x.event] else [])
  {
    assert [x][1..] == [];
  }

  /** Every event of the script is a progress event. */
  ghost predicate ProgressOnly(steps: seq<Step>)
  {
    forall e :: e in Events(steps) ==> e.Progress?
  }

  /** No call of the script changes the target account. */
  ghost predicate ReadOnly(steps: seq<Step>)
  {
    forall c :: c in Calls(steps) ==> !c.IsWrite()
  }

  /** The calls of an offset loop over `listing`, one per page fetched. */
  function PageCalls<T>(listing: Listing, limit: nat, fs: seq<PageFetch<T>>): seq<Step>
  {
    Map(fs, (f: PageFetch<T>) => Call(GetPage(listing, limit, f.offset)))
  }

  /** A page loop writes no event, only reads, and calls once per page. */
  lemma {:induction false} PageCallsEvents<T>(listing: Listing, limit: nat, fs: seq<PageFetch<T>>)
    ensures Events(PageCalls(listing, limit, fs)) == []
    ensures ReadOnly(PageCalls(listing, limit, fs))
    ensures |Calls(PageCalls(listing, limit, fs))| == |fs|
    decreases |fs|
  {
    var r := PageCalls(listing, limit, fs);
    if |fs| > 0 {
      PageCallsEvents(listing, limit, fs[1..]);
      assert r[1..] == PageCalls(listing, limit, fs[1..]);
      assert Calls(r) == [r[0].call] + Calls(r[1..]);
    }
  }

  /** A loop that steps by the limit from `offset` calls once per page,
      call `k` at offset `offset + k * limit`; for the short-page loop from
      0 (`Paging.ShortPages`) that is `floor(n / limit) + 1` calls at
      `k * limit`. */
  lemma SteppedPageCalls<T>(listing: Listing, limit: nat, fs: seq<PageFetch<T>>, items: seq<T>, offset: nat)
    requires Stepped(fs, items, limit, offset)
    ensures var cs := Calls(PageCalls(listing, limit, fs));
            && |cs| == |fs|
            && forall k :: 0 <= k < |cs| ==> cs[k] == GetPage(listing, limit, offset + k * limit)
  {
    PageCallsEvents(listing, limit, fs);
    forall k | 0 <= k < |fs| ensures Calls(PageCalls(listing, limit, fs))[k] == GetPage(listing, limit, offset + k * limit) {
      SteppedOffset(fs, items, limit, offset, k);
      PageCallAt(listing, limit, fs, k);
    }
  }

  /** Call `k` of a page loop asks for page `k`'s offset. */
  lemma PageCallAt<T>(listing: Listing, limit: nat, fs: seq<PageFetch<T>>, k: nat)
    requires k < |fs|
    ensures |Calls(PageCalls(listing, limit, fs))| == |fs|
    ensures Calls(PageCalls(listing, limit, fs))[k] == GetPage(listing, limit, fs[k].offset)
  {
    var steps := PageCalls(listing, limit, fs);
    CallsOfCallSteps(steps);
    assert steps[k] == Call(GetPage(listing, limit, fs[k].offset));
  }

  /** A script made of calls only: its calls are its steps' calls. */
  lemma {:induction false} CallsOfCallSteps(steps: seq<Step>)
    requires forall k :: 0 <= k < |steps| ==> steps[k].Call?
    ensures |Calls(steps)| == |steps|
    ensures forall k :: 0 <= k < |steps| ==> Calls(steps)[k] == steps[k].call
    ensures Events(steps) == []
    decreases |steps|
  {
    if |steps| > 0 {
      CallsOfCallSteps(steps[1..]);
      var cs := Calls(steps);
      var cr := Calls(steps[1..]);
      assert cs == [steps[0].call] + cr;
      forall k | 0 <= k < |steps|
        ensures cs[k] == steps[k].call
      {
        if k > 0 {
          assert cs[k] == cr[k - 1];
          assert steps[k] == steps[1..][k - 1];
        }
      }
    }
  }

  /** The calls of a cursor loop over followed artists, one per cursor sent. */
  function CursorCalls(limit: nat, fs: seq<CursorFetch>): seq<Step>
  {
    Map(fs, (f: CursorFetch) => Call(GetFollowedArtists(limit, f.after)))
  }

  /** The artist loop only reads. */
  lemma CursorCallsReadOnly(limit: nat, fs: seq<CursorFetch>)
    ensures ReadOnly(CursorCalls(limit, fs)) && Events(CursorCalls(limit, fs)) == []
    ensures |Calls(CursorCalls(limit, fs))| == |fs|
    ensures forall k :: 0 <= k < |fs| ==> Calls(CursorCalls(limit, fs))[k] == GetFollowedArtists(limit, fs[k].after)
  {
    var steps := CursorCalls(limit, fs);
    CallsOfCallSteps(steps);
    forall c | c in Calls(steps)
      ensures !c.IsWrite()
    {
      var k :| 0 <= k < |Calls(steps)| && Calls(steps)[k] == c;
    }
  }

  /** The artist loop's calls: the first sends the starting cursor, and
      every later one sends the id of the last artist the previous page
      returned. */
  lemma FollowedCalls(artists: seq<string>, limit: nat, after: Option<string>)
    requires Distinct(artists) && limit > 0
    ensures var fs := FollowByNext(artists, limit, after);
            var cs := Calls(CursorCalls(limit, fs));
            && |cs| == |fs|
            && cs[0] == GetFollowedArtists(limit, after)
            && forall k :: 0 < k < |cs| ==>
                 cs[k] == GetFollowedArtists(limit, LastArtist(fs[k - 1].page)) && cs[k].after.Some?
  {
    var fs := FollowByNext(artists, limit, after);
    CursorCallsReadOnly(limit, fs);
    FollowByNextSendsLastId(artists, limit, after);
  }

  /** Two progress events, with no call. */
  lemma TwoReports(a: Event, b: Event)
    requires a.Progress? && b.Progress?
    ensures Events([Emit(a), Emit(b)]) == [a, b] && ProgressOnly([Emit(a), Emit(b)]) && ReadOnly([Emit(a), Emit(b)])
    ensures Events([Emit(a)]) == [a] && ProgressOnly([Emit(a)]) && ReadOnly([Emit(a)])
  {
    StepSingle(Emit(a));
    StepSingle(Emit(b));
    assert [Emit(a), Emit(b)] == [Emit(a)] + [Emit(b)];
    EventsAppend([Emit(a)], [Emit(b)]);
    CallsAppend([Emit(a)], [Emit(b)]);
  }

  /** A progress event followed by a read. */
  lemma ReportThenCall(e: Event, c: ApiCall)
    ensures Events([Emit(e), Call(c)]) == [e] && Calls([Emit(e), Call(c)]) == [c]
  {
    StepSingle(Emit(e));
    StepSingle(Call(c));
    assert [Emit(e), Call(c)] == [Emit(e)] + [Call(c)];
    EventsAppend([Emit(e)], [Call(c)]);
    CallsAppend([Emit(e)], [Call(c)]);
  }

  /** A call, then a report, then the rest of a script. */
  lemma CallThenReport(c: ApiCall, e: Event, rest: seq<Step>)
    ensures Calls([Call(c), Emit(e)] + rest) == [c] + Calls(rest)
    ensures Events([Call(c), Emit(e)] + rest) == [e] + Events(rest)
  {
    var s := [Call(c), Emit(e)] + rest;
    var t := [Emit(e)] + rest;
    assert s[0] == Call(c) && s[1..] == t;
    assert t[0] == Emit(e) && t[1..] == rest;
    assert Calls(t) == Calls(rest);
    assert Events(s) == Events(t);
  }

  /** A report, then steps that report nothing, then the rest. */
  lemma ReportThenQuiet(e: Event, quiet: seq<Step>, rest: seq<Step>)
    requires Events(quiet) == []
    ensures Events([Emit(e)] + quiet + rest) == [e] + Events(rest)
  {
    StepSingle(Emit(e));
    EventsAppend([Emit(e)], quiet);
    EventsAppend([Emit(e)] + quiet, rest);
  }

  /** A read-only script followed by one more report. */
  lemma ThenReport(steps: seq<Step>, e: Event)
    requires ReadOnly(steps) && e.Progress?
    ensures Calls(steps + [Emit(e)]) == Calls(steps)
    ensures Events(steps + [Emit(e)]) == Events(steps) + [e]
    ensures ReadOnly(steps + [Emit(e)])
    ensures var es := Events(steps + [Emit(e)]); |es| > 0 && es[|es| - 1] == e
  {
    StepSingle(Emit(e));
    CallsAppend(steps, [Emit(e)]);
    EventsAppend(steps, [Emit(e)]);
  }

  /** Both properties carry over to a concatenation. */
  lemma ShapeAppend(a: seq<Step>, b: seq<Step>)
    ensures ProgressOnly(a) && ProgressOnly(b) ==> ProgressOnly(a + b)
    ensures ReadOnly(a) && ReadOnly(b) ==> ReadOnly(a + b)
  {
    EventsAppend(a, b);
    CallsAppend(a, b);
  }

  function IdOf(t: Track): string
  {
    t.id
  }

  /** `item.album.id`. */
  function AlbumIdOf(a: Album): string
  {
    a.id
  }

  /** `item.track.uri`. */
  function UriOf(t: Track): string
  {
    t.uri
  }

  predicate Present(s: string)
  {
    s != ""
  }

  /** The ids of the tracks that have one (`if (item.track?.id)`), in order
      and with repetitions. */
  function TrackIds(ts: seq<Track>): (r: seq<string>)
    ensures |r| <= |ts|
  {
    Filter(Map(ts, IdOf), Present)
  }

  /** Some track of `ts` has id `x`. */
  predicate HasTrack(ts: seq<Track>, x: string)
  {
    exists i :: 0 <= i < |ts| && ts[i].id == x
  }

  /** The ids kept are exactly the non-empty ids of the tracks. */
  lemma TrackIdsMembers(ts: seq<Track>)
    ensures forall x :: x in TrackIds(ts) <==> x != "" && HasTrack(ts, x)
  {
    var ids := Map(ts, IdOf);
    FilterMembers(ids, Present);
    assert forall x :: x in ids <==> HasTrack(ts, x);
  }

  lemma TrackIdsAppend(a: seq<Track>, b: seq<Track>)
    ensures TrackIds(a + b) == TrackIds(a) + TrackIds(b)
  {
    assert Map(a + b, IdOf) == Map(a, IdOf) + Map(b, IdOf);
    FilterAppend(Map(a, IdOf), Map(b, IdOf), Present);
  }

  /** `spotify:track:<id>`. */
  function Uri(id: string): (u: string)
    ensures |u| == |id| + 14
  {
    "spotify:track:" + id
  }

  /** The id is what follows the fixed 14-character prefix of its URI, so
      distinct ids give distinct URIs. */
  lemma UriInjective(a: string, b: string)
    ensures Uri(a)[14..] == a
    ensures Uri(a) == Uri(b) ==> a == b
  {
    assert Uri(a)[14..] == a;
    assert Uri(b)[14..] == b;
  }

  lemma UrisDistinct(ids: seq<string>)
    requires Distinct(ids)
    ensures Distinct(Map(ids, Uri))
  {
    forall i, j | 0 <= i < j < |ids|
      ensures Map(ids, Uri)[i] != Map(ids, Uri)[j]
    {
      UriInjective(ids[i], ids[j]);
    }
  }

  /** What the oracle says about attempt `i` of the `c`-th call of a route:
      a failure, or success. */
  type Responder = (nat, nat) -> Option<RemoteError>

  function AttemptsOf(respond: Responder, c: nat): nat -> Attempt<()>
  {
    (i: nat) => match respond(c, i) case None => Ok(()) case Some(e) => Fail(e)
  }

  /** How far a script got: the number of steps completed, the error that
      stopped it if any, the events written, the calls that succeeded and
      the back-off waits. */
  datatype Outcome = Outcome(
    stop: nat,
    failure: Option<Error>,
    events: seq<Event>,
    done: seq<ApiCall>,
    waits: seq<int>)

  /** Call `c` of a route, run through `retryWithBackoff(fn, maxRetries,
      delayMs)` against the service's answers. */
  function CallRun(respond: Responder, maxRetries: int, delayMs: int, c: nat): Run<()>
  {
    RetryWithBackoff(AttemptsOf(respond, c), maxRetries, delayMs)
  }

  /** Calls `c`, `c + 1`, … came back from their retried runs for as long as
      `done` runs, and a failure is the error that the retried run of the
      next call threw. */
  ghost predicate StopsAtFirstFailure(o: Outcome, respond: Responder, maxRetries: int, delayMs: int, c: nat)
  {
    && (forall j :: c <= j < c + |o.done| ==> CallRun(respond, maxRetries, delayMs, j).result.Returned?)
    && (o.failure.Some? ==>
          && CallRun(respond, maxRetries, delayMs, c + |o.done|).result.Raised?
          && o.failure == Some(CallRun(respond, maxRetries, delayMs, c + |o.done|).result.error))
  }

  /** Runs a script from its `c`-th call: every call goes through
      `retryWithBackoff(fn, maxRetries, delayMs)`, and the first call that
      still throws ends the script with that error. Nothing already written
      is undone. */
  function ExecuteFrom(steps: seq<Step>, respond: Responder, maxRetries: int, delayMs: int, c: nat): (o: Outcome)
    ensures o.stop <= |steps|
    ensures o.events == Events(steps[..o.stop])
    ensures o.done == Calls(steps[..o.stop])
    ensures o.failure.None? <==> o.stop == |steps|
    ensures o.failure.Some? ==> steps[o.stop].Call?
    decreases |steps|
  {
    if |steps| == 0 then Outcome(0, None, [], [], [])
    else
      assert steps[..1] == [steps[0]];
      match steps[0]
      case Emit(e) =>
        var rest := ExecuteFrom(steps[1..], respond, maxRetries, delayMs, c);
        assert steps[..rest.stop + 1] == [steps[0]] + steps[1..][..rest.stop];
        Outcome(rest.stop + 1, rest.failure, [e] + rest.events, rest.done, rest.waits)
      case Call(a) =>
        var run := CallRun(respond, maxRetries, delayMs, c);
        if run.result.Raised? then
          assert steps[..0] == [];
          Outcome(0, Some(run.result.error), [], [], run.delays)
        else
          var rest := ExecuteFrom(steps[1..], respond, maxRetries, delayMs, c + 1);
          assert steps[..rest.stop + 1] == [steps[0]] + steps[1..][..rest.stop];
          Outcome(rest.stop + 1, rest.failure, rest.events, [a] + rest.done, run.delays + rest.waits)
  }

  /** A call that came back, followed by a run that stops at its first
      failure, is a run that stops at its first failure. */
  lemma ReturnedThenStops(o: Outcome, rest: Outcome, a: ApiCall, respond: Responder, maxRetries: int, delayMs: int, c: nat)
    requires CallRun(respond, maxRetries, delayMs, c).result.Returned?
    requires StopsAtFirstFailure(rest, respond, maxRetries, delayMs, c + 1)
    requires o.done == [a] + rest.done && o.failure == rest.failure
    ensures StopsAtFirstFailure(o, respond, maxRetries, delayMs, c)
  {
  }

  function Execute(steps: seq<Step>, respond: Responder, maxRetries: int, delayMs: int): (o: Outcome)
    ensures o.stop <= |steps|
    ensures o.events == Events(steps[..o.stop])
    ensures o.done == Calls(steps[..o.stop])
    ensures o.failure.None? <==> o.stop == |steps|
    ensures o.failure.Some? ==> steps[o.stop].Call?
    ensures StopsAtFirstFailure(o, respond, maxRetries, delayMs, 0)
  {
    ExecuteStopsAtFirstFailure(steps, respond, maxRetries, delayMs, 0);
    ExecuteFrom(steps, respond, maxRetries, delayMs, 0)
  }

  /** Whatever the retry policy, a run from call `c` makes calls that all
      came back and stops exactly at the first call whose retried run
      threw, with that call's error. */
  lemma {:induction false} ExecuteStopsAtFirstFailure(steps: seq<Step>, respond: Responder, maxRetries: int, delayMs: int, c: nat)
    ensures StopsAtFirstFailure(ExecuteFrom(steps, respond, maxRetries, delayMs, c), respond, maxRetries, delayMs, c)
    decreases |steps|
  {
    if |steps| > 0 {
      var o := ExecuteFrom(steps, respond, maxRetries, delayMs, c);
      match steps[0]
      case Emit(e) =>
        ExecuteStopsAtFirstFailure(steps[1..], respond, maxRetries, delayMs, c);
        var rest := ExecuteFrom(steps[1..], respond, maxRetries, delayMs, c);
        assert o.done == rest.done && o.failure == rest.failure;
      case Call(a) =>
        if CallRun(respond, maxRetries, delayMs, c).result.Returned? {
          ExecuteStopsAtFirstFailure(steps[1..], respond, maxRetries, delayMs, c + 1);
          var rest := ExecuteFrom(steps[1..], respond, maxRetries, delayMs, c + 1);
          ReturnedThenStops(o, rest, a, respond, maxRetries, delayMs, c);
        }
    }
  }

  /** When the service answers every attempt, the whole script runs: all
      its events are written and all its calls made. */
  lemma {:induction false} ExecuteAllSucceed(steps: seq<Step>, respond: Responder, maxRetries: int, delayMs: int, c: nat)
    requires maxRetries > 0
    requires forall k: nat, i: nat :: respond(k, i).None?
    ensures ExecuteFrom(steps, respond, maxRetries, delayMs, c).failure.None?
    ensures ExecuteFrom(steps, respond, maxRetries, delayMs, c).events == Events(steps)
    ensures ExecuteFrom(steps, respond, maxRetries, delayMs, c).done == Calls(steps)
    decreases |steps|
  {
    assert steps[..|steps|] == steps;
    if |steps| > 0 {
      ExecuteAllSucceed(steps[1..], respond, maxRetries, delayMs, c + 1);
      ExecuteAllSucceed(steps[1..], respond, maxRetries, delayMs, c);
      if steps[0].Call? {
        var fn := AttemptsOf(respond, c);
        assert fn(0).Ok?;
        FirstSuccessReturned(fn, maxRetries, delayMs, 0);
      }
    }
  }

  /** Calls `c`, `c + 1`, … succeeded on their first attempt for as long as
      `done` runs, and a failure is the first attempt of the next call. */
  ghost predicate StopsAtFirstRejection(o: Outcome, respond: Responder, c: nat)
  {
    && (forall j :: c <= j < c + |o.done| ==> respond(j, 0).None?)
    && (o.failure.Some? ==> respond(c + |o.done|, 0).Some? && o.failure == Some(Remote(respond(c + |o.done|, 0).value)))
  }

  /** Without retries a run stops at the first call the service rejects and
      throws that call's error. */
  lemma {:induction false} ExecuteWithoutRetries(steps: seq<Step>, respond: Responder, delayMs: int, c: nat)
    ensures StopsAtFirstRejection(ExecuteFrom(steps, respond, 1, delayMs, c), respond, c)
    decreases |steps|
  {
    if |steps| > 0 {
      match steps[0]
      case Emit(e) =>
        ExecuteWithoutRetries(steps[1..], respond, delayMs, c);
        var o := ExecuteFrom(steps, respond, 1, delayMs, c);
        var rest := ExecuteFrom(steps[1..], respond, 1, delayMs, c);
        assert o.done == rest.done && o.failure == rest.failure;
      case Call(a) =>
        SingleAttemptIsDirect(AttemptsOf(respond, c), delayMs);
        ExecuteWithoutRetries(steps[1..], respond, delayMs, c + 1);
        var o := ExecuteFrom(steps, respond, 1, delayMs, c);
        var rest := ExecuteFrom(steps[1..], respond, 1, delayMs, c + 1);
        if respond(c, 0).None? {
          assert o.done == [a] + rest.done && o.failure == rest.failure;
        }
    }
  }

  /** Without retries, the calls made are a prefix of the script's, each
      answered on its first attempt, and a failure is the rejection of the
      next call. */
  lemma RejectionEndsRun(script: seq<Step>, respond: Responder)
    ensures var o := Execute(script, respond, 1, 0);
            && o.done <= Calls(script)
            && (forall j :: 0 <= j < |o.done| ==> respond(j, 0).None?)
            && (o.failure.Some? ==>
                  && |o.done| < |Calls(script)|
                  && respond(|o.done|, 0).Some?
                  && o.failure == Some(Remote(respond(|o.done|, 0).value)))
  {
    var o := Execute(script, respond, 1, 0);
    ExecuteWithoutRetries(script, respond, 0, 0);
    CallsOfPrefix(script, o.stop);
    if o.failure.Some? {
      CallsBeforeCall(script, o.stop);
    }
    forall j | 0 <= j < |o.done|
      ensures respond(j, 0).None?
    {
      assert 0 <= j < 0 + |o.done|;
    }
  }

  /** The calls before a call are fewer than all the calls. */
  lemma CallsBeforeCall(script: seq<Step>, stop: nat)
    requires stop < |script| && script[stop].Call?
    ensures |Calls(script[..stop])| < |Calls(script)|
  {
    assert script == script[..stop] + ([script[stop]] + script[stop + 1..]);
    CallsAppend(script[..stop], [script[stop]] + script[stop + 1..]);
    CallsAppend([script[stop]], script[stop + 1..]);
    StepSingle(script[stop]);
  }

  /** The events of an interrupted run are a prefix of the full run's. */
  lemma EventsOfPrefix(steps: seq<Step>, n: nat)
    requires n <= |steps|
    ensures Events(steps[..n]) <= Events(steps)
  {
    assert steps == steps[..n] + steps[n..];
    EventsAppend(steps[..n], steps[n..]);
  }

  /** The calls of an interrupted run are a prefix of the full run's. */
  lemma CallsOfPrefix(steps: seq<Step>, n: nat)
    requires n <= |steps|
    ensures Calls(steps[..n]) <= Calls(steps)
  {
    assert steps == steps[..n] + steps[n..];
    CallsAppend(steps[..n], steps[n..]);
  }
}

=== FILE: auth.dfy ===
/** `GET /api/auth`: check the `account` query parameter and send the browser
    to the provider's consent page with an OAuth `state` naming the role and
    the time of the request. */
module Auth {
  import opened Base
  import opened Strings

  /** The two accounts of a migration. */
  datatype Role = Source | Target {
    function Name(): string
    {
      match this
      case Source => "source"
      case Target => "target"
    }
  }

  /** `["source", "target"].includes(s)`. */
  function RoleNamed(s: string): Option<Role>
  {
    if s == "source" then Some(Source)
    else if s == "target" then Some(Target)
    else None
  }

  /** The query parameter, absent or present. */
  function ParseRole(account: Option<string>): Option<Role>
  {
    if account.None? then None else RoleNamed(account.value)
  }

  /** 400 `Invalid account parameter`, or a redirect to the consent page
      carrying `state` (the consent URL itself is built by the client
      library and is not modelled). */
  datatype AuthReply = InvalidAccount | ToProvider(state: string)

  /** The state the route builds: `` `${account}_${Date.now()}` ``. */
  function State(r: Role, now: nat): string
  {
    r.Name() + "_" + NatToString(now)
  }

  /** `GET /api/auth?account=…` as written: any `mode` parameter the page
      sends is ignored. */
  function Authorize(account: Option<string>, now: nat): AuthReply
  {
    match ParseRole(account)
    case None => InvalidAccount
    case Some(r) => ToProvider(State(r, now))
  }

  /** The state the callback expects, `account_mode_timestamp`, with "none"
      standing for no mode. */
  function StateWithMode(r: Role, mode: Option<string>, now: nat): string
  {
    r.Name() + "_" + (if Truthy(mode) then mode.value else "none") + "_" + NatToString(now)
  }

  /** The route passing the page's `mode` on in the state. */
  function AuthorizeWithMode(account: Option<string>, mode: Option<string>, now: nat): AuthReply
  {
    match ParseRole(account)
    case None => InvalidAccount
    case Some(r) => ToProvider(StateWithMode(r, mode, now))
  }

  /** Only "source" and "target" are accepted; anything else, including no
      parameter, gets 400 and no redirect. */
  lemma AuthorizeAccepts(account: Option<string>, now: nat)
    ensures Authorize(account, now).ToProvider?
        <==> account == Some("source") || account == Some("target")
    ensures ParseRole(account).Some? ==> ParseRole(account).value.Name() == account.value
  {
  }

  /** The state is the role's name, an underscore and the decimal time,
      which reads back as the time. */
  lemma StateReadsBack(r: Role, now: nat)
    ensures var s := State(r, now);
            && s[..|r.Name()| + 1] == r.Name() + "_"
            && ParseNat(s[|r.Name()| + 1..]) == now
  {
    var s := State(r, now);
    assert s[|r.Name()| + 1..] == NatToString(now);
    ParseNatToString(now);
  }
}

=== FILE: base.dfy ===
/** Small shared vocabulary: optional values and the integer arithmetic the
    routes use for page counts, batch counts and back-off delays. */
module Base {

  /** A value that may be absent (JavaScript `null` / `undefined`). */
  datatype Option<+T> = None | Some(value: T) {
    function GetOr(default: T): T {
      match this
      case Some(v) => v
      case None => default
    }
  }

  function Min(a: int, b: int): int { if a <= b then a else b }

  function Max(a: int, b: int): int { if a >= b then a else b }

  /** Ceiling division, `Math.ceil(a / b)` for non-negative `a`. */
  function CeilDiv(a: nat, b: nat): nat
    requires b > 0
  {
    (a + b - 1) / b
  }

  /** `Math.pow(2, i)` for a natural exponent. */
  function Pow2(i: nat): (r: nat)
    ensures r >= 1
  {
    if i == 0 then 1 else 2 * Pow2(i - 1)
  }

  /** A positive multiple of `b` is at least `b`. */
  lemma {:induction false} MulAtLeast(b: nat, d: int)
    requires d >= 1
    ensures b * d >= b
    decreases d
  {
    if d > 1 {
      MulAtLeast(b, d - 1);
      assert b * d == b * (d - 1) + b;
    }
  }

  /** Adding one divisor to the dividend adds one to the quotient. */
  lemma DivStep(x: nat, b: nat)
    requires b > 0
    ensures (x + b) / b == x / b + 1
  {
    var q, r := x / b, x % b;
    var q', r' := (x + b) / b, (x + b) % b;
    assert x == b * q + r && 0 <= r < b;
    assert x + b == b * q' + r' && 0 <= r' < b;
    var d := q' - q - 1;
    assert b * d == r - r' by {
      assert b * q' == b * q + b * d + b;
    }
    if d >= 1 {
      MulAtLeast(b, d);
    } else if d <= -1 {
      MulAtLeast(b, -d);
    }
  }

  /** A dividend below the divisor has quotient zero. */
  lemma DivSmall(x: nat, b: nat)
    requires b > 0 && x < b
    ensures x / b == 0
  {
  }

  /** One more full divisor adds one to the ceiling quotient. */
  lemma CeilDivStep(a: nat, b: nat)
    requires b > 0 && a > b
    ensures CeilDiv(a, b) == 1 + CeilDiv(a - b, b)
  {
    DivStep(a - 1, b);
  }

  /** Between one and `b` items make exactly one batch. */
  lemma CeilDivOne(a: nat, b: nat)
    requires 0 < a <= b
    ensures CeilDiv(a, b) == 1
  {
    DivStep(a - 1, b);
    DivSmall(a - 1, b);
  }

  /** At most `b` items make at most one batch. */
  lemma CeilDivAtMostOne(a: nat, b: nat)
    requires a <= b && b > 0
    ensures CeilDiv(a, b) <= 1
  {
    if a > 0 {
      CeilDivOne(a, b);
    }
  }

  /** Adding one divisor to the dividend leaves the remainder unchanged. */
  lemma ModStep(x: nat, b: nat)
    requires b > 0
    ensures (x + b) % b == x % b
  {
    DivStep(x, b);
  }

  /** At least one item makes at least one batch. */
  lemma CeilDivPositive(a: nat, b: nat)
    requires a > 0 && b > 0
    ensures CeilDiv(a, b) >= 1
  {
    DivStep(a - 1, b);
  }

  /** A dividend below the divisor is its own remainder. */
  lemma ModSmall(x: nat, b: nat)
    requires x < b
    ensures x % b == x
  {
    DivSmall(x, b);
  }

  /** The number of calls of a loop that takes `b` items per call and makes
      at least one: one more than for the `a - b` items after the first
      call. */
  lemma CallsStep(a: nat, b: nat, rest: int)
    requires b > 0 && a > b && rest == Max(1, CeilDiv(a - b, b))
    ensures 1 + rest == Max(1, CeilDiv(a, b))
  {
    CeilDivStep(a, b);
    CeilDivPositive(a - b, b);
  }

  /** One call suffices for at most `b` items. */
  lemma CallsLast(a: nat, b: nat)
    requires b > 0 && a <= b
    ensures Max(1, CeilDiv(a, b)) == 1
  {
    CeilDivAtMostOne(a, b);
  }
}

=== FILE: callback.dfy ===
/** `GET /api/callback`: the provider sends the browser back with `code`,
    `state` or `error`; the route validates the state, exchanges the code for
    tokens and stores them in three cookies named after the role. */
module Callback {
  import opened Base
  import opened Seqs
  import opened Strings
  import opened Urls
  import opened Auth

  /** The query parameters the provider sends back. */
  datatype Params = Params(code: Option<string>, state: Option<string>, error: Option<string>)

  /** What the code exchange returns. */
  datatype Grant = Grant(accessToken: string, refreshToken: string, expiresIn: nat)

  /** A cookie set on the redirect (the `httpOnly`, `secure`, `sameSite` and
      `path` attributes are the same for all three and are not modelled). */
  datatype Cookie = Cookie(name: string, value: string, maxAge: nat)

  /** The redirect, the cookies set on it, and whether the code was sent to
      the provider for exchange. */
  datatype Reply = Reply(location: string, cookies: seq<Cookie>, exchanged: bool)

  const CallbackPath := "/api/callback"

  /** The refresh token is kept for thirty days, in seconds. */
  const RefreshMaxAge: nat := 60 * 60 * 24 * 30

  /** The configured redirect URI with its first "/api/callback" removed, or
      the request's origin when that is unset or leaves nothing. */
  function BaseUrl(redirectUri: Option<string>, origin: string): string
  {
    if redirectUri.Some? && ReplaceFirst(redirectUri.value, CallbackPath, "") != "" then
      ReplaceFirst(redirectUri.value, CallbackPath, "")
    else
      origin
  }

  /** The account type: the first `_`-separated field of the state. */
  function AccountOf(state: string): string
  {
    Split(state, "_")[0]
  }

  /** The mode: the second field unless it is "none"; "" (falsy) when the
      state has no second field. */
  function ModeOf(state: string): string
  {
    var parts := Split(state, "_");
    if |parts| >= 2 && parts[1] != "none" then parts[1] else ""
  }

  /** The page the role's connection continues with when a mode is known. */
  function StepFor(r: Role): string
  {
    match r
    case Source => "fetch-data"
    case Target => "migrate"
  }

  /** The three cookies a role's tokens live in; logout deletes the same. */
  function CookieNames(r: Role): seq<string>
  {
    [r.Name() + "_access_token", r.Name() + "_refresh_token", r.Name() + "_expires_at"]
  }

  /** The redirect after a successful exchange. */
  function ConnectedUrl(base: string, r: Role, mode: string): string
  {
    base + "/?account=" + r.Name() + "&status=connected"
      + (if mode != "" then "&mode=" + mode + "&step=" + StepFor(r) else "")
  }

  /** The cookies after a successful exchange at time `now` (milliseconds). */
  function TokenCookies(r: Role, g: Grant, now: nat): seq<Cookie>
  {
    var names := CookieNames(r);
    [ Cookie(names[0], g.accessToken, g.expiresIn),
      Cookie(names[1], g.refreshToken, RefreshMaxAge),
      Cookie(names[2], NatToString(now + g.expiresIn * 1000), g.expiresIn) ]
  }

  /** The state names a role the routes accept. */
  predicate ValidState(q: Params)
  {
    q.state.Some? && RoleNamed(AccountOf(q.state.value)).Some?
  }

  /** The route. `grant` is the provider's answer to the exchange (`None`
      when it throws); `now` is `Date.now()`. */
  function HandleCallback(q: Params, redirectUri: Option<string>, origin: string,
                          grant: Option<Grant>, now: nat): (r: Reply)
    ensures r.exchanged <==> !Truthy(q.error) && Truthy(q.code) && Truthy(q.state) && ValidState(q)
    ensures r.cookies != [] <==> r.exchanged && grant.Some?
    ensures StartsWith(r.location, BaseUrl(redirectUri, origin) + "/?")
  {
    var base := BaseUrl(redirectUri, origin);
    if Truthy(q.error) then
      Reply(base + "/?error=" + q.error.value, [], false)
    else if !Truthy(q.code) || !Truthy(q.state) then
      Reply(base + "/?error=missing_params", [], false)
    else
      match RoleNamed(AccountOf(q.state.value))
      case None => Reply(base + "/?error=invalid_state", [], false)
      case Some(role) =>
        match grant
        case None => Reply(base + "/?error=auth_failed", [], true)
        case Some(g) =>
          var loc := ConnectedUrl(base, role, ModeOf(q.state.value));
          assert loc[..|base + "/?"|] == base + "/?";
          Reply(loc, TokenCookies(role, g, now), true)
  }

  /** The provider's `error` wins over everything else: nothing is exchanged
      and the page is told the error verbatim. */
  lemma ErrorFirst(q: Params, redirectUri: Option<string>, origin: string, grant: Option<Grant>, now: nat)
    requires Truthy(q.error)
    ensures HandleCallback(q, redirectUri, origin, grant, now)
         == Reply(BaseUrl(redirectUri, origin) + "/?error=" + q.error.value, [], false)
  {
  }

  /** Without both code and state the page gets `missing_params`; with a
      state naming neither role it gets `invalid_state`; a failed exchange
      gives `auth_failed`. No cookie is set in any of these. */
  lemma ErrorCodes(q: Params, redirectUri: Option<string>, origin: string, grant: Option<Grant>, now: nat)
    requires !Truthy(q.error)
    ensures var r := HandleCallback(q, redirectUri, origin, grant, now);
            var base := BaseUrl(redirectUri, origin);
            && (!Truthy(q.code) || !Truthy(q.state) ==> r.location == base + "/?error=missing_params")
            && (Truthy(q.code) && Truthy(q.state) && !ValidState(q) ==> r.location == base + "/?error=invalid_state" && !r.exchanged)
            && (r.exchanged && grant.None? ==> r.location == base + "/?error=auth_failed" && r.cookies == [])
  {
  }

  /** A successful exchange sets exactly the role's three cookies: the access
      token and the expiry time live as long as the token, the refresh token
      thirty days, and the stored expiry time is the token's lifetime after
      `now`, in milliseconds. */
  lemma CookiesOnSuccess(q: Params, redirectUri: Option<string>, origin: string, g: Grant, now: nat)
    requires !Truthy(q.error) && Truthy(q.code) && Truthy(q.state) && ValidState(q)
    ensures var r := HandleCallback(q, redirectUri, origin, Some(g), now);
            var role := RoleNamed(AccountOf(q.state.value)).value;
            && Map(r.cookies, (c: Cookie) => c.name) == CookieNames(role)
            && r.cookies[0].value == g.accessToken && r.cookies[1].value == g.refreshToken
            && r.cookies[0].maxAge == r.cookies[2].maxAge == g.expiresIn
            && r.cookies[1].maxAge == 2592000
            && ParseNat(r.cookies[2].value) == now + 1000 * r.cookies[0].maxAge
  {
    ParseNatToString(now + g.expiresIn * 1000);
  }

  /** The two roles' cookies never collide, and each role's three are
      distinct. */
  lemma CookieNamesDisjoint()
    ensures Distinct(CookieNames(Source) + CookieNames(Target))
  {
    var all := CookieNames(Source) + CookieNames(Target);
    forall i, j | 0 <= i < j < |all| ensures all[i] != all[j] {
      assert all[i][0] != all[j][0] || |all[i]| != |all[j]|;
    }
  }

  /** With no redirect URI configured the origin is used. */
  lemma BaseUrlUnset(origin: string)
    ensures BaseUrl(None, origin) == origin
  {
  }

  /** A redirect URI ending in the callback path (and containing it nowhere
      earlier) gives the text before it; an empty remainder falls back to the
      origin. */
  lemma BaseUrlStripsPath(b: string, origin: string)
    requires EndsBefore(b, CallbackPath)
    ensures BaseUrl(Some(b + CallbackPath), origin) == if b == "" then origin else b
  {
    ReplaceFirstSuffix(b, CallbackPath);
  }

  /** A non-empty redirect URI without the callback path is used as it is. */
  lemma BaseUrlOtherPath(uri: string, origin: string)
    requires uri != "" && !Contains(uri, CallbackPath)
    ensures BaseUrl(Some(uri), origin) == uri
  {
    ReplaceFirstAbsent(uri, CallbackPath, "");
  }

  /** The pairs of the redirect's query, in the order they are written. */
  function ConnectedPairs(r: Role, mode: string): seq<(string, string)>
  {
    [("account", r.Name()), ("status", "connected")]
      + (if mode != "" then [("mode", mode), ("step", StepFor(r))] else [])
  }

  /** The query written by the route, spelled out. */
  lemma ConnectedQuery(r: Role, mode: string)
    ensures Query(ConnectedPairs(r, mode))
         == "account=" + r.Name() + "&status=connected"
            + (if mode != "" then "&mode=" + mode + "&step=" + StepFor(r) else "")
  {
    var a, s := ("account", r.Name()), ("status", "connected");
    if mode != "" {
      var m, t := ("mode", mode), ("step", StepFor(r));
      assert ConnectedPairs(r, mode) == [a, s, m, t];
      QueryFour(a, s, m, t);
      SpellWithMode(r.Name(), mode, StepFor(r));
    } else {
      assert ConnectedPairs(r, mode) == [a, s];
      QueryTwo(a, s);
      assert "account=" + r.Name() + "&status=connected" + "" == Pair(a) + "&" + Pair(s);
    }
  }

  lemma SpellWithMode(x: string, m: string, t: string)
    ensures "account=" + x + "&status=connected" + ("&mode=" + m + "&step=" + t)
         == ("account" + "=" + x) + "&" + (("status" + "=" + "connected") + "&" + (("mode" + "=" + m) + "&" + ("step" + "=" + t)))
  {
  }

  lemma ConnectedUrlIsQuery(base: string, r: Role, mode: string)
    ensures ConnectedUrl(base, r, mode) == (base + "/") + "?" + Query(ConnectedPairs(r, mode))
  {
    ConnectedQuery(r, mode);
  }

  lemma ConnectedValues(r: Role, mode: string)
    ensures var kvs := ConnectedPairs(r, mode);
            && FirstValue(kvs, "account") == Some(r.Name())
            && FirstValue(kvs, "status") == Some("connected")
            && FirstValue(kvs, "error") == None
            && FirstValue(kvs, "mode") == (if mode == "" then None else Some(mode))
            && FirstValue(kvs, "step") == (if mode == "" then None else Some(StepFor(r)))
  {
    var a, s := ("account", r.Name()), ("status", "connected");
    var m, t := ("mode", mode), ("step", StepFor(r));
    forall key | key in ["account", "status", "error", "mode", "step"]
      ensures FirstValue(ConnectedPairs(r, mode), key)
           == if key == "account" then Some(r.Name())
              else if key == "status" then Some("connected")
              else if key == "mode" && mode != "" then Some(mode)
              else if key == "step" && mode != "" then Some(StepFor(r))
              else None
    {
      FirstValueCons(a, [s], key);
      FirstValueCons(s, [], key);
      FirstValueCons(a, [s, m, t], key);
      FirstValueCons(s, [m, t], key);
      FirstValueCons(m, [t], key);
      FirstValueCons(t, [], key);
      assert [a] + [s] == [a, s] && [s] + [m, t] == [s, m, t];
      assert [a] + [s, m, t] == [a, s, m, t] && [m] + [t] == [m, t];
      assert ConnectedPairs(r, mode) == if mode != "" then [a, s, m, t] else [a, s];
    }
  }

  /** What the page reads back from a successful redirect: the role, that it
      is connected, the mode when there is one, and the next step exactly
      when there is a mode. */
  lemma ReadConnectedUrl(base: string, r: Role, mode: string)
    requires Avoids(base, "?") && Plain(mode)
    ensures var loc := ConnectedUrl(base, r, mode);
            && Get(loc, "account") == Some(r.Name())
            && Get(loc, "status") == Some("connected")
            && Get(loc, "error") == None
            && Get(loc, "mode") == (if mode == "" then None else Some(mode))
            && Get(loc, "step") == (if mode == "" then None else Some(StepFor(r)))
  {
    ConnectedUrlIsQuery(base, r, mode);
    AvoidsAppend(base, "/", "?");
    ConnectedPairsPlain(r, mode);
    ConnectedValues(r, mode);
    ReadBackAll(base + "/", ConnectedPairs(r, mode));
  }

  lemma ConnectedPairsPlain(r: Role, mode: string)
    requires Plain(mode)
    ensures PlainPairs(ConnectedPairs(r, mode))
  {
    var a, s := ("account", r.Name()), ("status", "connected");
    var m, t := ("mode", mode), ("step", StepFor(r));
    assert ConnectedPairs(r, mode) == if mode != "" then [a, s, m, t] else [a, s];
    WordPlain("account");
    WordPlain(r.Name());
    WordPlain("status");
    WordPlain("connected");
    WordPlain("mode");
    WordPlain("step");
    WordPlain(StepFor(r));
  }
}

=== FILE: client.dfy ===
/** The page's decisions (`app/page.tsx`): what it takes from its URL on
    load, how it folds the streamed messages into what it shows, which step
    comes next, and the guard before a migration. Rendering is not
    modelled; the page's state is the record below. */
module Client {
  import opened Base
  import opened Seqs
  import opened Strings
  import opened Urls
  import opened Auth
  import opened Api
  import opened EventStream
  import Migrate

  const FullMigration := "full-migration"
  const MegaPlaylist := "mega-playlist"
  const LikedSongsPlaylist := "liked-songs-playlist"

  /** A parsed stream message: the fields of `data` the page reads. */
  datatype Message = Message(stage: string, count: Option<int>, total: Option<int>, playlistUrl: Option<string>)

  /** `JSON.parse` of a payload: a message, or the message of the error it
      throws. */
  datatype Parsed = Parsed(message: Message) | Unparsable(error: string)

  /** What the page receives for a route event (the event's JSON, parsed). */
  function MessageOf(e: Event): (m: Message)
    ensures m.stage == "COMPLETE" <==> e.Complete? || e.stage == "COMPLETE"
  {
    match e
    case Progress(stage, count, total) => Message(stage, Some(count), total, None)
    case Complete(url, _, _) => Message("COMPLETE", None, None, Some(url))
  }

  /** The progress line the page shows. */
  datatype ProgressView = ProgressView(stage: string, count: int, total: Option<int>)

  const Starting := ProgressView("Starting...", 0, None)

  /** `{ stage, count: data.count || 0, total }`: an absent count and a zero
      count both show as 0. */
  function Shown(m: Message): (v: ProgressView)
    ensures v.stage == m.stage && v.total == m.total
    ensures v.count == 0 <==> m.count.None? || m.count == Some(0)
  {
    ProgressView(m.stage, if m.count.Some? && m.count.value != 0 then m.count.value else 0, m.total)
  }

  /** The page's state: current step and mode, the error banner, the
      progress line, the created playlist's link, whether migration data is
      in local storage, and the last migration's results. */
  datatype Page = Page(
    step: string,
    mode: Option<string>,
    error: Option<string>,
    progress: Option<ProgressView>,
    playlistUrl: Option<string>,
    stored: bool,
    results: Option<Migrate.Results>)

  /** The page after loading `url`, and the role whose user it then loads. */
  datatype Load = Load(page: Page, loadUser: Option<Role>)

  /** The URL effect on mount: an `error` parameter only sets the banner;
      otherwise a `mode` parameter sets the mode and the step (by default
      "fetch-data"), and a connected account's user is loaded. */
  function OnLoad(url: string, p: Page): (l: Load)
    ensures Truthy(Get(url, "error")) ==> l.loadUser.None? && l.page.step == p.step && l.page.mode == p.mode
    ensures l.loadUser.Some? ==> Get(url, "account") == Some(l.loadUser.value.Name())
  {
    var error := Get(url, "error");
    if Truthy(error) then
      Load(p.(error := Some("Authentication error: " + error.value)), None)
    else
      var mode := Get(url, "mode");
      var step := Get(url, "step");
      var p' := if Truthy(mode) then p.(mode := mode, step := if Truthy(step) then step.value else "fetch-data") else p;
      var account := Get(url, "account");
      var user := if Truthy(account) && Get(url, "status") == Some("connected") then RoleNamed(account.value) else None;
      Load(p', user)
  }

  /** A mode in the URL without a step starts at "fetch-data"; with one, at
      that step; without a mode the step is left alone. */
  lemma OnLoadStep(url: string, p: Page)
    requires !Truthy(Get(url, "error"))
    ensures var q := OnLoad(url, p).page;
            && (Truthy(Get(url, "mode")) ==>
                  (q.mode == Get(url, "mode")
                   && q.step == (if Truthy(Get(url, "step")) then Get(url, "step").value else "fetch-data")))
            && (!Truthy(Get(url, "mode")) ==> q == p)
  {
  }

  /** One of the three modes the page offers. */
  predicate KnownMode(m: string)
  {
    m == FullMigration || m == MegaPlaylist || m == LikedSongsPlaylist
  }

  /** `handleConnect`: the link to the authorize route, with the current
      mode when there is one. */
  function ConnectUrl(r: Role, mode: Option<string>): string
  {
    "/api/auth?account=" + r.Name() + (if Truthy(mode) then "&mode=" + mode.value else "")
  }

  /** The pairs of the connect link's query. */
  function ConnectPairs(r: Role, mode: Option<string>): seq<(string, string)>
  {
    [("account", r.Name())] + (if Truthy(mode) then [("mode", mode.value)] else [])
  }

  lemma ConnectQuery(r: Role, mode: Option<string>)
    ensures Query(ConnectPairs(r, mode))
         == "account=" + r.Name() + (if Truthy(mode) then "&mode=" + mode.value else "")
  {
    var a := ("account", r.Name());
    if Truthy(mode) {
      var m := ("mode", mode.value);
      assert ConnectPairs(r, mode) == [a, m];
      QueryTwo(a, m);
    } else {
      assert ConnectPairs(r, mode) == [a];
      QuerySingle(a);
    }
  }

  lemma ConnectUrlIsQuery(r: Role, mode: Option<string>)
    ensures ConnectUrl(r, mode) == "/api/auth" + "?" + Query(ConnectPairs(r, mode))
  {
    ConnectQuery(r, mode);
  }

  /** The authorize route reads the role and the page's mode back from the
      connect link. */
  lemma ReadConnectUrl(r: Role, mode: Option<string>)
    requires Truthy(mode) ==> Plain(mode.value)
    ensures Get(ConnectUrl(r, mode), "account") == Some(r.Name())
    ensures Get(ConnectUrl(r, mode), "mode") == if Truthy(mode) then mode else None
  {
    ConnectUrlIsQuery(r, mode);
    AuthPathPlain();
    var kvs := ConnectPairs(r, mode);
    var a := ("account", r.Name());
    assert "account" != "mode";
    RoleNamePlain(r);
    if Truthy(mode) {
      assert kvs == [a] + [("mode", mode.value)];
      assert PlainPairs(kvs);
      FirstValueCons(a, [("mode", mode.value)], "account");
      FirstValueCons(a, [("mode", mode.value)], "mode");
      FirstValueCons(("mode", mode.value), [], "mode");
    } else {
      assert kvs == [a] + [];
      assert PlainPairs(kvs);
      FirstValueCons(a, [], "account");
      FirstValueCons(a, [], "mode");
    }
    ReadBack("/api/auth", kvs, "account");
    ReadBack("/api/auth", kvs, "mode");
  }

  /** The authorize route's path has no `?` of its own. */
  lemma AuthPathPlain()
    ensures Avoids("/api/auth", "?")
  {
    var p := "/api/auth";
    forall i | 0 <= i < |p| ensures p[i] !in "?" {
      assert p[i] != '?';
    }
  }

  /** A role's name is a non-empty query word. */
  lemma RoleNamePlain(r: Role)
    ensures r.Name() != "" && Plain(r.Name())
  {
  }

  /** The step after the source account's data has been fetched. */
  function AfterFetch(mode: Option<string>): string
  {
    if mode == Some(MegaPlaylist) || mode == Some(LikedSongsPlaylist) then "create-playlist" else "connect-target"
  }

  /** The playlist modes go on to create the playlist; every other mode,
      an unknown or absent one included, connects the target account. */
  lemma AfterFetchChoice(mode: Option<string>)
    ensures AfterFetch(mode) == "create-playlist" <==> mode == Some(MegaPlaylist) || mode == Some(LikedSongsPlaylist)
    ensures AfterFetch(mode) != "create-playlist" ==> AfterFetch(mode) == "connect-target"
  {
  }

  /** The route that builds the playlist for the mode. */
  function Endpoint(mode: Option<string>): string
  {
    if mode == Some(LikedSongsPlaylist) then "/api/create-liked-songs-playlist" else "/api/create-mega-playlist"
  }

  lemma EndpointChoice(mode: Option<string>)
    ensures Endpoint(mode) == "/api/create-liked-songs-playlist" <==> mode == Some(LikedSongsPlaylist)
    ensures Endpoint(mode) != "/api/create-liked-songs-playlist" ==> Endpoint(mode) == "/api/create-mega-playlist"
  {
  }

  /** What the read loop has gathered: the progress line, the last COMPLETE
      message, and the error of a payload that did not parse (which ends
      the loop). */
  datatype Absorbed = Absorbed(progress: Option<ProgressView>, final: Option<Message>, failure: Option<string>)

  /** The loop body over the payloads read. A COMPLETE message is kept (and,
      when `clears`, hides the progress line); any other message becomes
      the progress line. */
  function Absorb(st: Absorbed, payloads: seq<string>, parse: string -> Parsed, clears: bool): Absorbed
    decreases |payloads|
  {
    if |payloads| == 0 || st.failure.Some? then st
    else
      match parse(payloads[0])
      case Unparsable(e) => st.(failure := Some(e))
      case Parsed(m) =>
        var next := if m.stage == "COMPLETE" then st.(final := Some(m), progress := if clears then None else st.progress)
                    else st.(progress := Some(Shown(m)));
        Absorb(next, payloads[1..], parse, clears)
  }

  /** Every payload parses. */
  predicate ParsesAll(payloads: seq<string>, parse: string -> Parsed)
  {
    forall k :: 0 <= k < |payloads| ==> parse(payloads[k]).Parsed?
  }

  /** The messages of payloads that all parse. */
  function Messages(payloads: seq<string>, parse: string -> Parsed): (ms: seq<Message>)
    requires ParsesAll(payloads, parse)
    ensures |ms| == |payloads|
  {
    seq(|payloads|, k requires 0 <= k < |payloads| => parse(payloads[k]).message)
  }

  /** When every payload parses, the loop ends without error, the last
      message decides the progress line when it is not COMPLETE, and a
      last COMPLETE message is the one kept (hiding the progress line when
      `clears`); with no COMPLETE at all nothing is kept. */
  lemma {:induction false} AbsorbAll(st: Absorbed, payloads: seq<string>, parse: string -> Parsed, clears: bool)
    requires st.failure.None? && ParsesAll(payloads, parse)
    ensures var r := Absorb(st, payloads, parse, clears);
            var ms := Messages(payloads, parse);
            && r.failure.None?
            && (|ms| > 0 && ms[|ms| - 1].stage != "COMPLETE" ==> r.progress == Some(Shown(ms[|ms| - 1])))
            && (|ms| > 0 && ms[|ms| - 1].stage == "COMPLETE" ==> r.final == Some(ms[|ms| - 1]) && (clears ==> r.progress.None?))
            && ((forall k :: 0 <= k < |ms| ==> ms[k].stage != "COMPLETE") ==> r.final == st.final)
    decreases |payloads|
  {
    if |payloads| > 0 {
      var m := parse(payloads[0]).message;
      var next := if m.stage == "COMPLETE" then st.(final := Some(m), progress := if clears then None else st.progress)
                  else st.(progress := Some(Shown(m)));
      var ms := Messages(payloads, parse);
      var rest := Messages(payloads[1..], parse);
      assert forall k :: 0 <= k < |rest| ==> rest[k] == ms[k + 1];
      assert ms[0] == m;
      AbsorbAll(next, payloads[1..], parse, clears);
      if |payloads| == 1 {
        assert ms == [m];
      } else {
        assert ms[|ms| - 1] == rest[|rest| - 1];
      }
    }
  }

  /** A failed request (`!response.ok || !response.body`), or a body. */
  datatype Response = Failed | Streamed(chunks: seq<string>)

  /** `handleFetchData`: the stream's COMPLETE message puts the migration
      data into local storage and, once the body is read, moves on to the
      next step for the mode. */
  function HandleFetchData(p: Page, resp: Response, parse: string -> Parsed): (q: Page)
    ensures q.mode == p.mode && q.playlistUrl == p.playlistUrl
    ensures q.step != p.step ==> q.step == AfterFetch(p.mode)
    ensures resp.Failed? ==> q.error == Some("Failed to fetch data") && q.step == p.step
  {
    var p0 := p.(error := None, progress := Some(Starting));
    match resp
    case Failed => p0.(error := Some("Failed to fetch data"), progress := None)
    case Streamed(chunks) =>
      var st := Absorb(Absorbed(p0.progress, None, None), Payloads(Finished(Flatten(chunks))), parse, false);
      var p1 := p0.(progress := st.progress, stored := p.stored || st.final.Some?);
      if st.failure.Some? then p1.(error := Some("Failed to fetch data"), progress := None)
      else if st.final.Some? then p1.(progress := None, step := AfterFetch(p.mode))
      else p1
  }

  /** The data route answers with one JSON document, which has no raw line
      break and so no blank line: the page reads no event from it, stores
      nothing and stays on its step, with the progress line at "Starting...". */
  lemma FetchDataJsonNeverAdvances(p: Page, json: string, chunks: seq<string>, parse: string -> Parsed)
    requires OneLine(json) && Flatten(chunks) == json
    ensures HandleFetchData(p, Streamed(chunks), parse) == p.(error := None, progress := Some(Starting))
  {
    NoAdjacentBreaks(json);
    NoBlankLineNoPayload(json, chunks);
  }

  /** Framed as one COMPLETE event, the same document is read: the data is
      stored, the progress line cleared, and the page moves on to the step
      after fetching for its mode. */
  lemma FramedFetchDataAdvances(p: Page, json: string, chunks: seq<string>, parse: string -> Parsed)
    requires OneLine(json) && Flatten(chunks) == Body([json])
    requires parse(json).Parsed? && parse(json).message.stage == "COMPLETE"
    ensures var q := HandleFetchData(p, Streamed(chunks), parse);
            && q.stored && q.error == None && q.progress == None
            && q.step == AfterFetch(p.mode)
  {
    ReadsWhatWasWritten([json], chunks);
    var st := Absorbed(Some(Starting), None, None);
    var m := parse(json).message;
    assert [json][1..] == [];
    assert Absorb(st, [json], parse, false) == st.(final := Some(m));
  }

  /** `handleCreateMegaPlaylist`: the COMPLETE message carries the new
      playlist's link and leads to the last step. */
  function HandleCreatePlaylist(p: Page, resp: Response, parse: string -> Parsed): (q: Page)
    ensures q.mode == p.mode && q.stored == p.stored
    ensures q.step != p.step ==> q.step == "complete"
    ensures resp.Failed? ==> q.error == Some("Failed to create playlist") && q.step == p.step
  {
    var p0 := p.(error := None, progress := Some(Starting));
    match resp
    case Failed => p0.(error := Some("Failed to create playlist"), progress := None)
    case Streamed(chunks) =>
      var st := Absorb(Absorbed(p0.progress, None, None), Payloads(Finished(Flatten(chunks))), parse, true);
      var p1 := p0.(progress := st.progress);
      var p2 := if st.final.Some? then p1.(playlistUrl := st.final.value.playlistUrl, step := "complete") else p1;
      if st.failure.Some? then p2.(error := Some(st.failure.value), progress := None) else p2
  }

  /** What the page sees of a playlist route's run: the events arrive
      framed, in any chunking, and parse back to their messages. A run that
      ends with COMPLETE shows the new playlist's link and moves to the last
      step; a run that ends with an error event shows that event as the
      progress line and stays. */
  lemma PlaylistRunShown(p: Page, events: seq<Event>, ps: seq<string>, chunks: seq<string>, parse: string -> Parsed)
    requires |events| > 0 && |ps| == |events|
    requires forall k :: 0 <= k < |ps| ==> OneLine(ps[k]) && parse(ps[k]) == Parsed(MessageOf(events[k]))
    requires Flatten(chunks) == Body(ps)
    ensures var q := HandleCreatePlaylist(p, Streamed(chunks), parse);
            var last := events[|events| - 1];
            && q.error.None?
            && (last.Complete? ==> q.playlistUrl == Some(last.playlistUrl) && q.step == "complete" && q.progress.None?)
            && (last.Progress? && last.stage != "COMPLETE" && (forall e :: e in events ==> e.Progress? && e.stage != "COMPLETE") ==>
                  q.playlistUrl == p.playlistUrl && q.step == p.step && q.progress == Some(Shown(MessageOf(last))))
  {
    ReadsWhatWasWritten(ps, chunks);
    AbsorbEvents(Absorbed(Some(Starting), None, None), events, ps, parse, true);
    if forall e :: e in events ==> e.Progress? && e.stage != "COMPLETE" {
      assert forall k :: 0 <= k < |events| ==> events[k] in events;
    }
  }

  /** The read loop over the payloads of route events: it ends without
      error, the last event decides what it keeps, and without any COMPLETE
      nothing is kept. */
  lemma AbsorbEvents(st: Absorbed, events: seq<Event>, ps: seq<string>, parse: string -> Parsed, clears: bool)
    requires st.failure.None? && |events| > 0 && |ps| == |events|
    requires forall k :: 0 <= k < |ps| ==> parse(ps[k]) == Parsed(MessageOf(events[k]))
    ensures var r := Absorb(st, ps, parse, clears);
            var last := events[|events| - 1];
            && r.failure.None?
            && (last.Complete? ==> r.final == Some(MessageOf(last)) && (clears ==> r.progress.None?))
            && (last.Progress? && last.stage != "COMPLETE" ==> r.progress == Some(Shown(MessageOf(last))))
            && ((forall k :: 0 <= k < |events| ==> events[k].Progress? && events[k].stage != "COMPLETE") ==> r.final == st.final)
  {
    assert ParsesAll(ps, parse);
    AbsorbAll(st, ps, parse, clears);
    var ms := Messages(ps, parse);
    assert ms[|ms| - 1] == MessageOf(events[|events| - 1]);
    assert forall k :: 0 <= k < |ms| ==> ms[k] == MessageOf(events[k]);
  }

  /** `handleMigrate`: the previous results are cleared first; without
      stored migration data the page then only shows an error and sends
      nothing; otherwise it sends the data and shows the
      route's answer. */
  datatype MigrateStep = MigrateStep(page: Page, sent: bool)

  const NoDataError := "No migration data found. Please fetch data from source account first."

  function HandleMigrate(p: Page, reply: Migrate.Reply): (r: MigrateStep)
    ensures r.sent <==> p.stored
    ensures r.page.step != p.step ==> r.page.step == "complete" && reply.Migrated?
    ensures !p.stored ==> r.page.results.None? && r.page.error == Some(NoDataError)
  {
    if !p.stored then
      MigrateStep(p.(error := Some(NoDataError), results := None), false)
    else
      var p0 := p.(error := None, results := None);
      match reply
      case Migrated(results) => MigrateStep(p0.(results := Some(results), step := "complete", stored := false), true)
      case Refused(_, error, _) => MigrateStep(p0.(error := Some(if error != "" then error else "Migration failed")), true)
  }

  /** The route's answer as the page shows it: the results and the last
      step, with local storage cleared; or the route's error message. */
  lemma MigrateReplyShown(p: Page, reply: Migrate.Reply)
    requires p.stored
    ensures var q := HandleMigrate(p, reply).page;
            && (reply.Migrated? ==> q.results == Some(reply.results) && q.step == "complete" && !q.stored && q.error.None?)
            && (reply.Refused? && reply.error != "" ==> q.error == Some(reply.error) && q.results.None? && q.step == p.step && q.stored)
  {
  }
}

=== FILE: event_stream.dfy ===
/** The streaming routes' wire format and the page's reader. The server
    writes every event as `data: <json>` followed by a blank line; the page
    appends each chunk it receives to a buffer, splits the buffer on blank
    lines, keeps the unfinished last piece and takes the payload of every
    finished piece that starts with `data: `. */
module EventStream {
  import opened Base
  import opened Seqs
  import opened Strings

  const Separator := "\n\n"
  const Prefix := "data: "

  /** One event on the wire. */
  function Frame(payload: string): string
  {
    Prefix + payload + Separator
  }

  /** The whole body for a sequence of payloads. */
  function Body(payloads: seq<string>): string
  {
    Flatten(Map(payloads, Frame))
  }

  /** `JSON.stringify` without indentation writes no raw line break. */
  predicate OneLine(s: string)
  {
    forall i :: 0 <= i < |s| ==> s[i] != '\n'
  }

  /** The finished pieces of a buffer and the unfinished rest. */
  function Finished(s: string): seq<string>
  {
    var lines := Split(s, Separator);
    lines[..|lines| - 1]
  }

  function Unfinished(s: string): string
  {
    var lines := Split(s, Separator);
    lines[|lines| - 1]
  }

  /** The payloads of the pieces that carry one, in order; other pieces are
      ignored. */
  function Payloads(blocks: seq<string>): (r: seq<string>)
    ensures |r| <= |blocks|
  {
    if |blocks| == 0 then []
    else
      (if StartsWith(blocks[0], Prefix) then [blocks[0][|Prefix|..]] else [])
        + Payloads(blocks[1..])
  }

  lemma {:induction false} PayloadsAppend(a: seq<string>, b: seq<string>)
    ensures Payloads(a + b) == Payloads(a) + Payloads(b)
    decreases |a|
  {
    if |a| == 0 {
      assert a + b == b;
    } else {
      var h := if StartsWith(a[0], Prefix) then [a[0][|Prefix|..]] else [];
      assert (a + b)[0] == a[0];
      assert (a + b)[1..] == a[1..] + b;
      assert Payloads(a + b) == h + Payloads(a[1..] + b);
      PayloadsAppend(a[1..], b);
    }
  }

  /** The buffer is the finished pieces and the unfinished rest, joined. */
  lemma FinishedThenUnfinished(s: string)
    ensures Split(s, Separator) == Finished(s) + [Unfinished(s)]
    ensures s == Join(Finished(s) + [Unfinished(s)], Separator)
  {
    var lines := Split(s, Separator);
    assert lines == lines[..|lines| - 1] + [lines[|lines| - 1]];
    SplitJoin(s, Separator);
  }

  /** Receiving a chunk re-splits only the unfinished piece. */
  lemma Receive(before: string, chunk: string)
    ensures var lines := Split(Unfinished(before) + chunk, Separator);
            && Finished(before + chunk) == Finished(before) + lines[..|lines| - 1]
            && Unfinished(before + chunk) == lines[|lines| - 1]
  {
    SplitStream(before, chunk, Separator);
    var a := Split(before, Separator)[..|Split(before, Separator)| - 1];
    var b := Split(Unfinished(before) + chunk, Separator);
    assert Split(before + chunk, Separator) == a + b;
    assert (a + b)[..|a + b| - 1] == a + b[..|b| - 1];
    assert (a + b)[|a + b| - 1] == b[|b| - 1];
  }

  lemma FlattenSnoc(chunks: seq<string>, i: nat)
    requires i < |chunks|
    ensures Flatten(chunks[..i + 1]) == Flatten(chunks[..i]) + chunks[i]
  {
    assert chunks[..i + 1] == chunks[..i] + [chunks[i]];
    FlattenAppend(chunks[..i], [chunks[i]]);
    FlattenSingle(chunks[i]);
  }

  /** The page's read loop over the chunks of a response body. `lines.pop()
      || ""` is the last piece itself, since `split` never returns an empty
      array and an empty piece is already "". */
  method ReadBody(chunks: seq<string>) returns (payloads: seq<string>, buffer: string)
    ensures payloads == Payloads(Finished(Flatten(chunks)))
    ensures Flatten(chunks) == Join(Finished(Flatten(chunks)) + [buffer], Separator)
  {
    buffer := "";
    payloads := [];
    for i := 0 to |chunks|
      invariant buffer == Unfinished(Flatten(chunks[..i]))
      invariant payloads == Payloads(Finished(Flatten(chunks[..i])))
    {
      var lines := Split(buffer + chunks[i], Separator);
      FlattenSnoc(chunks, i);
      Receive(Flatten(chunks[..i]), chunks[i]);
      PayloadsAppend(Finished(Flatten(chunks[..i])), lines[..|lines| - 1]);
      buffer := lines[|lines| - 1];
      payloads := payloads + Payloads(lines[..|lines| - 1]);
    }
    assert chunks[..|chunks|] == chunks;
    FinishedThenUnfinished(Flatten(chunks));
  }

  /** A one-line payload never closes its frame early. */
  lemma FrameEndsBefore(p: string)
    requires OneLine(p)
    ensures EndsBefore(Prefix + p, Separator)
  {
    var w := Prefix + p + "\n";
    assert Separator[..|Separator| - 1] == "\n";
    forall i | 0 <= i <= |w| ensures !Occurs(w, Separator, i) {
      if i + 2 <= |w| {
        assert w[i..i + 2][0] == w[i];
        if i < |Prefix| {
          assert w[i] == Prefix[i];
        } else {
          assert w[i] == p[i - |Prefix|];
        }
      }
    }
  }

  lemma BodyCons(p: string, ps: seq<string>)
    ensures Body([p] + ps) == Prefix + p + Separator + Body(ps)
  {
    MapCons(p, ps, Frame);
  }

  /** The body of the payloads splits into their `data: ` pieces, and
      nothing is left over. */
  lemma {:induction false} SplitBody(ps: seq<string>)
    requires forall k :: 0 <= k < |ps| ==> OneLine(ps[k])
    ensures Split(Body(ps), Separator) == Map(ps, (p: string) => Prefix + p) + [""]
    decreases |ps|
  {
    if |ps| == 0 {
      SplitNoSep("", Separator);
    } else {
      var rest := ps[1..];
      assert ps == [ps[0]] + rest;
      BodyCons(ps[0], rest);
      FrameEndsBefore(ps[0]);
      SplitPrefix(Prefix + ps[0], Separator, Body(rest));
      SplitBody(rest);
      MapCons(ps[0], rest, (p: string) => Prefix + p);
    }
  }

  lemma {:induction false} PayloadsOfPieces(ps: seq<string>)
    ensures Payloads(Map(ps, (p: string) => Prefix + p)) == ps
    decreases |ps|
  {
    if |ps| > 0 {
      var m := Map(ps, (p: string) => Prefix + p);
      assert m[1..] == Map(ps[1..], (p: string) => Prefix + p);
      assert m[0][|Prefix|..] == ps[0];
      PayloadsOfPieces(ps[1..]);
    }
  }

  /** Round trip: however the body is cut into chunks, the reader recovers
      exactly the payloads written, in order, and ends with an empty
      buffer. */
  lemma ReadsWhatWasWritten(ps: seq<string>, chunks: seq<string>)
    requires forall k :: 0 <= k < |ps| ==> OneLine(ps[k])
    requires Flatten(chunks) == Body(ps)
    ensures Payloads(Finished(Flatten(chunks))) == ps
    ensures Unfinished(Flatten(chunks)) == ""
  {
    SplitBody(ps);
    var m := Map(ps, (p: string) => Prefix + p);
    assert (m + [""])[..|m|] == m;
    PayloadsOfPieces(ps);
  }

  /** A body without a blank line gives the reader nothing: it stays in the
      buffer, whatever the chunking. */
  lemma NoBlankLineNoPayload(body: string, chunks: seq<string>)
    requires !Contains(body, Separator)
    requires Flatten(chunks) == body
    ensures Payloads(Finished(Flatten(chunks))) == []
    ensures Unfinished(Flatten(chunks)) == body
  {
    SplitNoSep(body, Separator);
  }

  /** No two adjacent line breaks: no blank line. */
  lemma NoAdjacentBreaks(w: string)
    requires forall i :: 0 <= i < |w| - 1 ==> w[i] != '\n' || w[i + 1] != '\n'
    ensures !Contains(w, Separator)
  {
    forall i | 0 <= i <= |w| ensures !Occurs(w, Separator, i) {
      if i + 2 <= |w| {
        assert w[i..i + 2][0] == w[i] && w[i..i + 2][1] == w[i + 1];
      }
    }
  }

  lemma SplitExample()
    ensures Split("data: x\n\n\ndata: y\n\n", Separator) == ["data: x", "\ndata: y", ""]
  {
    var first := "data: x";
    var second := "\ndata: y";
    assert Separator[..|Separator| - 1] == "\n";
    NoAdjacentBreaks(first + "\n");
    NoAdjacentBreaks(second + "\n");
    assert "data: x\n\n\ndata: y\n\n" == first + Separator + (second + Separator + "");
    SplitPrefix(first, Separator, second + Separator + "");
    SplitPrefix(second, Separator, "");
    SplitNoSep("", Separator);
  }

  lemma BodyExample()
    ensures Body(["x\n", "y"]) == "data: x\n\n\ndata: y\n\n"
  {
    assert ["x\n", "y"] == ["x\n"] + ["y"] && ["y"] == ["y"] + [];
    BodyCons("x\n", ["y"]);
    BodyCons("y", []);
    assert Body([]) == "";
  }

  lemma PayloadsExample()
    ensures Payloads(["data: x", "\ndata: y"]) == ["x"]
  {
    var blocks := ["data: x", "\ndata: y"];
    assert StartsWith(blocks[0], Prefix) && blocks[0][|Prefix|..] == "x";
    assert blocks[1][..|Prefix|][0] == '\n' != Prefix[0];
    assert blocks[1..] == ["\ndata: y"] && blocks[1..][1..] == [];
  }

  /** Being free of blank lines is not enough for a payload: one ending in a
      line break loses that break, and the next frame then no longer starts
      with `data: ` and is dropped. */
  lemma TrailingLineBreakLosesFrames()
    ensures !Contains("x\n", Separator)
    ensures Payloads(Finished(Body(["x\n", "y"]))) == ["x"]
  {
    NoAdjacentBreaks("x\n");
    BodyExample();
    SplitExample();
    PayloadsExample();
    var lines := ["data: x", "\ndata: y", ""];
    assert lines[..|lines| - 1] == ["data: x", "\ndata: y"];
  }
}

=== FILE: fetch_data.dfy ===
/** `POST /api/fetch-data`: read the whole source library — saved track ids,
    every playlist with its track ids, saved album ids and followed artist
    ids, in that order — and return it with its counts. Calls are made once
    each, without retries; the first one that throws turns the reply into a
    500. */
module FetchData {
  import opened Base
  import opened Seqs
  import opened Strings
  import opened Retry
  import opened Paging
  import opened Api

  /** Page sizes: 50 for saved tracks, playlists, albums and artists, 100 for
      the tracks of a playlist. */
  const ListLimit: nat := 50
  const TracksLimit: nat := 100

  /** What the reply keeps of a playlist. Its id is not kept. */
  datatype Snapshot = Snapshot(name: string, description: string, tracks: seq<string>, isPublic: bool)

  datatype MigrationData = MigrationData(
    savedTracks: seq<string>,
    playlists: seq<Snapshot>,
    savedAlbums: seq<string>,
    followedArtists: seq<string>)

  datatype Counts = Counts(likedSongs: nat, playlists: nat, albums: nat, artists: nat)

  /** The JSON reply: the data and its counts (status 200), or an error with
      its status and, for 500, the thrown message. */
  datatype Reply =
    | Fetched(data: MigrationData, counts: Counts)
    | Refused(status: nat, error: string, details: Option<string>)

  datatype FetchRun = FetchRun(reply: Reply, done: seq<ApiCall>)

  /** The server lists each followed artist once. */
  ghost predicate WellFormed(lib: Library)
  {
    Distinct(lib.artists)
  }

  /** `{ name, description: description || "", tracks, isPublic: public ?? false }`
      with `tracks` the non-empty ids read from the playlist's pages. */
  function SnapshotOf(p: Playlist): Snapshot
  {
    Snapshot(
      p.name,
      p.description.GetOr(""),
      TrackIds(Items(ShortPages(p.items, TracksLimit))),
      p.isPublic.GetOr(false))
  }

  /** `fetchPlaylistTracks`: the track pages of one playlist. */
  function TrackSteps(p: Playlist): seq<Step>
  {
    PageCalls(PlaylistTracks(p.id), TracksLimit, ShortPages(p.items, TracksLimit))
  }

  /** The playlists of one listing page, one after the other. */
  function PlaylistPageSteps(ps: seq<Playlist>): seq<Step>
  {
    if |ps| == 0 then [] else TrackSteps(ps[0]) + PlaylistPageSteps(ps[1..])
  }

  /** `fetchAllPlaylists`: a listing page, then the tracks of each of its
      playlists, then the next listing page. */
  function PlaylistListingSteps(fs: seq<PageFetch<Playlist>>): seq<Step>
  {
    if |fs| == 0 then []
    else [Call(GetPage(MyPlaylists, ListLimit, fs[0].offset))] + PlaylistPageSteps(fs[0].page) + PlaylistListingSteps(fs[1..])
  }

  /** The calls of the route, in order: saved tracks, playlists (with their
      tracks), saved albums, followed artists. */
  function Script(lib: Library): seq<Step>
    requires WellFormed(lib)
  {
    PageCalls(SavedTracks, ListLimit, ShortPages(lib.saved, ListLimit))
    + PlaylistListingSteps(ShortPages(lib.playlists, ListLimit))
    + PageCalls(SavedAlbums, ListLimit, ShortPages(lib.albums, ListLimit))
    + CursorCalls(ListLimit, FollowByNext(lib.artists, ListLimit, None))
  }

  /** The data assembled from the pages read: `item.track.id` for every saved
      track (not filtered), a snapshot per playlist, `item.album.id` per
      album and the artist ids of every cursor page. */
  function Collected(lib: Library): MigrationData
    requires WellFormed(lib)
  {
    MigrationData(
      Map(Items(ShortPages(lib.saved, ListLimit)), IdOf),
      Map(Items(ShortPages(lib.playlists, ListLimit)), SnapshotOf),
      Map(Items(ShortPages(lib.albums, ListLimit)), AlbumIdOf),
      CursorItems(FollowByNext(lib.artists, ListLimit, None)))
  }

  function CountsOf(d: MigrationData): Counts
  {
    Counts(|d.savedTracks|, |d.playlists|, |d.savedAlbums|, |d.followedArtists|)
  }

  /** `POST /api/fetch-data`: 401 without a truthy `source_access_token`;
      otherwise the calls run once each and the first that throws yields
      500 with its message. */
  function Route(token: Option<string>, lib: Library, respond: Responder): FetchRun
    requires WellFormed(lib)
  {
    if !Truthy(token) then FetchRun(Refused(401, "Source account not authenticated", None), [])
    else
      var o := Execute(Script(lib), respond, 1, 0);
      match o.failure
      case None => FetchRun(Fetched(Collected(lib), CountsOf(Collected(lib))), o.done)
      case Some(e) => FetchRun(Refused(500, "Failed to fetch data", Some(e.Message())), o.done)
  }

  /** A snapshot keeps the playlist's name, turns an absent description
      into "" and an absent visibility into private, and lists the
      playlist's non-empty track ids in order. */
  lemma SnapshotKeepsPlaylist(p: Playlist)
    ensures SnapshotOf(p).name == p.name
    ensures SnapshotOf(p).tracks == TrackIds(p.items)
    ensures SnapshotOf(p).description == (if p.description.Some? then p.description.value else "")
    ensures SnapshotOf(p).isPublic <==> p.isPublic == Some(true)
  {
  }

  /** The data returned is the whole library, in the server's order: saved
      track ids unfiltered, one snapshot per playlist, every album id and
      every followed artist id; and the counts are their sizes. */
  lemma CollectedIsLibrary(lib: Library)
    requires WellFormed(lib)
    ensures Collected(lib).savedTracks == Map(lib.saved, IdOf)
    ensures |Collected(lib).playlists| == |lib.playlists|
    ensures forall k :: 0 <= k < |lib.playlists| ==> Collected(lib).playlists[k] == SnapshotOf(lib.playlists[k])
    ensures Collected(lib).savedAlbums == Map(lib.albums, AlbumIdOf)
    ensures Collected(lib).followedArtists == lib.artists
    ensures CountsOf(Collected(lib)) == Counts(|lib.saved|, |lib.playlists|, |lib.albums|, |lib.artists|)
  {
    FollowByNextReadsAll(lib.artists, ListLimit, None);
  }

  /** Only reads: no call changes the account. */
  lemma {:induction false} PlaylistPageReadOnly(ps: seq<Playlist>)
    ensures ReadOnly(PlaylistPageSteps(ps)) && Events(PlaylistPageSteps(ps)) == []
    decreases |ps|
  {
    if |ps| > 0 {
      PlaylistPageReadOnly(ps[1..]);
      PageCallsEvents(PlaylistTracks(ps[0].id), TracksLimit, ShortPages(ps[0].items, TracksLimit));
      ShapeAppend(TrackSteps(ps[0]), PlaylistPageSteps(ps[1..]));
      EventsAppend(TrackSteps(ps[0]), PlaylistPageSteps(ps[1..]));
    }
  }

  lemma {:induction false} PlaylistListingReadOnly(fs: seq<PageFetch<Playlist>>)
    ensures ReadOnly(PlaylistListingSteps(fs)) && Events(PlaylistListingSteps(fs)) == []
    decreases |fs|
  {
    if |fs| > 0 {
      var head: seq<Step> := [Call(GetPage(MyPlaylists, ListLimit, fs[0].offset))];
      PlaylistListingReadOnly(fs[1..]);
      PlaylistPageReadOnly(fs[0].page);
      StepSingle(head[0]);
      ShapeAppend(head, PlaylistPageSteps(fs[0].page));
      ShapeAppend(head + PlaylistPageSteps(fs[0].page), PlaylistListingSteps(fs[1..]));
      EventsAppend(head, PlaylistPageSteps(fs[0].page));
      EventsAppend(head + PlaylistPageSteps(fs[0].page), PlaylistListingSteps(fs[1..]));
    }
  }

  /** The route never writes to the account. */
  lemma ScriptReadOnly(lib: Library)
    requires WellFormed(lib)
    ensures ReadOnly(Script(lib))
  {
    var a := PageCalls(SavedTracks, ListLimit, ShortPages(lib.saved, ListLimit));
    var b := PlaylistListingSteps(ShortPages(lib.playlists, ListLimit));
    var c := PageCalls(SavedAlbums, ListLimit, ShortPages(lib.albums, ListLimit));
    var d := CursorCalls(ListLimit, FollowByNext(lib.artists, ListLimit, None));
    PageCallsEvents(SavedTracks, ListLimit, ShortPages(lib.saved, ListLimit));
    PageCallsEvents(SavedAlbums, ListLimit, ShortPages(lib.albums, ListLimit));
    PlaylistListingReadOnly(ShortPages(lib.playlists, ListLimit));
    CursorCallsReadOnly(ListLimit, FollowByNext(lib.artists, ListLimit, None));
    ShapeAppend(a, b);
    ShapeAppend(a + b, c);
    ShapeAppend(a + b + c, d);
  }

  /** The artist calls follow the cursors: the first sends none, each later
      one the last id of the page before, and there are
      `max(1, ceil(n / 50))` of them. */
  lemma ArtistCursors(lib: Library)
    requires WellFormed(lib)
    ensures var fs := FollowByNext(lib.artists, ListLimit, None);
            && Chained(fs, lib.artists, ListLimit, None)
            && |Calls(CursorCalls(ListLimit, fs))| == Max(1, CeilDiv(|lib.artists|, ListLimit))
            && Calls(CursorCalls(ListLimit, fs))[0] == GetFollowedArtists(ListLimit, None)
  {
    var fs := FollowByNext(lib.artists, ListLimit, None);
    FollowByNextChained(lib.artists, ListLimit, None);
    FollowByNextCount(lib.artists, ListLimit, None);
    CursorCallsReadOnly(ListLimit, fs);
  }

  /** Without a truthy token: 401 and no call. */
  lemma Unauthenticated(token: Option<string>, lib: Library, respond: Responder)
    requires WellFormed(lib) && !Truthy(token)
    ensures Route(token, lib, respond) == FetchRun(Refused(401, "Source account not authenticated", None), [])
  {
  }

  /** When every call is answered the reply is the whole library with its
      counts, and every call of the script was made. */
  lemma FetchSucceeds(token: Option<string>, lib: Library, respond: Responder)
    requires WellFormed(lib) && Truthy(token)
    requires forall k: nat, i: nat :: respond(k, i).None?
    ensures Route(token, lib, respond).done == Calls(Script(lib))
    ensures Route(token, lib, respond).reply.Fetched?
    ensures Route(token, lib, respond).reply.data.followedArtists == lib.artists
    ensures Route(token, lib, respond).reply.data.savedTracks == Map(lib.saved, IdOf)
    ensures Route(token, lib, respond).reply.counts == Counts(|lib.saved|, |lib.playlists|, |lib.albums|, |lib.artists|)
  {
    ExecuteAllSucceed(Script(lib), respond, 1, 0, 0);
    CollectedIsLibrary(lib);
  }

  /** The first call the service rejects ends the route with 500 and that
      call's message; every call before it was answered, and none after it
      is made. Either way the reply is the data or a 500. */
  lemma FetchFailsAtFirstRejection(token: Option<string>, lib: Library, respond: Responder)
    requires WellFormed(lib) && Truthy(token)
    ensures var r := Route(token, lib, respond);
            && r.done <= Calls(Script(lib))
            && (forall j :: 0 <= j < |r.done| ==> respond(j, 0).None?)
            && (r.reply.Refused? ==>
                  && r.reply.status == 500
                  && |r.done| < |Calls(Script(lib))|
                  && respond(|r.done|, 0).Some?
                  && r.reply.details == Some(respond(|r.done|, 0).value.message))
  {
    RejectionEndsRun(Script(lib), respond);
  }
}

=== FILE: liked_songs_playlist.dfy ===
/** `POST /api/create-liked-songs-playlist`: read the saved tracks 50 at a
    time, keeping every non-empty track id (duplicates included), abort with
    an error event when there are none, and otherwise copy them into one new
    public playlist. */
module LikedSongsPlaylist {
  import opened Base
  import opened Seqs
  import opened Strings
  import opened Paging
  import opened Api
  import opened PlaylistStream

  /** Page size of `getMySavedTracks`. */
  const PageLimit: nat := 50

  /** One loop iteration per page: fetch it, append the ids of its tracks,
      and report how many ids have been collected. */
  function LikedPageSteps(fs: seq<PageFetch<Track>>, acc: seq<string>): seq<Step>
    decreases |fs|
  {
    if |fs| == 0 then []
    else
      var acc' := acc + TrackIds(fs[0].page);
      [Call(GetPage(SavedTracks, PageLimit, fs[0].offset)),
       Emit(Progress("Fetching liked songs...", |acc'|, None))]
      + LikedPageSteps(fs[1..], acc')
  }

  /** Call `k` of the loop fetches page `k` of the saved tracks. */
  ghost predicate ReadsPages(cs: seq<ApiCall>, fs: seq<PageFetch<Track>>)
  {
    |cs| == |fs| && forall k :: 0 <= k < |fs| ==> cs[k] == GetPage(SavedTracks, PageLimit, fs[k].offset)
  }

  /** Event `k` of the loop reports the ids collected up to and including
      page `k`. */
  ghost predicate ReportsRunningCount(es: seq<Event>, fs: seq<PageFetch<Track>>, acc: seq<string>)
  {
    && |es| == |fs|
    && forall k :: 0 <= k < |fs| ==>
         es[k] == Progress("Fetching liked songs...", |acc| + |TrackIds(Items(fs[..k + 1]))|, None)
  }

  lemma {:induction false} LikedPageCalls(fs: seq<PageFetch<Track>>, acc: seq<string>)
    ensures ReadsPages(Calls(LikedPageSteps(fs, acc)), fs)
    decreases |fs|
  {
    if |fs| > 0 {
      var c := GetPage(SavedTracks, PageLimit, fs[0].offset);
      var acc' := acc + TrackIds(fs[0].page);
      var e := Progress("Fetching liked songs...", |acc'|, None);
      var rest := LikedPageSteps(fs[1..], acc');
      LikedPageCalls(fs[1..], acc');
      CallThenReport(c, e, rest);
      var cs := Calls(LikedPageSteps(fs, acc));
      var cr := Calls(rest);
      forall k | 0 <= k < |fs|
        ensures cs[k] == GetPage(SavedTracks, PageLimit, fs[k].offset)
      {
        if k > 0 {
          assert cs[k] == cr[k - 1];
          assert fs[k] == fs[1..][k - 1];
        }
      }
    }
  }

  /** The loop's reports: after each page, the number of ids collected. */
  function FetchReports(fs: seq<PageFetch<Track>>, acc: seq<string>): seq<Event>
    decreases |fs|
  {
    if |fs| == 0 then []
    else
      var acc' := acc + TrackIds(fs[0].page);
      [Progress("Fetching liked songs...", |acc'|, None)] + FetchReports(fs[1..], acc')
  }

  lemma {:induction false} LikedPageEvents(fs: seq<PageFetch<Track>>, acc: seq<string>)
    ensures Events(LikedPageSteps(fs, acc)) == FetchReports(fs, acc)
    decreases |fs|
  {
    if |fs| > 0 {
      var c := GetPage(SavedTracks, PageLimit, fs[0].offset);
      var acc' := acc + TrackIds(fs[0].page);
      var e := Progress("Fetching liked songs...", |acc'|, None);
      LikedPageEvents(fs[1..], acc');
      CallThenReport(c, e, LikedPageSteps(fs[1..], acc'));
    }
  }

  /** The ids of the first page, then those of the next `k` pages. */
  lemma TrackIdsOfPrefix(fs: seq<PageFetch<Track>>, k: nat)
    requires k < |fs|
    ensures TrackIds(Items(fs[..k + 1])) == TrackIds(fs[0].page) + TrackIds(Items(fs[1..][..k]))
  {
    assert fs[..k + 1] == [fs[0]] + fs[1..][..k];
    ItemsAppend([fs[0]], fs[1..][..k]);
    assert Items([fs[0]]) == fs[0].page by {
      assert [fs[0]][1..] == [];
    }
    TrackIdsAppend(fs[0].page, Items(fs[1..][..k]));
  }

  lemma {:induction false} FetchReportsCount(fs: seq<PageFetch<Track>>, acc: seq<string>)
    ensures ReportsRunningCount(FetchReports(fs, acc), fs, acc)
    decreases |fs|
  {
    if |fs| > 0 {
      var acc' := acc + TrackIds(fs[0].page);
      var es := FetchReports(fs, acc);
      var er := FetchReports(fs[1..], acc');
      FetchReportsCount(fs[1..], acc');
      forall k | 0 <= k < |fs|
        ensures es[k] == Progress("Fetching liked songs...", |acc| + |TrackIds(Items(fs[..k + 1]))|, None)
      {
        TrackIdsOfPrefix(fs, k);
        if k > 0 {
          assert es[k] == er[k - 1];
          assert fs[1..][..k] == fs[1..][..(k - 1) + 1];
        } else {
          assert Items(fs[1..][..0]) == [] by {
            assert fs[1..][..0] == [];
          }
        }
      }
    }
  }

  lemma LikedPageReports(fs: seq<PageFetch<Track>>, acc: seq<string>)
    ensures ReportsRunningCount(Events(LikedPageSteps(fs, acc)), fs, acc)
  {
    LikedPageEvents(fs, acc);
    FetchReportsCount(fs, acc);
  }

  /** The page loop only reads and only reports progress. */
  lemma LikedPageShape(fs: seq<PageFetch<Track>>, acc: seq<string>)
    ensures ProgressOnly(LikedPageSteps(fs, acc)) && ReadOnly(LikedPageSteps(fs, acc))
  {
    var steps := LikedPageSteps(fs, acc);
    LikedPageCalls(fs, acc);
    LikedPageReports(fs, acc);
    forall c | c in Calls(steps)
      ensures !c.IsWrite()
    {
      var k :| 0 <= k < |Calls(steps)| && Calls(steps)[k] == c;
      assert c == GetPage(SavedTracks, PageLimit, fs[k].offset);
    }
    forall e | e in Events(steps)
      ensures e.Progress?
    {
      var k :| 0 <= k < |Events(steps)| && Events(steps)[k] == e;
    }
  }

  /** The ids collected: every saved track's id that is non-empty, in
      listing order, duplicates kept. */
  function LikedIds(saved: seq<Track>): seq<string>
  {
    TrackIds(saved)
  }

  /** Everything the route does before deciding whether to create. */
  function CollectSteps(saved: seq<Track>): seq<Step>
  {
    [Emit(Progress("Starting...", 0, None)), Emit(Progress("Fetching liked songs...", 0, None))]
    + LikedPageSteps(ShortPages(saved, PageLimit), [])
    + [Emit(Progress("All liked songs fetched", |LikedIds(saved)|, None))]
  }

  /** `❤️ My Liked Songs - <date>`. */
  function Name(today: string): string
  {
    "\U{2764}\U{FE0F} My Liked Songs - " + today
  }

  function Description(now: string, n: nat): string
  {
    "All my liked songs exported on " + now + ". Total: " + NatToString(n) + " tracks."
  }

  /** The route's script once authenticated: with no ids it reports the
      error and stops; otherwise it writes them all. */
  function Script(saved: seq<Track>, created: Created, today: string, now: string): seq<Step>
  {
    var ids := LikedIds(saved);
    CollectSteps(saved)
    + if |ids| == 0 then [Emit(ErrorEvent("No liked songs found"))]
      else WriteSteps(Name(today), Description(now, |ids|), created, ids)
  }

  /** `POST /api/create-liked-songs-playlist`. */
  function Route(token: Option<string>, saved: seq<Track>, created: Created, today: string, now: string, respond: Responder): StreamRun
  {
    RunStream(token, Script(saved, created, today, now), respond)
  }

  /** The collection phase only reads and only reports progress. */
  lemma CollectStepsReadOnly(saved: seq<Track>)
    ensures ProgressOnly(CollectSteps(saved)) && ReadOnly(CollectSteps(saved))
  {
    var fs := ShortPages(saved, PageLimit);
    var a: seq<Step> := [Emit(Progress("Starting...", 0, None)), Emit(Progress("Fetching liked songs...", 0, None))];
    var b := LikedPageSteps(fs, []);
    var d: seq<Step> := [Emit(Progress("All liked songs fetched", |LikedIds(saved)|, None))];
    TwoReports(a[0].event, a[1].event);
    TwoReports(d[0].event, d[0].event);
    LikedPageShape(fs, []);
    ShapeAppend(a, b);
    ShapeAppend(a + b, d);
  }

  /** The collection phase reads `floor(n / 50) + 1` pages at offsets 0, 50,
      100, …, only reports progress, and after page `k` reports the number
      of ids on pages `0..k`; its last report is the total. */
  lemma CollectStepsShape(saved: seq<Track>)
    ensures var fs := ShortPages(saved, PageLimit);
            var loop := LikedPageSteps(fs, []);
            && |fs| == |saved| / PageLimit + 1
            && (forall k :: 0 <= k < |fs| ==> fs[k].offset == k * PageLimit)
            && ReadsPages(Calls(loop), fs)
            && ReportsRunningCount(Events(loop), fs, [])
            && Events(loop)[|fs| - 1] == Progress("Fetching liked songs...", |LikedIds(saved)|, None)
  {
    var fs := ShortPages(saved, PageLimit);
    LikedPageCalls(fs, []);
    LikedPageReports(fs, []);
    assert fs[..|fs|] == fs;
    OffsetsAreMultiples(fs, saved);
  }

  /** Offset `k` of the loop is `k * 50`. */
  lemma OffsetsAreMultiples(fs: seq<PageFetch<Track>>, saved: seq<Track>)
    requires Stepped(fs, saved, PageLimit, 0)
    ensures forall k :: 0 <= k < |fs| ==> fs[k].offset == k * PageLimit
  {
    forall k | 0 <= k < |fs|
      ensures fs[k].offset == k * PageLimit
    {
      SteppedOffset(fs, saved, PageLimit, 0, k);
    }
  }

  /** With no ids the script is the reading part and one error report. */
  lemma ScriptWithoutIds(saved: seq<Track>, created: Created, today: string, now: string)
    requires LikedIds(saved) == []
    ensures Script(saved, created, today, now) == CollectSteps(saved) + [Emit(ErrorEvent("No liked songs found"))]
  {
    assert |LikedIds(saved)| == 0;
  }

  /** With no saved track that has an id, the route never creates a
      playlist: its calls are the page reads, and its last event is the
      error. */
  lemma NoLikedSongsAborts(saved: seq<Track>, created: Created, today: string, now: string)
    requires LikedIds(saved) == []
    ensures Calls(Script(saved, created, today, now)) == Calls(CollectSteps(saved))
    ensures ReadOnly(Script(saved, created, today, now))
    ensures var es := Events(Script(saved, created, today, now));
            |es| > 0 && es[|es| - 1] == ErrorEvent("No liked songs found")
  {
    var c := CollectSteps(saved);
    var e := ErrorEvent("No liked songs found");
    ScriptWithoutIds(saved, created, today, now);
    CollectStepsReadOnly(saved);
    ThenReport(c, e);
  }

  /** With at least one id the only writes are one public playlist and the
      URIs of all ids — duplicates included, in listing order — in
      `ceil(n / 100)` slices. */
  lemma LikedWrites(saved: seq<Track>, created: Created, today: string, now: string)
    requires |LikedIds(saved)| > 0
    ensures Calls(Script(saved, created, today, now))
         == Calls(CollectSteps(saved))
            + [CreatePlaylist(Name(today), Description(now, |LikedIds(saved)|), true)]
            + AddCalls(created.id, Chunks(Map(LikedIds(saved), Uri), AddBatchSize))
    ensures |Chunks(Map(LikedIds(saved), Uri), AddBatchSize)| == CeilDiv(|LikedIds(saved)|, AddBatchSize)
    ensures Flatten(Chunks(Map(LikedIds(saved), Uri), AddBatchSize)) == Map(LikedIds(saved), Uri)
  {
    var ids := LikedIds(saved);
    var w := WriteSteps(Name(today), Description(now, |ids|), created, ids);
    assert Script(saved, created, today, now) == CollectSteps(saved) + w;
    WriteAfter(CollectSteps(saved), Name(today), Description(now, |ids|), created, ids);
  }

  /** Authenticated, with at least one id and every call answered, the run
      ends with COMPLETE carrying the created playlist and the number of
      ids collected. */
  lemma LikedCompletes(token: Option<string>, saved: seq<Track>, created: Created, today: string, now: string, respond: Responder)
    requires Truthy(token) && |LikedIds(saved)| > 0
    requires forall k: nat, i: nat :: respond(k, i).None?
    ensures var r := Route(token, saved, created, today, now, respond);
            && r.done == Calls(Script(saved, created, today, now))
            && |r.events| > 0
            && r.events[|r.events| - 1] == Complete(created.url, created.id, |LikedIds(saved)|)
  {
    var ids := LikedIds(saved);
    var w := WriteSteps(Name(today), Description(now, |ids|), created, ids);
    assert Script(saved, created, today, now) == CollectSteps(saved) + w;
    CollectWriteSucceeds(token, CollectSteps(saved), Name(today), Description(now, |ids|), created, ids, respond);
  }

  /** A call that still fails after its retries ends the run with an error
      event, and COMPLETE is not sent. */
  lemma LikedFailureReported(token: Option<string>, saved: seq<Track>, created: Created, today: string, now: string, respond: Responder)
    requires Truthy(token)
    ensures var r := Route(token, saved, created, today, now, respond);
            var script := Script(saved, created, today, now);
            && r.done <= Calls(script)
            && (r.events == Events(script)
                || (&& |r.events| > 0
                    && r.events[..|r.events| - 1] <= Events(script)
                    && r.events[|r.events| - 1].Progress?
                    && StartsWith(r.events[|r.events| - 1].stage, "Error: ")
                    && forall e :: e in r.events ==> e.Progress?))
    ensures EndsAtFirstFailure(Route(token, saved, created, today, now, respond), Script(saved, created, today, now), respond)
  {
    var ids := LikedIds(saved);
    var script := Script(saved, created, today, now);
    CollectStepsReadOnly(saved);
    if |ids| == 0 {
      assert script[..|script| - 1] == CollectSteps(saved);
    } else {
      CollectThenWrite(CollectSteps(saved), Name(today), Description(now, |ids|), created, ids);
    }
    StreamStopsAtFailure(token, script, respond);
  }
}

=== FILE: logout.dfy ===
/** `POST /api/logout`: forget one role's tokens by deleting its three
    cookies. The cookie jar is a map from cookie name to value. */
module Logout {
  import opened Base
  import opened Seqs
  import opened Strings
  import opened Auth
  import opened Callback

  type Store = map<string, string>

  /** 400 `Invalid account parameter`, or `{ success: true }`. */
  datatype LogoutReply = Rejected | LoggedOut

  datatype Outcome = Outcome(reply: LogoutReply, store: Store)

  /** The jar without the named cookies. */
  function Delete(store: Store, names: seq<string>): (r: Store)
    ensures forall k :: k in r <==> k in store && k !in names
    ensures forall k :: k in r ==> r[k] == store[k]
  {
    store - (set n | n in names)
  }

  /** The route, given the body's `account` field. */
  function HandleLogout(account: Option<string>, store: Store): (o: Outcome)
    ensures o.reply == LoggedOut <==> account == Some("source") || account == Some("target")
    ensures o.reply == Rejected ==> o.store == store
  {
    match ParseRole(account)
    case None => Outcome(Rejected, store)
    case Some(r) => Outcome(LoggedOut, Delete(store, CookieNames(r)))
  }

  /** A valid account loses exactly its three cookies; every other cookie,
      the other role's included, keeps its value. */
  lemma LogoutRemovesExactly(r: Role, store: Store)
    ensures var o := HandleLogout(Some(r.Name()), store);
            && o.reply == LoggedOut
            && (forall k :: k in o.store <==> k in store && k !in CookieNames(r))
            && (forall k :: k in o.store ==> o.store[k] == store[k])
  {
  }

  /** Logging one role out leaves the other role connected. */
  lemma LogoutKeepsOtherRole(r: Role, other: Role, store: Store)
    requires r != other
    ensures var o := HandleLogout(Some(r.Name()), store);
            forall k :: k in CookieNames(other) && k in store ==> k in o.store && o.store[k] == store[k]
  {
    forall k | k in CookieNames(other) ensures k !in CookieNames(r) {
      var i :| 0 <= i < 3 && CookieNames(other)[i] == k;
      assert k[0] == other.Name()[0];
      forall j | 0 <= j < 3 ensures CookieNames(r)[j] != k {
        assert CookieNames(r)[j][0] == r.Name()[0];
      }
    }
  }

  /** Logging out twice is logging out once. */
  lemma LogoutIdempotent(account: Option<string>, store: Store)
    ensures var once := HandleLogout(account, store);
            HandleLogout(account, once.store) == once
  {
  }

  /** Setting cookies in order, a later one replacing an earlier one of the
      same name. */
  function SetCookies(store: Store, cs: seq<Cookie>): (r: Store)
    ensures forall k :: k in r <==> k in store || k in Map(cs, (c: Cookie) => c.name)
    decreases |cs|
  {
    if |cs| == 0 then store
    else
      var r := SetCookies(store[cs[0].name := cs[0].value], cs[1..]);
      assert Map(cs, (c: Cookie) => c.name) == [cs[0].name] + Map(cs[1..], (c: Cookie) => c.name);
      r
  }

  /** Logging out undoes a sign-in: the cookies the callback stored for the
      role are gone and the rest of the jar is as before the sign-in,
      whatever the role had stored earlier. */
  lemma LogoutUndoesSignIn(r: Role, g: Grant, now: nat, store: Store)
    ensures HandleLogout(Some(r.Name()), SetCookies(store, TokenCookies(r, g, now))).store
         == Delete(store, CookieNames(r))
  {
    var cs := TokenCookies(r, g, now);
    var signedIn := SetCookies(store, cs);
    var after := HandleLogout(Some(r.Name()), signedIn).store;
    assert Map(cs, (c: Cookie) => c.name) == CookieNames(r);
    forall k | k in after ensures after[k] == store[k] {
      assert k !in CookieNames(r);
      SetCookiesElsewhere(store, cs, k);
    }
  }

  /** A cookie that is not set keeps its value. */
  lemma {:induction false} SetCookiesElsewhere(store: Store, cs: seq<Cookie>, k: string)
    requires k in store && k !in Map(cs, (c: Cookie) => c.name)
    ensures k in SetCookies(store, cs) && SetCookies(store, cs)[k] == store[k]
    decreases |cs|
  {
    if |cs| > 0 {
      assert Map(cs, (c: Cookie) => c.name) == [cs[0].name] + Map(cs[1..], (c: Cookie) => c.name);
      SetCookiesElsewhere(store[cs[0].name := cs[0].value], cs[1..], k);
    }
  }
}

=== FILE: mega_playlist.dfy ===
/** The create-mega-playlist route: pool the ids of the liked songs, of
    every track of every listed playlist and of the first page of tracks of
    every saved album into an insertion-ordered set, then create one public
    playlist holding all of them, streaming progress events throughout. */
module MegaPlaylist {
  import opened Base
  import opened Seqs
  import opened Strings
  import opened Paging
  import opened Api
  import opened PlaylistStream

  /** Page size of the liked-songs, playlists and saved-albums loops. */
  const ListLimit: nat := 50
  /** Page size of the playlist-tracks loop. */
  const TracksLimit: nat := 100

  /** The track ids of the playlists, playlist by playlist. */
  function PlaylistIds(ps: seq<Playlist>): seq<string>
  {
    if |ps| == 0 then [] else TrackIds(ps[0].items) + PlaylistIds(ps[1..])
  }

  /** The track ids of the albums' first pages, album by album. */
  function AlbumIds(albums: seq<Album>): seq<string>
  {
    if |albums| == 0 then [] else TrackIds(albums[0].firstPage) + AlbumIds(albums[1..])
  }

  /** The playlists' ids are the non-empty ids of their tracks. */
  lemma {:induction false} PlaylistIdsMembers(ps: seq<Playlist>)
    ensures forall x :: x in PlaylistIds(ps) <==> x != "" && exists j :: 0 <= j < |ps| && HasTrack(ps[j].items, x)
    decreases |ps|
  {
    if |ps| > 0 {
      PlaylistIdsMembers(ps[1..]);
      TrackIdsMembers(ps[0].items);
      assert forall j :: 1 <= j < |ps| ==> ps[j] == ps[1..][j - 1];
    }
  }

  /** The albums' ids are the non-empty ids of their first pages. */
  lemma {:induction false} AlbumIdsMembers(albums: seq<Album>)
    ensures forall x :: x in AlbumIds(albums) <==> x != "" && exists j :: 0 <= j < |albums| && HasTrack(albums[j].firstPage, x)
    decreases |albums|
  {
    if |albums| > 0 {
      AlbumIdsMembers(albums[1..]);
      TrackIdsMembers(albums[0].firstPage);
      assert forall j :: 1 <= j < |albums| ==> albums[j] == albums[1..][j - 1];
    }
  }

  /** The pool after the liked songs. */
  function LikedPool(lib: Library): seq<string>
  {
    InsertAll([], TrackIds(lib.saved))
  }

  /** The pool after the playlists. */
  function PlaylistPool(lib: Library): seq<string>
  {
    InsertAll(LikedPool(lib), PlaylistIds(lib.playlists))
  }

  /** The final pool, after the albums: `allTrackIds`. */
  function Pool(lib: Library): seq<string>
  {
    InsertAll(PlaylistPool(lib), AlbumIds(lib.albums))
  }

  /** A track id the library mentions anywhere the route looks. */
  predicate InLibrary(lib: Library, x: string)
  {
    x != "" &&
    (|| HasTrack(lib.saved, x)
     || (exists j :: 0 <= j < |lib.playlists| && HasTrack(lib.playlists[j].items, x))
     || (exists j :: 0 <= j < |lib.albums| && HasTrack(lib.albums[j].firstPage, x)))
  }

  /** The pool is a set of exactly the library's track ids: every id found
      in a liked song, a playlist or an album's first page is in it exactly
      once, and nothing else (no missing id) is. */
  lemma PoolIsLibrarySet(lib: Library)
    ensures Distinct(Pool(lib))
    ensures forall x :: x in Pool(lib) <==> InLibrary(lib, x)
    ensures |Pool(lib)| == |set x | x in Pool(lib)|
  {
    var a, b, c := TrackIds(lib.saved), PlaylistIds(lib.playlists), AlbumIds(lib.albums);
    InsertAllSet([], a);
    InsertAllSet(LikedPool(lib), b);
    InsertAllSet(PlaylistPool(lib), c);
    TrackIdsMembers(lib.saved);
    PlaylistIdsMembers(lib.playlists);
    AlbumIdsMembers(lib.albums);
    forall x ensures x in Pool(lib) <==> InLibrary(lib, x) {
      assert x in Pool(lib) <==> x in a || x in b || x in c;
    }
    DistinctCard(Pool(lib));
  }

  /** For each playlist: report it, then page through its tracks by 100. */
  function PlaylistSteps(ps: seq<Playlist>, pool: seq<string>, total: nat): seq<Step>
  {
    if |ps| == 0 then []
    else
      [Emit(Progress("Playlist: " + ps[0].name, |pool|, Some(total)))]
      + PageCalls(PlaylistTracks(ps[0].id), TracksLimit, ShortPages(ps[0].items, TracksLimit))
      + PlaylistSteps(ps[1..], InsertAll(pool, TrackIds(ps[0].items)), total)
  }

  /** Event `k` reports playlist `k` and the number of distinct ids pooled
      before it. */
  ghost predicate PlaylistReports(es: seq<Event>, ps: seq<Playlist>, pool: seq<string>, total: nat)
  {
    && |es| == |ps|
    && forall k :: 0 <= k < |ps| ==>
         es[k] == Progress("Playlist: " + ps[k].name, |InsertAll(pool, PlaylistIds(ps[..k]))|, Some(total))
  }

  /** The loop's reports: each playlist's name with the number of distinct
      ids pooled before it. */
  function PlaylistNotes(ps: seq<Playlist>, pool: seq<string>, total: nat): seq<Event>
  {
    if |ps| == 0 then []
    else
      [Progress("Playlist: " + ps[0].name, |pool|, Some(total))]
      + PlaylistNotes(ps[1..], InsertAll(pool, TrackIds(ps[0].items)), total)
  }

  lemma {:induction false} PlaylistStepsEvents(ps: seq<Playlist>, pool: seq<string>, total: nat)
    ensures Events(PlaylistSteps(ps, pool, total)) == PlaylistNotes(ps, pool, total)
    decreases |ps|
  {
    if |ps| > 0 {
      var pages := ShortPages(ps[0].items, TracksLimit);
      var pool' := InsertAll(pool, TrackIds(ps[0].items));
      PlaylistStepsEvents(ps[1..], pool', total);
      PageCallsEvents(PlaylistTracks(ps[0].id), TracksLimit, pages);
      ReportThenQuiet(Progress("Playlist: " + ps[0].name, |pool|, Some(total)),
        PageCalls(PlaylistTracks(ps[0].id), TracksLimit, pages), PlaylistSteps(ps[1..], pool', total));
    }
  }

  lemma {:induction false} PlaylistNotesCount(ps: seq<Playlist>, pool: seq<string>, total: nat)
    ensures PlaylistReports(PlaylistNotes(ps, pool, total), ps, pool, total)
    decreases |ps|
  {
    if |ps| > 0 {
      var pool' := InsertAll(pool, TrackIds(ps[0].items));
      var es := PlaylistNotes(ps, pool, total);
      var er := PlaylistNotes(ps[1..], pool', total);
      PlaylistNotesCount(ps[1..], pool', total);
      forall k | 0 <= k < |ps|
        ensures es[k] == Progress("Playlist: " + ps[k].name, |InsertAll(pool, PlaylistIds(ps[..k]))|, Some(total))
      {
        if k == 0 {
          assert ps[..0] == [];
        } else {
          assert es[k] == er[k - 1];
          assert ps[1..][..k - 1] == ps[..k][1..];
          InsertAllAppend(pool, TrackIds(ps[0].items), PlaylistIds(ps[1..][..k - 1]));
        }
      }
    }
  }

  /** Before playlist `k` the route reports its name and the number of
      distinct ids pooled so far. */
  lemma PlaylistStepsReport(ps: seq<Playlist>, pool: seq<string>, total: nat)
    ensures PlaylistReports(Events(PlaylistSteps(ps, pool, total)), ps, pool, total)
  {
    PlaylistStepsEvents(ps, pool, total);
    PlaylistNotesCount(ps, pool, total);
  }

  /** The playlist loop only reads. */
  lemma {:induction false} PlaylistStepsReadOnly(ps: seq<Playlist>, pool: seq<string>, total: nat)
    ensures ReadOnly(PlaylistSteps(ps, pool, total))
    decreases |ps|
  {
    if |ps| > 0 {
      var head: seq<Step> := [Emit(Progress("Playlist: " + ps[0].name, |pool|, Some(total)))];
      var pages := PageCalls(PlaylistTracks(ps[0].id), TracksLimit, ShortPages(ps[0].items, TracksLimit));
      var rest := PlaylistSteps(ps[1..], InsertAll(pool, TrackIds(ps[0].items)), total);
      PlaylistStepsReadOnly(ps[1..], InsertAll(pool, TrackIds(ps[0].items)), total);
      TwoReports(head[0].event, head[0].event);
      PageCallsEvents(PlaylistTracks(ps[0].id), TracksLimit, ShortPages(ps[0].items, TracksLimit));
      ShapeAppend(head, pages);
      ShapeAppend(head + pages, rest);
    }
  }

  /** For each album: report it, then one `getAlbumTracks` call. */
  function AlbumSteps(albums: seq<Album>, pool: seq<string>): seq<Step>
  {
    if |albums| == 0 then []
    else
      [Emit(Progress("Album: " + albums[0].name, |pool|, None)), Call(GetAlbumTracks(albums[0].id))]
      + AlbumSteps(albums[1..], InsertAll(pool, TrackIds(albums[0].firstPage)))
  }

  /** Call `k` fetches the tracks of album `k`, once. */
  ghost predicate OneCallPerAlbum(cs: seq<ApiCall>, albums: seq<Album>)
  {
    |cs| == |albums| && forall k :: 0 <= k < |albums| ==> cs[k] == GetAlbumTracks(albums[k].id)
  }

  /** Event `k` reports album `k` and the number of distinct ids pooled
      before it. */
  ghost predicate AlbumReports(es: seq<Event>, albums: seq<Album>, pool: seq<string>)
  {
    && |es| == |albums|
    && forall k :: 0 <= k < |albums| ==>
         es[k] == Progress("Album: " + albums[k].name, |InsertAll(pool, AlbumIds(albums[..k]))|, None)
  }

  /** Each album costs exactly one unpaginated track call, and no write. */
  lemma {:induction false} AlbumStepsCalls(albums: seq<Album>, pool: seq<string>)
    ensures OneCallPerAlbum(Calls(AlbumSteps(albums, pool)), albums)
    decreases |albums|
  {
    if |albums| > 0 {
      var e := Progress("Album: " + albums[0].name, |pool|, None);
      var c := GetAlbumTracks(albums[0].id);
      var rest := AlbumSteps(albums[1..], InsertAll(pool, TrackIds(albums[0].firstPage)));
      AlbumStepsCalls(albums[1..], InsertAll(pool, TrackIds(albums[0].firstPage)));
      ReportThenCall(e, c);
      CallsAppend([Emit(e), Call(c)], rest);
      var cs := Calls(AlbumSteps(albums, pool));
      var cr := Calls(rest);
      assert cs == [c] + cr;
      forall k | 0 <= k < |albums|
        ensures cs[k] == GetAlbumTracks(albums[k].id)
      {
        if k > 0 {
          assert cs[k] == cr[k - 1];
          assert albums[k] == albums[1..][k - 1];
        }
      }
    }
  }

  /** The album phase only reads. */
  lemma AlbumStepsReadOnly(albums: seq<Album>, pool: seq<string>)
    ensures ReadOnly(AlbumSteps(albums, pool))
  {
    var cs := Calls(AlbumSteps(albums, pool));
    AlbumStepsCalls(albums, pool);
    forall c | c in cs
      ensures !c.IsWrite()
    {
      var k :| 0 <= k < |cs| && cs[k] == c;
      assert c == GetAlbumTracks(albums[k].id);
    }
  }

  /** Before album `k` the route reports its name and the number of
      distinct ids pooled so far. */
  lemma {:induction false} AlbumStepsReport(albums: seq<Album>, pool: seq<string>)
    ensures AlbumReports(Events(AlbumSteps(albums, pool)), albums, pool)
    decreases |albums|
  {
    if |albums| > 0 {
      var e := Progress("Album: " + albums[0].name, |pool|, None);
      var c := GetAlbumTracks(albums[0].id);
      var pool' := InsertAll(pool, TrackIds(albums[0].firstPage));
      var rest := AlbumSteps(albums[1..], pool');
      AlbumStepsReport(albums[1..], pool');
      ReportThenCall(e, c);
      EventsAppend([Emit(e), Call(c)], rest);
      var es := Events(AlbumSteps(albums, pool));
      var er := Events(rest);
      assert es == [e] + er;
      forall k | 0 <= k < |albums|
        ensures es[k] == Progress("Album: " + albums[k].name, |InsertAll(pool, AlbumIds(albums[..k]))|, None)
      {
        if k == 0 {
          assert albums[..0] == [];
        } else {
          assert es[k] == er[k - 1];
          assert albums[1..][..k - 1] == albums[..k][1..];
          InsertAllAppend(pool, TrackIds(albums[0].firstPage), AlbumIds(albums[1..][..k - 1]));
        }
      }
    }
  }

  /** `🎵 My Complete Library - <date>`. */
  function Name(today: string): string
  {
    "\U{1F3B5} My Complete Library - " + today
  }

  function Description(now: string, n: nat): string
  {
    "All songs from liked songs, playlists, and albums. Created on " + now
      + ". Total: " + NatToString(n) + " unique tracks."
  }

  /** The opening reports and the liked-songs and playlist listings. */
  function OpeningSteps(lib: Library): seq<Step>
  {
    var liked := |LikedPool(lib)|;
    [Emit(Progress("Starting...", 0, None)), Emit(Progress("Fetching liked songs...", 0, None))]
    + PageCalls(SavedTracks, ListLimit, ShortPages(lib.saved, ListLimit))
    + [Emit(Progress("Liked songs fetched", liked, None)), Emit(Progress("Fetching playlists...", liked, None))]
    + PageCalls(MyPlaylists, ListLimit, ShortPages(lib.playlists, ListLimit))
    + [Emit(Progress("Fetching tracks from " + NatToString(|lib.playlists|) + " playlists...", liked, None))]
  }

  /** The album listing and the closing report of the collection phase. */
  function AlbumPhase(lib: Library): seq<Step>
  {
    var pooled := |PlaylistPool(lib)|;
    [Emit(Progress("All playlists processed", pooled, None)), Emit(Progress("Fetching albums...", pooled, None))]
    + PageCalls(SavedAlbums, ListLimit, ShortPages(lib.albums, ListLimit))
    + AlbumSteps(lib.albums, PlaylistPool(lib))
    + [Emit(Progress("All albums processed", |Pool(lib)|, None))]
  }

  /** Everything the route does before creating the playlist. */
  function CollectSteps(lib: Library): seq<Step>
  {
    OpeningSteps(lib) + PlaylistSteps(lib.playlists, LikedPool(lib), |lib.playlists|) + AlbumPhase(lib)
  }

  /** The route's script once authenticated. */
  function Script(lib: Library, created: Created, today: string, now: string): seq<Step>
  {
    CollectSteps(lib)
    + WriteSteps(Name(today), Description(now, |Pool(lib)|), created, Pool(lib))
  }

  /** `POST /api/create-mega-playlist`. */
  function Route(token: Option<string>, lib: Library, created: Created, today: string, now: string, respond: Responder): StreamRun
  {
    RunStream(token, Script(lib, created, today, now), respond)
  }

  lemma OpeningStepsShape(lib: Library)
    ensures ProgressOnly(OpeningSteps(lib)) && ReadOnly(OpeningSteps(lib))
  {
    var liked := |LikedPool(lib)|;
    var a: seq<Step> := [Emit(Progress("Starting...", 0, None)), Emit(Progress("Fetching liked songs...", 0, None))];
    var b := PageCalls(SavedTracks, ListLimit, ShortPages(lib.saved, ListLimit));
    var c: seq<Step> := [Emit(Progress("Liked songs fetched", liked, None)), Emit(Progress("Fetching playlists...", liked, None))];
    var d := PageCalls(MyPlaylists, ListLimit, ShortPages(lib.playlists, ListLimit));
    var e: seq<Step> := [Emit(Progress("Fetching tracks from " + NatToString(|lib.playlists|) + " playlists...", liked, None))];
    TwoReports(a[0].event, a[1].event);
    TwoReports(c[0].event, c[1].event);
    TwoReports(e[0].event, e[0].event);
    PageCallsEvents(SavedTracks, ListLimit, ShortPages(lib.saved, ListLimit));
    PageCallsEvents(MyPlaylists, ListLimit, ShortPages(lib.playlists, ListLimit));
    ShapeAppend(a, b);
    ShapeAppend(a + b, c);
    ShapeAppend(a + b + c, d);
    ShapeAppend(a + b + c + d, e);
  }

  lemma AlbumPhaseShape(lib: Library)
    ensures ProgressOnly(AlbumPhase(lib)) && ReadOnly(AlbumPhase(lib))
  {
    var pooled := |PlaylistPool(lib)|;
    var a: seq<Step> := [Emit(Progress("All playlists processed", pooled, None)), Emit(Progress("Fetching albums...", pooled, None))];
    var b := PageCalls(SavedAlbums, ListLimit, ShortPages(lib.albums, ListLimit));
    var c := AlbumSteps(lib.albums, PlaylistPool(lib));
    var d: seq<Step> := [Emit(Progress("All albums processed", |Pool(lib)|, None))];
    TwoReports(a[0].event, a[1].event);
    TwoReports(d[0].event, d[0].event);
    PageCallsEvents(SavedAlbums, ListLimit, ShortPages(lib.albums, ListLimit));
    AlbumStepsReport(lib.albums, PlaylistPool(lib));
    AlbumStepsReadOnly(lib.albums, PlaylistPool(lib));
    ShapeAppend(a, b);
    ShapeAppend(a + b, c);
    ShapeAppend(a + b + c, d);
  }

  /** The collection phase only reads and only reports progress. */
  lemma CollectStepsShape(lib: Library)
    ensures ProgressOnly(CollectSteps(lib)) && ReadOnly(CollectSteps(lib))
  {
    var a := OpeningSteps(lib);
    var b := PlaylistSteps(lib.playlists, LikedPool(lib), |lib.playlists|);
    var c := AlbumPhase(lib);
    OpeningStepsShape(lib);
    AlbumPhaseShape(lib);
    PlaylistStepsReport(lib.playlists, LikedPool(lib), |lib.playlists|);
    PlaylistStepsReadOnly(lib.playlists, LikedPool(lib), |lib.playlists|);
    assert ProgressOnly(b);
    ShapeAppend(a, b);
    ShapeAppend(a + b, c);
  }

  /** The only writes are one public playlist and the URIs of the pool, in
      pool order, in consecutive slices of at most 100. */
  lemma MegaWrites(lib: Library, created: Created, today: string, now: string)
    ensures Calls(Script(lib, created, today, now))
         == Calls(CollectSteps(lib))
            + [CreatePlaylist(Name(today), Description(now, |Pool(lib)|), true)]
            + AddCalls(created.id, Chunks(Map(Pool(lib), Uri), AddBatchSize))
    ensures ReadOnly(CollectSteps(lib))
    ensures Distinct(Map(Pool(lib), Uri))
  {
    CollectStepsShape(lib);
    WriteAfter(CollectSteps(lib), Name(today), Description(now, |Pool(lib)|), created, Pool(lib));
    PoolIsLibrarySet(lib);
    UrisDistinct(Pool(lib));
  }

  /** Authenticated and with every call answered, the route writes every
      step of its script and its last event is COMPLETE with the created
      playlist's link and id and `totalTracks` the pool's size. */
  lemma MegaCompletes(token: Option<string>, lib: Library, created: Created, today: string, now: string, respond: Responder)
    requires Truthy(token)
    requires forall k: nat, i: nat :: respond(k, i).None?
    ensures var r := Route(token, lib, created, today, now, respond);
            && r.done == Calls(Script(lib, created, today, now))
            && |r.events| > 0
            && r.events[|r.events| - 1] == Complete(created.url, created.id, |Pool(lib)|)
  {
    var w := WriteSteps(Name(today), Description(now, |Pool(lib)|), created, Pool(lib));
    assert Script(lib, created, today, now) == CollectSteps(lib) + w;
    CollectWriteSucceeds(token, CollectSteps(lib), Name(today), Description(now, |Pool(lib)|), created, Pool(lib), respond);
  }

  /** A call that still fails after its retries ends the run with an error
      event; COMPLETE is not sent and what was already written stays. */
  lemma MegaFailureReported(token: Option<string>, lib: Library, created: Created, today: string, now: string, respond: Responder)
    requires Truthy(token)
    ensures var r := Route(token, lib, created, today, now, respond);
            var script := Script(lib, created, today, now);
            && r.done <= Calls(script)
            && (r.events == Events(script)
                || (&& |r.events| > 0
                    && r.events[..|r.events| - 1] <= Events(script)
                    && r.events[|r.events| - 1].Progress?
                    && StartsWith(r.events[|r.events| - 1].stage, "Error: ")
                    && forall e :: e in r.events ==> e.Progress?))
    ensures EndsAtFirstFailure(Route(token, lib, created, today, now, respond), Script(lib, created, today, now), respond)
  {
    CollectStepsShape(lib);
    CollectThenWrite(CollectSteps(lib), Name(today), Description(now, |Pool(lib)|), created, Pool(lib));
    StreamStopsAtFailure(token, Script(lib, created, today, now), respond);
  }
}

=== FILE: migrate.dfy ===
/** `POST /api/migrate`: copy the source account's library into the target
    account — saved tracks, the playlists the source user owns, saved albums
    and followed artists, in that order — with no retries; the first call
    that throws turns the reply into a 500, and what was already written to
    the target stays. */
module Migrate {
  import opened Base
  import opened Seqs
  import opened Strings
  import opened Retry
  import opened Paging
  import opened Api

  /** `getAllItems`' default page size, also the artist page size. */
  const PageLimit: nat := 50
  /** At most this many ids per save or follow call. */
  const SaveBatch: nat := 50
  /** At most this many URIs per `addTracksToPlaylist` call. */
  const AddBatch: nat := 100

  /** `getAllItems` over a listing whose reported total is its length. */
  function ReadAll<T>(items: seq<T>): seq<PageFetch<T>>
  {
    TotalPages(items, |items|, PageLimit)
  }

  function ReadSteps<T>(listing: Listing, items: seq<T>): seq<Step>
  {
    PageCalls(listing, PageLimit, ReadAll(items))
  }

  /** Where a batch of ids is saved in the target account. */
  datatype Sink = LikedSongs | SavedAlbumsSink | FollowedArtists

  function SaveCall(sink: Sink, ids: seq<string>): ApiCall
  {
    match sink
    case LikedSongs => AddToMySavedTracks(ids)
    case SavedAlbumsSink => AddToMySavedAlbums(ids)
    case FollowedArtists => FollowArtists(ids)
  }

  /** One save call per batch. */
  function SaveSteps(sink: Sink, batches: seq<seq<string>>): seq<Step>
  {
    Map(batches, (b: seq<string>) => Call(SaveCall(sink, b)))
  }

  /** One `addTracksToPlaylist` per batch. */
  function AddSteps(playlistId: string, batches: seq<seq<string>>): seq<Step>
  {
    Map(batches, (b: seq<string>) => Call(AddTracksToPlaylist(playlistId, b)))
  }

  /** `migrateLikedSongs`: `item.track.id` of every saved track read, not
      filtered, saved 50 at a time. */
  function LikedIds(lib: Library): seq<string>
  {
    Map(Items(ReadAll(lib.saved)), IdOf)
  }

  function LikedSteps(lib: Library): seq<Step>
  {
    ReadSteps(SavedTracks, lib.saved) + SaveSteps(LikedSongs, Chunks(LikedIds(lib), SaveBatch))
  }

  /** The playlists whose owner is the source user, in listing order. */
  function Owned(ps: seq<Playlist>, userId: string): seq<Playlist>
  {
    if |ps| == 0 then []
    else (if ps[0].ownerId == userId then [ps[0]] else []) + Owned(ps[1..], userId)
  }

  /** The URIs of a playlist's items that have a track with a URI. */
  function PlaylistUris(p: Playlist): seq<string>
  {
    Filter(Map(Items(ReadAll(p.items)), UriOf), Present)
  }

  /** `createPlaylist(name, { description: description || "", public: public ?? false })`. */
  function CreateFor(p: Playlist): ApiCall
  {
    CreatePlaylist(p.name, p.description.GetOr(""), p.isPublic.GetOr(false))
  }

  /** The playlists that get a copy: those with at least one URI. */
  function Copied(ps: seq<Playlist>): seq<Playlist>
  {
    if |ps| == 0 then []
    else (if |PlaylistUris(ps[0])| > 0 then [ps[0]] else []) + Copied(ps[1..])
  }

  /** One owned playlist: read its tracks; unless it has no URI, create the
      copy and add the URIs 100 at a time to the id the service returned. */
  function CopyOne(p: Playlist, newId: string): seq<Step>
  {
    ReadSteps(PlaylistTracks(p.id), p.items)
    + if |PlaylistUris(p)| == 0 then []
      else [Call(CreateFor(p))] + AddSteps(newId, Chunks(PlaylistUris(p), AddBatch))
  }

  /** The loop over owned playlists; `target(k)` is the id the service gives
      the `k`-th playlist created. */
  function CopySteps(ps: seq<Playlist>, target: nat -> string, k: nat): seq<Step>
  {
    if |ps| == 0 then []
    else
      CopyOne(ps[0], target(k))
      + CopySteps(ps[1..], target, if |PlaylistUris(ps[0])| == 0 then k else k + 1)
  }

  /** `migratePlaylists`. */
  function PlaylistSteps(lib: Library, target: nat -> string): seq<Step>
  {
    ReadSteps(UserPlaylists(lib.userId), lib.playlists)
    + CopySteps(Owned(Items(ReadAll(lib.playlists)), lib.userId), target, 0)
  }

  /** `migrateAlbums`. */
  function AlbumIds(lib: Library): seq<string>
  {
    Map(Items(ReadAll(lib.albums)), AlbumIdOf)
  }

  function AlbumSteps(lib: Library): seq<Step>
  {
    ReadSteps(SavedAlbums, lib.albums) + SaveSteps(SavedAlbumsSink, Chunks(AlbumIds(lib), SaveBatch))
  }

  /** `migrateArtists`: the do-while cursor loop, then follow 50 at a time. */
  function ArtistReads(lib: Library): seq<CursorFetch>
    requires Distinct(lib.artists)
  {
    FollowByCursor(lib.artists, PageLimit, None)
  }

  function ArtistIds(lib: Library): seq<string>
    requires Distinct(lib.artists)
  {
    CursorItems(ArtistReads(lib))
  }

  function ArtistSteps(lib: Library): seq<Step>
    requires Distinct(lib.artists)
  {
    CursorCalls(PageLimit, ArtistReads(lib)) + SaveSteps(FollowedArtists, Chunks(ArtistIds(lib), SaveBatch))
  }

  /** The calls of the route: `getMe`, then the four migrations in order. */
  function Script(lib: Library, target: nat -> string): seq<Step>
    requires Distinct(lib.artists)
  {
    [Call(GetMe)] + LikedSteps(lib) + PlaylistSteps(lib, target) + AlbumSteps(lib) + ArtistSteps(lib)
  }

  datatype Results = Results(likedSongs: nat, playlists: nat, albums: nat, artists: nat)

  datatype Reply =
    | Migrated(results: Results)
    | Refused(status: nat, error: string, details: Option<string>)

  datatype MigrateRun = MigrateRun(reply: Reply, done: seq<ApiCall>)

  /** The counts each migration returns: items read for liked songs, albums
      and artists, and copies made for playlists. */
  function ResultsOf(lib: Library): Results
    requires Distinct(lib.artists)
  {
    Results(
      |Items(ReadAll(lib.saved))|,
      |Copied(Owned(Items(ReadAll(lib.playlists)), lib.userId))|,
      |Items(ReadAll(lib.albums))|,
      |ArtistIds(lib)|)
  }

  /** `POST /api/migrate`: 401 unless both tokens are truthy; otherwise the
      calls run once each, and the first that throws yields 500 with its
      message. `lib` is the source account as the service lists it. */
  function Route(sourceToken: Option<string>, targetToken: Option<string>, lib: Library, target: nat -> string, respond: Responder): MigrateRun
    requires Distinct(lib.artists)
  {
    if !Truthy(sourceToken) || !Truthy(targetToken) then
      MigrateRun(Refused(401, "Both accounts must be authenticated", None), [])
    else
      var o := Execute(Script(lib, target), respond, 1, 0);
      match o.failure
      case None => MigrateRun(Migrated(ResultsOf(lib)), o.done)
      case Some(e) => MigrateRun(Refused(500, "Migration failed", Some(e.Message())), o.done)
  }

  // ----- reading -----

  /** `getAllItems` reads every item once, in order, in
      `max(1, ceil(n / 50))` calls. */
  lemma ReadAllItems<T>(items: seq<T>)
    ensures Items(ReadAll(items)) == items
    ensures |ReadAll(items)| == Max(1, CeilDiv(|items|, PageLimit))
  {
  }

  /** A playlist's URIs are those of its items that have one, in order. */
  lemma PlaylistUrisMembers(p: Playlist)
    ensures forall u :: u in PlaylistUris(p) <==> u != "" && exists i :: 0 <= i < |p.items| && p.items[i].uri == u
  {
    ReadAllItems(p.items);
    FilterMembers(Map(p.items, UriOf), Present);
  }

  /** The owner filter keeps exactly the source user's playlists. */
  lemma {:induction false} OwnedMembers(ps: seq<Playlist>, userId: string)
    ensures forall p :: p in Owned(ps, userId) <==> p in ps && p.ownerId == userId
    decreases |ps|
  {
    if |ps| > 0 {
      OwnedMembers(ps[1..], userId);
      assert forall p :: p in ps <==> p == ps[0] || p in ps[1..];
    }
  }

  // ----- write shapes -----

  predicate Writing(c: ApiCall)
  {
    c.IsWrite()
  }

  /** The writes of a list of calls, in order. */
  function Writes(cs: seq<ApiCall>): seq<ApiCall>
  {
    Filter(cs, Writing)
  }

  lemma WritesAppend(a: seq<ApiCall>, b: seq<ApiCall>)
    ensures Writes(a + b) == Writes(a) + Writes(b)
  {
    FilterAppend(a, b, Writing);
  }

  /** A read-only script writes nothing. */
  lemma {:induction false} WritesOfReads(cs: seq<ApiCall>)
    requires forall c :: c in cs ==> !c.IsWrite()
    ensures Writes(cs) == []
    decreases |cs|
  {
    if |cs| > 0 {
      assert cs[0] in cs;
      assert forall c :: c in cs[1..] ==> c in cs;
      WritesOfReads(cs[1..]);
    }
  }

  predicate Creating(c: ApiCall)
  {
    c.CreatePlaylist?
  }

  /** The playlists created by a list of calls, in order. */
  function Creates(cs: seq<ApiCall>): seq<ApiCall>
  {
    Filter(cs, Creating)
  }

  lemma CreatesAppend(a: seq<ApiCall>, b: seq<ApiCall>)
    ensures Creates(a + b) == Creates(a) + Creates(b)
  {
    FilterAppend(a, b, Creating);
  }

  /** Calls none of which creates a playlist. */
  lemma {:induction false} CreatesNone(cs: seq<ApiCall>)
    requires forall k :: 0 <= k < |cs| ==> !cs[k].CreatePlaylist?
    ensures Creates(cs) == []
    decreases |cs|
  {
    if |cs| > 0 {
      CreatesNone(cs[1..]);
    }
  }

  /** Reading a listing makes `max(1, ceil(n / 50))` calls and no write. */
  lemma ReadStepsShape<T>(listing: Listing, items: seq<T>)
    ensures ReadOnly(ReadSteps(listing, items)) && Events(ReadSteps(listing, items)) == []
    ensures Writes(Calls(ReadSteps(listing, items))) == []
    ensures Creates(Calls(ReadSteps(listing, items))) == []
    ensures |Calls(ReadSteps(listing, items))| == Max(1, CeilDiv(|items|, PageLimit))
  {
    var steps := ReadSteps(listing, items);
    PageCallsEvents(listing, PageLimit, ReadAll(items));
    CallsOfCallSteps(steps);
    WritesOfReads(Calls(steps));
    CreatesNone(Calls(steps));
  }

  /** The calls of a save loop are its save calls, all writes. */
  lemma SaveStepsCalls(sink: Sink, batches: seq<seq<string>>)
    ensures |Calls(SaveSteps(sink, batches))| == |batches|
    ensures forall k :: 0 <= k < |batches| ==> Calls(SaveSteps(sink, batches))[k] == SaveCall(sink, batches[k])
    ensures Events(SaveSteps(sink, batches)) == []
    ensures Creates(Calls(SaveSteps(sink, batches))) == []
  {
    CallsOfCallSteps(SaveSteps(sink, batches));
    CreatesNone(Calls(SaveSteps(sink, batches)));
  }

  lemma AddStepsCalls(playlistId: string, batches: seq<seq<string>>)
    ensures |Calls(AddSteps(playlistId, batches))| == |batches|
    ensures forall k :: 0 <= k < |batches| ==> Calls(AddSteps(playlistId, batches))[k] == AddTracksToPlaylist(playlistId, batches[k])
    ensures Events(AddSteps(playlistId, batches)) == []
    ensures Creates(Calls(AddSteps(playlistId, batches))) == []
  {
    CallsOfCallSteps(AddSteps(playlistId, batches));
    CreatesNone(Calls(AddSteps(playlistId, batches)));
  }

  /** One owned playlist creates its copy exactly when it has a URI. */
  lemma CopyOneCreates(p: Playlist, newId: string)
    ensures Creates(Calls(CopyOne(p, newId))) == (if |PlaylistUris(p)| == 0 then [] else [CreateFor(p)])
  {
    var read := ReadSteps(PlaylistTracks(p.id), p.items);
    var one := CopyOne(p, newId);
    ReadStepsShape(PlaylistTracks(p.id), p.items);
    if |PlaylistUris(p)| == 0 {
      assert one == read + [];
      assert read + [] == read;
    } else {
      var adds := AddSteps(newId, Chunks(PlaylistUris(p), AddBatch));
      var head: seq<Step> := [Call(CreateFor(p))];
      assert one == read + (head + adds);
      AddStepsCalls(newId, Chunks(PlaylistUris(p), AddBatch));
      StepSingle(head[0]);
      CallsAppend(head, adds);
      CallsAppend(read, head + adds);
      CreatesAppend(Calls(head), Calls(adds));
      CreatesAppend(Calls(read), Calls(head + adds));
      assert Creates([CreateFor(p)]) == [CreateFor(p)] by {
        assert [CreateFor(p)][1..] == [];
      }
    }
  }

  /** The target gets one playlist per owned playlist that has at least one
      URI, in listing order, with the source's name, its description or ""
      and its visibility or private; a playlist without URIs is skipped. */
  lemma {:induction false} CopyStepsCreates(ps: seq<Playlist>, target: nat -> string, k: nat)
    ensures Creates(Calls(CopySteps(ps, target, k))) == Map(Copied(ps), CreateFor)
    decreases |ps|
  {
    if |ps| > 0 {
      var p := ps[0];
      var next := if |PlaylistUris(p)| == 0 then k else k + 1;
      var one := CopyOne(p, target(k));
      var rest := CopySteps(ps[1..], target, next);
      CopyStepsCreates(ps[1..], target, next);
      CopyOneCreates(p, target(k));
      assert CopySteps(ps, target, k) == one + rest;
      CallsAppend(one, rest);
      CreatesAppend(Calls(one), Calls(rest));
      if |PlaylistUris(p)| > 0 {
        assert Copied(ps) == [p] + Copied(ps[1..]);
        MapCons(p, Copied(ps[1..]), CreateFor);
      } else {
        assert Copied(ps) == [] + Copied(ps[1..]);
      }
    }
  }

  /** The playlist migration returns the number of playlists it created. */
  lemma PlaylistCountIsCreates(lib: Library, target: nat -> string)
    requires Distinct(lib.artists)
    ensures Creates(Calls(PlaylistSteps(lib, target))) == Map(Copied(Owned(lib.playlists, lib.userId)), CreateFor)
    ensures ResultsOf(lib).playlists == |Creates(Calls(PlaylistSteps(lib, target)))|
  {
    var owned := Owned(Items(ReadAll(lib.playlists)), lib.userId);
    ReadAllItems(lib.playlists);
    ReadStepsShape(UserPlaylists(lib.userId), lib.playlists);
    CopyStepsCreates(owned, target, 0);
    CallsAppend(ReadSteps(UserPlaylists(lib.userId), lib.playlists), CopySteps(owned, target, 0));
    CreatesAppend(Calls(ReadSteps(UserPlaylists(lib.userId), lib.playlists)), Calls(CopySteps(owned, target, 0)));
  }

  // ----- what reaches the target -----

  /** Every saved track's id, empty ones included, is saved in order, in
      `ceil(n / 50)` calls of at most 50 ids, all but the last full. */
  lemma LikedSongsCopied(lib: Library)
    ensures Calls(LikedSteps(lib))
         == Calls(ReadSteps(SavedTracks, lib.saved)) + Calls(SaveSteps(LikedSongs, Chunks(Map(lib.saved, IdOf), SaveBatch)))
    ensures Writes(Calls(LikedSteps(lib))) == Calls(SaveSteps(LikedSongs, Chunks(Map(lib.saved, IdOf), SaveBatch)))
    ensures |Calls(SaveSteps(LikedSongs, Chunks(Map(lib.saved, IdOf), SaveBatch)))| == CeilDiv(|lib.saved|, SaveBatch)
  {
    var saves := SaveSteps(LikedSongs, Chunks(Map(lib.saved, IdOf), SaveBatch));
    ReadAllItems(lib.saved);
    ReadStepsShape(SavedTracks, lib.saved);
    CallsAppend(ReadSteps(SavedTracks, lib.saved), saves);
    SaveStepsCalls(LikedSongs, Chunks(Map(lib.saved, IdOf), SaveBatch));
    ReadsThenSaves(ReadSteps(SavedTracks, lib.saved), saves);
  }

  /** Every saved album's id is saved in order, 50 at a time. */
  lemma AlbumsCopied(lib: Library)
    ensures Writes(Calls(AlbumSteps(lib))) == Calls(SaveSteps(SavedAlbumsSink, Chunks(Map(lib.albums, AlbumIdOf), SaveBatch)))
    ensures |Writes(Calls(AlbumSteps(lib)))| == CeilDiv(|lib.albums|, SaveBatch)
  {
    var saves := SaveSteps(SavedAlbumsSink, Chunks(Map(lib.albums, AlbumIdOf), SaveBatch));
    ReadAllItems(lib.albums);
    ReadStepsShape(SavedAlbums, lib.albums);
    SaveStepsCalls(SavedAlbumsSink, Chunks(Map(lib.albums, AlbumIdOf), SaveBatch));
    ReadsThenSaves(ReadSteps(SavedAlbums, lib.albums), saves);
  }

  /** The artists read are followed in order, 50 at a time. */
  lemma ArtistsCopied(lib: Library)
    requires Distinct(lib.artists)
    ensures Writes(Calls(ArtistSteps(lib))) == Calls(SaveSteps(FollowedArtists, Chunks(ArtistIds(lib), SaveBatch)))
  {
    var bs := Chunks(ArtistIds(lib), SaveBatch);
    CursorCallsReadOnly(PageLimit, ArtistReads(lib));
    SaveStepsCalls(FollowedArtists, bs);
    ReadsThenSaves(CursorCalls(PageLimit, ArtistReads(lib)), SaveSteps(FollowedArtists, bs));
  }

  /** After a read-only phase, the writes are the save calls. */
  lemma ReadsThenSaves(fetches: seq<Step>, saves: seq<Step>)
    requires ReadOnly(fetches)
    requires forall k :: 0 <= k < |Calls(saves)| ==> Calls(saves)[k].IsWrite()
    ensures Writes(Calls(fetches + saves)) == Calls(saves)
  {
    WritesOfReads(Calls(fetches));
    CallsAppend(fetches, saves);
    WritesAppend(Calls(fetches), Calls(saves));
    AllWrites(Calls(saves));
  }

  /** The artists read are a prefix of the followed artists; with non-empty
      ids they are all of them. */
  lemma ArtistsRead(lib: Library)
    requires Distinct(lib.artists)
    ensures ArtistIds(lib) <= lib.artists
    ensures (forall i :: 0 <= i < |lib.artists| ==> lib.artists[i] != "") ==> ArtistIds(lib) == lib.artists
  {
    FollowByCursorReads(lib.artists, PageLimit, None);
    assert lib.artists[CursorStart(lib.artists, None)..] == lib.artists;
  }

  /** Calls that are all writes are their own writes. */
  lemma {:induction false} AllWrites(cs: seq<ApiCall>)
    requires forall k :: 0 <= k < |cs| ==> cs[k].IsWrite()
    ensures Writes(cs) == cs
    decreases |cs|
  {
    if |cs| > 0 {
      AllWrites(cs[1..]);
    }
  }

  /** The first call identifies the source user. */
  lemma GetMeFirst(lib: Library, target: nat -> string)
    requires Distinct(lib.artists)
    ensures |Calls(Script(lib, target))| > 0 && Calls(Script(lib, target))[0] == GetMe
  {
    var s := Script(lib, target);
    LeadingStep(Call(GetMe), LikedSteps(lib), PlaylistSteps(lib, target), AlbumSteps(lib), ArtistSteps(lib));
    assert Calls(s) == [GetMe] + Calls(s[1..]);
  }

  lemma LeadingStep(x: Step, a: seq<Step>, b: seq<Step>, c: seq<Step>, d: seq<Step>)
    ensures |[x] + a + b + c + d| > 0 && ([x] + a + b + c + d)[0] == x
  {
  }

  // ----- batch limits -----

  /** The service's per-request limits: 50 ids per save or follow, 100 URIs
      per playlist addition. */
  predicate WithinLimits(c: ApiCall)
  {
    match c
    case AddToMySavedTracks(ids) => |ids| <= SaveBatch
    case AddToMySavedAlbums(ids) => |ids| <= SaveBatch
    case FollowArtists(ids) => |ids| <= SaveBatch
    case AddTracksToPlaylist(_, uris) => |uris| <= AddBatch
    case _ => true
  }

  ghost predicate LimitsKept(steps: seq<Step>)
  {
    forall c :: c in Calls(steps) ==> WithinLimits(c)
  }

  lemma LimitsAppend(a: seq<Step>, b: seq<Step>)
    requires LimitsKept(a) && LimitsKept(b)
    ensures LimitsKept(a + b)
  {
    CallsAppend(a, b);
  }

  lemma ReadLimits<T>(listing: Listing, items: seq<T>)
    ensures LimitsKept(ReadSteps(listing, items))
  {
    ReadStepsShape(listing, items);
  }

  /** Save calls over batches of at most 50 ids keep the limits. */
  lemma SaveStepsLimits(sink: Sink, bs: seq<seq<string>>)
    requires forall j :: 0 <= j < |bs| ==> |bs[j]| <= SaveBatch
    ensures LimitsKept(SaveSteps(sink, bs))
  {
    var cs := Calls(SaveSteps(sink, bs));
    SaveStepsCalls(sink, bs);
    assert forall k :: 0 <= k < |cs| ==> WithinLimits(cs[k]);
  }

  lemma SaveLimits(sink: Sink, s: seq<string>)
    ensures LimitsKept(SaveSteps(sink, Chunks(s, SaveBatch)))
  {
    SaveStepsLimits(sink, Chunks(s, SaveBatch));
  }

  /** Additions over batches of at most 100 URIs keep the limits. */
  lemma AddStepsLimits(playlistId: string, bs: seq<seq<string>>)
    requires forall j :: 0 <= j < |bs| ==> |bs[j]| <= AddBatch
    ensures LimitsKept(AddSteps(playlistId, bs))
  {
    var cs := Calls(AddSteps(playlistId, bs));
    AddStepsCalls(playlistId, bs);
    assert forall k :: 0 <= k < |cs| ==> WithinLimits(cs[k]);
  }

  lemma AddLimits(playlistId: string, s: seq<string>)
    ensures LimitsKept(AddSteps(playlistId, Chunks(s, AddBatch)))
  {
    AddStepsLimits(playlistId, Chunks(s, AddBatch));
  }

  lemma {:induction false} CopyLimits(ps: seq<Playlist>, target: nat -> string, k: nat)
    ensures LimitsKept(CopySteps(ps, target, k))
    decreases |ps|
  {
    if |ps| > 0 {
      var p := ps[0];
      var next := if |PlaylistUris(p)| == 0 then k else k + 1;
      var read := ReadSteps(PlaylistTracks(p.id), p.items);
      CopyLimits(ps[1..], target, next);
      ReadLimits(PlaylistTracks(p.id), p.items);
      if |PlaylistUris(p)| == 0 {
        assert CopyOne(p, target(k)) == read + [];
        LimitsAppend(read, []);
      } else {
        var head: seq<Step> := [Call(CreateFor(p))];
        var adds := AddSteps(target(k), Chunks(PlaylistUris(p), AddBatch));
        StepSingle(head[0]);
        AddLimits(target(k), PlaylistUris(p));
        LimitsAppend(head, adds);
        LimitsAppend(read, head + adds);
      }
      LimitsAppend(CopyOne(p, target(k)), CopySteps(ps[1..], target, next));
    }
  }

  /** No call of the route exceeds the service's batch limits. */
  lemma ScriptWithinLimits(lib: Library, target: nat -> string)
    requires Distinct(lib.artists)
    ensures LimitsKept(Script(lib, target))
  {
    var me: seq<Step> := [Call(GetMe)];
    StepSingle(me[0]);
    ReadLimits(SavedTracks, lib.saved);
    SaveLimits(LikedSongs, LikedIds(lib));
    LimitsAppend(ReadSteps(SavedTracks, lib.saved), SaveSteps(LikedSongs, Chunks(LikedIds(lib), SaveBatch)));
    ReadLimits(UserPlaylists(lib.userId), lib.playlists);
    CopyLimits(Owned(Items(ReadAll(lib.playlists)), lib.userId), target, 0);
    LimitsAppend(ReadSteps(UserPlaylists(lib.userId), lib.playlists), CopySteps(Owned(Items(ReadAll(lib.playlists)), lib.userId), target, 0));
    ReadLimits(SavedAlbums, lib.albums);
    SaveLimits(SavedAlbumsSink, AlbumIds(lib));
    LimitsAppend(ReadSteps(SavedAlbums, lib.albums), SaveSteps(SavedAlbumsSink, Chunks(AlbumIds(lib), SaveBatch)));
    CursorCallsReadOnly(PageLimit, ArtistReads(lib));
    SaveLimits(FollowedArtists, ArtistIds(lib));
    LimitsAppend(CursorCalls(PageLimit, ArtistReads(lib)), SaveSteps(FollowedArtists, Chunks(ArtistIds(lib), SaveBatch)));
    LimitsAppend(me, LikedSteps(lib));
    LimitsAppend(me + LikedSteps(lib), PlaylistSteps(lib, target));
    LimitsAppend(me + LikedSteps(lib) + PlaylistSteps(lib, target), AlbumSteps(lib));
    LimitsAppend(me + LikedSteps(lib) + PlaylistSteps(lib, target) + AlbumSteps(lib), ArtistSteps(lib));
  }

  // ----- the route -----

  /** 401, with no call, exactly when a token is missing or empty. */
  lemma BothTokensRequired(sourceToken: Option<string>, targetToken: Option<string>, lib: Library, target: nat -> string, respond: Responder)
    requires Distinct(lib.artists)
    ensures Route(sourceToken, targetToken, lib, target, respond).reply.Refused?
            && Route(sourceToken, targetToken, lib, target, respond).reply.status == 401
        <==> !Truthy(sourceToken) || !Truthy(targetToken)
    ensures !Truthy(sourceToken) || !Truthy(targetToken) ==> Route(sourceToken, targetToken, lib, target, respond).done == []
  {
  }

  /** With both tokens and every call answered, every call is made and the
      results count the saved tracks, the copies made, the saved albums and
      the artists read. */
  lemma MigrateSucceeds(sourceToken: Option<string>, targetToken: Option<string>, lib: Library, target: nat -> string, respond: Responder)
    requires Distinct(lib.artists) && Truthy(sourceToken) && Truthy(targetToken)
    requires forall k: nat, i: nat :: respond(k, i).None?
    ensures Route(sourceToken, targetToken, lib, target, respond).done == Calls(Script(lib, target))
    ensures Route(sourceToken, targetToken, lib, target, respond).reply
         == Migrated(Results(|lib.saved|, |Copied(Owned(lib.playlists, lib.userId))|, |lib.albums|, |ArtistIds(lib)|))
  {
    ExecuteAllSucceed(Script(lib, target), respond, 1, 0, 0);
    ReadAllItems(lib.saved);
    ReadAllItems(lib.playlists);
    ReadAllItems(lib.albums);
  }

  /** The first call the service rejects ends the route with 500 and that
      call's message; the calls before it, writes included, stay made. */
  lemma MigrateFailsAtFirstRejection(sourceToken: Option<string>, targetToken: Option<string>, lib: Library, target: nat -> string, respond: Responder)
    requires Distinct(lib.artists) && Truthy(sourceToken) && Truthy(targetToken)
    ensures var r := Route(sourceToken, targetToken, lib, target, respond);
            && r.done <= Calls(Script(lib, target))
            && (forall j :: 0 <= j < |r.done| ==> respond(j, 0).None?)
            && (r.reply.Refused? ==>
                  && r.reply.status == 500
                  && |r.done| < |Calls(Script(lib, target))|
                  && respond(|r.done|, 0).Some?
                  && r.reply.details == Some(respond(|r.done|, 0).value.message))
  {
    RejectionEndsRun(Script(lib, target), respond);
  }
}

=== FILE: paging.dfy ===
/** The three pagination loops of the routes, over a remote listing modelled
    as a finite sequence that the server hands out in windows:
    - the short-page loop: fetch at offset 0, `limit`, `2 * limit`, … and
      stop at the first page with fewer than `limit` items;
    - the total-driven `do … while (offset < total)` loop of `getAllItems`;
    - the cursor loops over followed artists, which pass the id of the last
      artist seen back to the server. */
module Paging {
  import opened Base
  import opened Seqs
  import opened Strings

  /** The page a listing endpoint returns for `{ limit, offset }`. */
  function Window<T>(items: seq<T>, offset: nat, limit: nat): seq<T>
  {
    items[Min(offset, |items|)..Min(offset + limit, |items|)]
  }

  /** One call of an offset loop: the offset sent and the page received. */
  datatype PageFetch<T> = PageFetch(offset: nat, page: seq<T>)

  /** The items of a run of calls, in call order. */
  function Items<T>(fs: seq<PageFetch<T>>): seq<T>
  {
    if |fs| == 0 then [] else fs[0].page + Items(fs[1..])
  }

  /** The items of two runs of calls, one after the other. */
  lemma {:induction false} ItemsAppend<T>(a: seq<PageFetch<T>>, b: seq<PageFetch<T>>)
    ensures Items(a + b) == Items(a) + Items(b)
    decreases |a|
  {
    if |a| > 0 {
      ItemsAppend(a[1..], b);
      assert (a + b)[1..] == a[1..] + b;
    } else {
      assert a + b == b;
    }
  }

  /** Offsets start at `offset` and grow by `limit` per call, and every
      page is the server's window at its offset. */
  ghost predicate Stepped<T>(fs: seq<PageFetch<T>>, items: seq<T>, limit: nat, offset: nat)
  {
    && |fs| >= 1
    && fs[0].offset == offset
    && (forall k :: 0 < k < |fs| ==> fs[k].offset == fs[k - 1].offset + limit)
    && (forall k :: 0 <= k < |fs| ==> fs[k].page == Window(items, fs[k].offset, limit))
  }

  /** Call `k` of a stepped loop is made at `k` limits past the start. */
  lemma {:induction false} SteppedOffset<T>(fs: seq<PageFetch<T>>, items: seq<T>, limit: nat, offset: nat, k: nat)
    requires Stepped(fs, items, limit, offset) && k < |fs|
    ensures fs[k].offset == offset + k * limit
    decreases k
  {
    if k > 0 {
      SteppedOffset(fs, items, limit, offset, k - 1);
    }
  }

  /** Every page but the last came back full. */
  ghost predicate AllButLastFull<T>(fs: seq<PageFetch<T>>, limit: nat)
  {
    forall k :: 0 <= k < |fs| - 1 ==> |fs[k].page| == limit
  }

  function LastPage<T>(fs: seq<PageFetch<T>>): seq<T>
    requires |fs| > 0
  {
    fs[|fs| - 1].page
  }

  function LastOffset<T>(fs: seq<PageFetch<T>>): nat
    requires |fs| > 0
  {
    fs[|fs| - 1].offset
  }

  lemma SteppedCons<T>(f: PageFetch<T>, rest: seq<PageFetch<T>>, items: seq<T>, limit: nat)
    requires f.page == Window(items, f.offset, limit)
    requires Stepped(rest, items, limit, f.offset + limit)
    ensures Stepped([f] + rest, items, limit, f.offset)
  {
  }

  /** A window followed by everything after it is everything from its offset. */
  lemma WindowThenRest<T>(items: seq<T>, offset: nat, limit: nat)
    ensures items[Min(offset, |items|)..]
         == Window(items, offset, limit) + items[Min(offset + limit, |items|)..]
  {
  }

  /** The calls of the short-page loop started at `offset`: fetch, and go
      on from `offset + limit` only when the page came back full. */
  function ShortPagesFrom<T>(items: seq<T>, limit: nat, offset: nat): (r: seq<PageFetch<T>>)
    requires limit > 0 && offset <= |items|
    ensures |r| >= 1 && r[0].offset == offset
    decreases |items| - offset
  {
    var f := PageFetch(offset, Window(items, offset, limit));
    if |f.page| < limit then [f] else [f] + ShortPagesFrom(items, limit, offset + limit)
  }

  /** The short-page loop steps through the listing a window at a time. */
  lemma {:induction false} ShortPagesStepped<T>(items: seq<T>, limit: nat, offset: nat)
    requires limit > 0 && offset <= |items|
    ensures Stepped(ShortPagesFrom(items, limit, offset), items, limit, offset)
    decreases |items| - offset
  {
    var r := ShortPagesFrom(items, limit, offset);
    if offset + limit <= |items| {
      ShortPagesStepped(items, limit, offset + limit);
      SteppedCons(r[0], ShortPagesFrom(items, limit, offset + limit), items, limit);
    }
  }

  /** The short-page loop makes `floor((n - offset) / limit) + 1` calls. */
  lemma {:induction false} ShortPagesCount<T>(items: seq<T>, limit: nat, offset: nat)
    requires limit > 0 && offset <= |items|
    ensures |ShortPagesFrom(items, limit, offset)| == (|items| - offset) / limit + 1
    decreases |items| - offset
  {
    if offset + limit > |items| {
      DivSmall(|items| - offset, limit);
    } else {
      ShortPagesCount(items, limit, offset + limit);
      DivStep(|items| - offset - limit, limit);
    }
  }

  /** Every page of the short-page loop but the last is full. */
  lemma {:induction false} ShortPagesFull<T>(items: seq<T>, limit: nat, offset: nat)
    requires limit > 0 && offset <= |items|
    ensures AllButLastFull(ShortPagesFrom(items, limit, offset), limit)
    decreases |items| - offset
  {
    var r := ShortPagesFrom(items, limit, offset);
    if offset + limit <= |items| {
      var rest := ShortPagesFrom(items, limit, offset + limit);
      ShortPagesFull(items, limit, offset + limit);
      assert r == [r[0]] + rest;
      forall k | 0 < k < |r| - 1
        ensures |r[k].page| == limit
      {
        assert r[k] == rest[k - 1];
      }
    }
  }

  /** The last page holds the remaining `(n - offset) % limit` items. */
  lemma {:induction false} ShortPagesLast<T>(items: seq<T>, limit: nat, offset: nat)
    requires limit > 0 && offset <= |items|
    ensures |LastPage(ShortPagesFrom(items, limit, offset))| == (|items| - offset) % limit
    decreases |items| - offset
  {
    var r := ShortPagesFrom(items, limit, offset);
    if offset + limit <= |items| {
      var rest := ShortPagesFrom(items, limit, offset + limit);
      ShortPagesLast(items, limit, offset + limit);
      assert r[|r| - 1] == rest[|rest| - 1];
      ModStep(|items| - offset - limit, limit);
    } else {
      ModSmall(|items| - offset, limit);
    }
  }

  /** The short-page loop reads every item from `offset` on, once each and
      in listing order. */
  lemma {:induction false} ShortPagesItems<T>(items: seq<T>, limit: nat, offset: nat)
    requires limit > 0 && offset <= |items|
    ensures Items(ShortPagesFrom(items, limit, offset)) == items[offset..]
    decreases |items| - offset
  {
    var r := ShortPagesFrom(items, limit, offset);
    if offset + limit > |items| {
      assert Items(r) == r[0].page + Items(r[1..]);
    } else {
      var rest := ShortPagesFrom(items, limit, offset + limit);
      assert r[1..] == rest;
      ShortPagesItems(items, limit, offset + limit);
      WindowThenRest(items, offset, limit);
    }
  }

  /** `while (true) { fetch({ limit, offset }); …; if (page.length < limit)
      break; offset += limit }` from offset 0: `floor(n / limit) + 1`
      calls, every page but the last full, the last holding the remaining
      `n % limit` items, and all items in listing order. */
  function ShortPages<T>(items: seq<T>, limit: nat): (r: seq<PageFetch<T>>)
    requires limit > 0
    ensures Stepped(r, items, limit, 0)
    ensures |r| == |items| / limit + 1
    ensures AllButLastFull(r, limit)
    ensures |LastPage(r)| == |items| % limit
    ensures Items(r) == items
  {
    ShortPagesStepped(items, limit, 0);
    ShortPagesCount(items, limit, 0);
    ShortPagesFull(items, limit, 0);
    ShortPagesLast(items, limit, 0);
    ShortPagesItems(items, limit, 0);
    ShortPagesFrom(items, limit, 0)
  }

  /** A listing whose length is an exact multiple of the limit costs one
      more call, which returns an empty page; an empty listing costs one
      call. */
  lemma ExactMultipleEndsWithEmptyPage<T>(items: seq<T>, limit: nat)
    requires limit > 0 && |items| % limit == 0
    ensures |ShortPages(items, limit)| == |items| / limit + 1
    ensures LastPage(ShortPages(items, limit)) == []
  {
  }

  /** The calls of `getAllItems` from `offset`, the server reporting `total`
      items on every response: fetch, then go on while `offset + limit`
      is still below the total. */
  function TotalPagesFrom<T>(items: seq<T>, total: nat, limit: nat, offset: nat): (r: seq<PageFetch<T>>)
    requires limit > 0 && offset <= total
    ensures |r| >= 1 && r[0].offset == offset
    decreases total - offset
  {
    var f := PageFetch(offset, Window(items, offset, limit));
    if offset + limit >= total then [f] else [f] + TotalPagesFrom(items, total, limit, offset + limit)
  }

  /** The total-driven loop steps through the listing a window at a time. */
  lemma {:induction false} TotalPagesStepped<T>(items: seq<T>, total: nat, limit: nat, offset: nat)
    requires limit > 0 && offset <= total
    ensures Stepped(TotalPagesFrom(items, total, limit, offset), items, limit, offset)
    decreases total - offset
  {
    var r := TotalPagesFrom(items, total, limit, offset);
    if offset + limit < total {
      TotalPagesStepped(items, total, limit, offset + limit);
      SteppedCons(r[0], TotalPagesFrom(items, total, limit, offset + limit), items, limit);
    }
  }

  /** The total-driven loop makes `max(1, ceil((total - offset) / limit))`
      calls, and the last one is the first whose window reaches the total. */
  lemma {:induction false} TotalPagesCount<T>(items: seq<T>, total: nat, limit: nat, offset: nat)
    requires limit > 0 && offset <= total
    ensures |TotalPagesFrom(items, total, limit, offset)| == Max(1, CeilDiv(total - offset, limit))
    ensures total <= LastOffset(TotalPagesFrom(items, total, limit, offset)) + limit
    ensures LastOffset(TotalPagesFrom(items, total, limit, offset)) < Max(total, offset + 1)
    decreases total - offset
  {
    var r := TotalPagesFrom(items, total, limit, offset);
    if offset + limit >= total {
      CallsLast(total - offset, limit);
    } else {
      var rest := TotalPagesFrom(items, total, limit, offset + limit);
      TotalPagesCount(items, total, limit, offset + limit);
      assert r == [r[0]] + rest;
      CallsStep(total - offset, limit, |rest|);
      assert r[|r| - 1] == rest[|rest| - 1];
    }
  }

  /** The total-driven loop reads the listing in order from `offset` without
      skipping or repeating an item: what it reads is a prefix of the rest
      of the listing. */
  lemma {:induction false} TotalPagesPrefix<T>(items: seq<T>, total: nat, limit: nat, offset: nat)
    requires limit > 0 && offset <= total
    ensures Items(TotalPagesFrom(items, total, limit, offset)) <= items[Min(offset, |items|)..]
    decreases total - offset
  {
    var r := TotalPagesFrom(items, total, limit, offset);
    WindowThenRest(items, offset, limit);
    if offset + limit >= total {
      assert Items(r) == r[0].page + Items(r[1..]);
    } else {
      assert r[1..] == TotalPagesFrom(items, total, limit, offset + limit);
      TotalPagesPrefix(items, total, limit, offset + limit);
    }
  }

  /** When the reported total covers the listing, the loop reads all of it. */
  lemma {:induction false} TotalPagesComplete<T>(items: seq<T>, total: nat, limit: nat, offset: nat)
    requires limit > 0 && offset <= total && |items| <= total
    ensures Items(TotalPagesFrom(items, total, limit, offset)) == items[Min(offset, |items|)..]
    decreases total - offset
  {
    var r := TotalPagesFrom(items, total, limit, offset);
    WindowThenRest(items, offset, limit);
    if offset + limit >= total {
      assert Items(r) == r[0].page + Items(r[1..]);
    } else {
      assert r[1..] == TotalPagesFrom(items, total, limit, offset + limit);
      TotalPagesComplete(items, total, limit, offset + limit);
    }
  }

  /** `getAllItems(fetch, limit)`: `do { fetch; offset += limit } while
      (offset < total)` makes at least one call and `max(1, ceil(total /
      limit))` calls in all; it reads a prefix of the listing in order, and
      all of it when the reported total is the listing's length. */
  function TotalPages<T>(items: seq<T>, total: nat, limit: nat): (r: seq<PageFetch<T>>)
    requires limit > 0
    ensures Stepped(r, items, limit, 0)
    ensures |r| == Max(1, CeilDiv(total, limit))
    ensures Items(r) <= items
    ensures total == |items| ==> Items(r) == items
  {
    TotalPagesStepped(items, total, limit, 0);
    TotalPagesCount(items, total, limit, 0);
    TotalPagesPrefix(items, total, limit, 0);
    if total == |items| then
      TotalPagesComplete(items, total, limit, 0);
      TotalPagesFrom(items, total, limit, 0)
    else
      TotalPagesFrom(items, total, limit, 0)
  }

  /** A page of followed artists: the ids, the `next` link (present when
      more artists follow) and `cursors.after`. */
  datatype ArtistsPage = ArtistsPage(items: seq<string>, next: bool, after: Option<string>)

  /** Where the server resumes for a cursor: just after the artist it names. */
  function CursorStart(artists: seq<string>, after: Option<string>): nat
  {
    match after
    case None => 0
    case Some(id) => Min(IndexOf(artists, id) + 1, |artists|)
  }

  /** The server's answer to `getFollowedArtists({ limit, after })`: up to
      `limit` artists after the cursor; `next` and `cursors.after` (the id
      of the last artist returned) are present exactly when more follow. */
  function FollowedPage(artists: seq<string>, after: Option<string>, limit: nat): ArtistsPage
    requires limit > 0
  {
    var start := CursorStart(artists, after);
    var page := Window(artists, start, limit);
    var more := start + limit < |artists|;
    ArtistsPage(page, more, if more then Some(page[|page| - 1]) else None)
  }

  /** One call of a cursor loop: the cursor sent and the page received. */
  datatype CursorFetch = CursorFetch(after: Option<string>, page: ArtistsPage)

  function CursorItems(fs: seq<CursorFetch>): seq<string>
  {
    if |fs| == 0 then [] else fs[0].page.items + CursorItems(fs[1..])
  }

  /** Every page is the server's answer to the cursor sent, and every call
      after the first sends the cursor the previous page named. */
  ghost predicate Chained(fs: seq<CursorFetch>, artists: seq<string>, limit: nat, after: Option<string>)
    requires limit > 0
  {
    && |fs| >= 1
    && fs[0].after == after
    && (forall k :: 0 <= k < |fs| ==> fs[k].page == FollowedPage(artists, fs[k].after, limit))
    && (forall k :: 0 < k < |fs| ==> fs[k].after == fs[k - 1].page.after)
  }

  lemma ChainedCons(f: CursorFetch, rest: seq<CursorFetch>, artists: seq<string>, limit: nat)
    requires limit > 0
    requires f.page == FollowedPage(artists, f.after, limit)
    requires Chained(rest, artists, limit, f.page.after)
    ensures Chained([f] + rest, artists, limit, f.after)
  {
  }

  /** The last artist of a page with a successor resumes the listing right
      after that page. */
  lemma ResumeAfterLast(artists: seq<string>, after: Option<string>, limit: nat)
    requires Distinct(artists) && limit > 0
    requires FollowedPage(artists, after, limit).next
    ensures CursorStart(artists, FollowedPage(artists, after, limit).after)
         == CursorStart(artists, after) + limit
  {
    var start := CursorStart(artists, after);
    IndexOfDistinct(artists, start + limit - 1);
  }

  /** One cursor call: the page is the next window of the listing; a page
      with a successor hands on a cursor that resumes right after it, and a
      page without one ends the listing. */
  lemma CursorStep(artists: seq<string>, limit: nat, after: Option<string>)
    requires Distinct(artists) && limit > 0
    ensures var p := FollowedPage(artists, after, limit);
            var start := CursorStart(artists, after);
            && artists[start..] == p.items + artists[Min(start + limit, |artists|)..]
            && (p.next ==> CursorStart(artists, p.after) == start + limit)
            && (!p.next ==> artists[Min(start + limit, |artists|)..] == [])
  {
    var start := CursorStart(artists, after);
    WindowThenRest(artists, start, limit);
    if FollowedPage(artists, after, limit).next {
      ResumeAfterLast(artists, after, limit);
    }
  }

  /** A page with a successor names its last artist, which is never empty
      when no id is. */
  lemma CursorNamed(artists: seq<string>, limit: nat, after: Option<string>)
    requires Distinct(artists) && limit > 0
    requires forall i :: 0 <= i < |artists| ==> artists[i] != ""
    ensures FollowedPage(artists, after, limit).next ==> Truthy(FollowedPage(artists, after, limit).after)
  {
    var start := CursorStart(artists, after);
    var p := FollowedPage(artists, after, limit);
    if p.next {
      assert p.items[|p.items| - 1] == artists[start + limit - 1];
    }
  }

  /** `fetchAllFollowedArtists` (fetch-data route) from cursor `after`: stop
      when `next` is absent, else send the id of the last artist received. */
  function FollowByNext(artists: seq<string>, limit: nat, after: Option<string>): (r: seq<CursorFetch>)
    requires Distinct(artists) && limit > 0
    ensures |r| >= 1 && r[0].after == after
    decreases |artists| - CursorStart(artists, after)
  {
    var p := FollowedPage(artists, after, limit);
    var f := CursorFetch(after, p);
    if !p.next then
      [f]
    else
      ResumeAfterLast(artists, after, limit);
      [f] + FollowByNext(artists, limit, Some(p.items[|p.items| - 1]))
  }

  /** The artists the loop reads: the first page's, then those of the loop
      resumed from its cursor. */
  lemma FollowByNextItems(artists: seq<string>, limit: nat, after: Option<string>)
    requires Distinct(artists) && limit > 0
    ensures var p := FollowedPage(artists, after, limit);
            CursorItems(FollowByNext(artists, limit, after))
              == p.items + (if p.next then CursorItems(FollowByNext(artists, limit, p.after)) else [])
  {
    var r := FollowByNext(artists, limit, after);
    var p := FollowedPage(artists, after, limit);
    assert CursorItems(r) == p.items + CursorItems(r[1..]);
    if p.next {
      ResumeAfterLast(artists, after, limit);
      assert r[1..] == FollowByNext(artists, limit, p.after);
    } else {
      assert r[1..] == [];
    }
  }

  /** The loop stops on the first page without `next`, having sent each
      time the id of the last artist received (the cursor the page names). */
  lemma {:induction false} FollowByNextChained(artists: seq<string>, limit: nat, after: Option<string>)
    requires Distinct(artists) && limit > 0
    ensures Chained(FollowByNext(artists, limit, after), artists, limit, after)
    ensures !FollowByNext(artists, limit, after)[|FollowByNext(artists, limit, after)| - 1].page.next
    decreases |artists| - CursorStart(artists, after)
  {
    var r := FollowByNext(artists, limit, after);
    var p := FollowedPage(artists, after, limit);
    if p.next {
      ResumeAfterLast(artists, after, limit);
      var rest := FollowByNext(artists, limit, p.after);
      FollowByNextChained(artists, limit, p.after);
      assert r == [r[0]] + rest;
      ChainedCons(r[0], rest, artists, limit);
      assert r[|r| - 1] == rest[|rest| - 1];
    }
  }

  /** Every page but the last has `next`: the loop goes on exactly while
      more artists follow. */
  lemma {:induction false} FollowByNextGoesOn(artists: seq<string>, limit: nat, after: Option<string>)
    requires Distinct(artists) && limit > 0
    ensures forall k :: 0 <= k < |FollowByNext(artists, limit, after)| - 1 ==> FollowByNext(artists, limit, after)[k].page.next
    decreases |artists| - CursorStart(artists, after)
  {
    var r := FollowByNext(artists, limit, after);
    var p := FollowedPage(artists, after, limit);
    if p.next {
      ResumeAfterLast(artists, after, limit);
      var cursor := Some(p.items[|p.items| - 1]);
      var rest := FollowByNext(artists, limit, cursor);
      FollowByNextGoesOn(artists, limit, cursor);
      assert r == [r[0]] + rest;
      assert r[0].page == p;
      forall k | 0 <= k < |r| - 1 ensures r[k].page.next {
        if k > 0 {
          assert r[k] == rest[k - 1];
        }
      }
    }
  }

  /** Every call after the first sends the id of the last artist of the
      page before it, and that page is not empty. */
  ghost predicate SendsLastIds(fs: seq<CursorFetch>)
  {
    forall k :: 0 < k < |fs| ==> fs[k].after.Some? && fs[k].after == LastArtist(fs[k - 1].page)
  }

  /** The id of the last artist on a page, if any. */
  function LastArtist(p: ArtistsPage): Option<string>
  {
    if |p.items| == 0 then None else Some(p.items[|p.items| - 1])
  }

  lemma {:induction false} FollowByNextSendsLastId(artists: seq<string>, limit: nat, after: Option<string>)
    requires Distinct(artists) && limit > 0
    ensures SendsLastIds(FollowByNext(artists, limit, after))
    decreases |artists| - CursorStart(artists, after)
  {
    var r := FollowByNext(artists, limit, after);
    var p := FollowedPage(artists, after, limit);
    if p.next {
      ResumeAfterLast(artists, after, limit);
      var cursor := Some(p.items[|p.items| - 1]);
      var rest := FollowByNext(artists, limit, cursor);
      FollowByNextSendsLastId(artists, limit, cursor);
      assert r == [r[0]] + rest;
      assert r[0].page == p;
      assert LastArtist(p) == cursor;
      forall k | 0 < k < |r| ensures r[k].after.Some? && r[k].after == LastArtist(r[k - 1].page) {
        if k == 1 {
          assert r[1] == rest[0];
        } else {
          assert r[k] == rest[k - 1] && r[k - 1] == rest[k - 2];
        }
      }
    }
  }

  /** The loop makes `max(1, ceil(n / limit))` calls for the `n` artists
      after the cursor. */
  lemma {:induction false} FollowByNextCount(artists: seq<string>, limit: nat, after: Option<string>)
    requires Distinct(artists) && limit > 0
    ensures |FollowByNext(artists, limit, after)|
         == Max(1, CeilDiv(|artists| - CursorStart(artists, after), limit))
    decreases |artists| - CursorStart(artists, after)
  {
    var start := CursorStart(artists, after);
    var r := FollowByNext(artists, limit, after);
    var p := FollowedPage(artists, after, limit);
    if !p.next {
      CallsLast(|artists| - start, limit);
    } else {
      ResumeAfterLast(artists, after, limit);
      var rest := FollowByNext(artists, limit, p.after);
      FollowByNextCount(artists, limit, p.after);
      assert |r| == 1 + |rest|;
      CallsStep(|artists| - start, limit, |rest|);
    }
  }

  /** The loop reads every artist after the cursor once, in order. */
  lemma {:induction false} FollowByNextReadsAll(artists: seq<string>, limit: nat, after: Option<string>)
    requires Distinct(artists) && limit > 0
    ensures CursorItems(FollowByNext(artists, limit, after)) == artists[CursorStart(artists, after)..]
    decreases |artists| - CursorStart(artists, after)
  {
    var p := FollowedPage(artists, after, limit);
    if p.next {
      ResumeAfterLast(artists, after, limit);
      FollowByNextReadsAll(artists, limit, p.after);
      ReadsOnFromNext(artists, limit, after);
    } else {
      var start := CursorStart(artists, after);
      FollowByNextItems(artists, limit, after);
      CursorStep(artists, limit, after);
      assert artists[start..] == p.items + [];
    }
  }

  /** One step of the induction: if the loop resumed from the cursor reads
      the rest, the loop reads everything from its own start. */
  lemma ReadsOnFromNext(artists: seq<string>, limit: nat, after: Option<string>)
    requires Distinct(artists) && limit > 0 && FollowedPage(artists, after, limit).next
    requires CursorItems(FollowByNext(artists, limit, FollowedPage(artists, after, limit).after))
          == artists[CursorStart(artists, FollowedPage(artists, after, limit).after)..]
    ensures CursorItems(FollowByNext(artists, limit, after)) == artists[CursorStart(artists, after)..]
  {
    var p := FollowedPage(artists, after, limit);
    var start := CursorStart(artists, after);
    FollowByNextItems(artists, limit, after);
    CursorStep(artists, limit, after);
    assert CursorStart(artists, p.after) == start + limit < |artists|;
    var tail := artists[start + limit..];
    assert CursorItems(FollowByNext(artists, limit, p.after)) == tail;
    assert CursorItems(FollowByNext(artists, limit, after)) == p.items + tail;
    assert artists[start..] == p.items + tail;
  }

  /** The artist loop of the migrate route from cursor `after`:
      `do { … after = cursors.after } while (after)`. */
  function FollowByCursor(artists: seq<string>, limit: nat, after: Option<string>): (r: seq<CursorFetch>)
    requires Distinct(artists) && limit > 0
    ensures |r| >= 1 && r[0].after == after
    decreases |artists| - CursorStart(artists, after)
  {
    var p := FollowedPage(artists, after, limit);
    var f := CursorFetch(after, p);
    if Truthy(p.after) then
      ResumeAfterLast(artists, after, limit);
      [f] + FollowByCursor(artists, limit, p.after)
    else
      [f]
  }

  /** The artists the migrate loop reads: the first page's, then those of
      the loop resumed from a truthy cursor. */
  lemma FollowByCursorItems(artists: seq<string>, limit: nat, after: Option<string>)
    requires Distinct(artists) && limit > 0
    ensures var p := FollowedPage(artists, after, limit);
            CursorItems(FollowByCursor(artists, limit, after))
              == p.items + (if Truthy(p.after) then CursorItems(FollowByCursor(artists, limit, p.after)) else [])
  {
    var r := FollowByCursor(artists, limit, after);
    var p := FollowedPage(artists, after, limit);
    assert CursorItems(r) == p.items + CursorItems(r[1..]);
    if Truthy(p.after) {
      ResumeAfterLast(artists, after, limit);
      assert r[1..] == FollowByCursor(artists, limit, p.after);
    } else {
      assert r[1..] == [];
    }
  }

  /** The do-while cursor loop sends, after the first call, the cursor the
      previous page named. */
  lemma {:induction false} FollowByCursorChained(artists: seq<string>, limit: nat, after: Option<string>)
    requires Distinct(artists) && limit > 0
    ensures Chained(FollowByCursor(artists, limit, after), artists, limit, after)
    decreases |artists| - CursorStart(artists, after)
  {
    var r := FollowByCursor(artists, limit, after);
    var p := FollowedPage(artists, after, limit);
    if Truthy(p.after) {
      ResumeAfterLast(artists, after, limit);
      var rest := FollowByCursor(artists, limit, p.after);
      FollowByCursorChained(artists, limit, p.after);
      assert r == [r[0]] + rest;
      ChainedCons(r[0], rest, artists, limit);
    }
  }

  /** The migrate loop never reads past the listing's end, nor out of
      order. */
  lemma {:induction false} FollowByCursorPrefix(artists: seq<string>, limit: nat, after: Option<string>)
    requires Distinct(artists) && limit > 0
    ensures CursorItems(FollowByCursor(artists, limit, after)) <= artists[CursorStart(artists, after)..]
    decreases |artists| - CursorStart(artists, after)
  {
    var p := FollowedPage(artists, after, limit);
    var start := CursorStart(artists, after);
    FollowByCursorItems(artists, limit, after);
    CursorStep(artists, limit, after);
    if Truthy(p.after) {
      FollowByCursorPrefix(artists, limit, p.after);
      PrefixAppend(p.items, CursorItems(FollowByCursor(artists, limit, p.after)), artists[Min(start + limit, |artists|)..]);
    }
  }

  /** When no artist id is empty, the migrate loop reads every artist from
      the cursor on. */
  lemma {:induction false} FollowByCursorAll(artists: seq<string>, limit: nat, after: Option<string>)
    requires Distinct(artists) && limit > 0
    requires forall i :: 0 <= i < |artists| ==> artists[i] != ""
    ensures CursorItems(FollowByCursor(artists, limit, after)) == artists[CursorStart(artists, after)..]
    decreases |artists| - CursorStart(artists, after)
  {
    var p := FollowedPage(artists, after, limit);
    FollowByCursorItems(artists, limit, after);
    CursorStep(artists, limit, after);
    CursorNamed(artists, limit, after);
    if Truthy(p.after) {
      FollowByCursorAll(artists, limit, p.after);
    }
  }

  /** The do-while cursor loop reads the artists after the cursor in order
      without skipping or repeating one; with non-empty ids (an empty id is
      falsy and would end the loop early) it reads all of them. */
  lemma FollowByCursorReads(artists: seq<string>, limit: nat, after: Option<string>)
    requires Distinct(artists) && limit > 0
    ensures Chained(FollowByCursor(artists, limit, after), artists, limit, after)
    ensures CursorItems(FollowByCursor(artists, limit, after)) <= artists[CursorStart(artists, after)..]
    ensures (forall i :: 0 <= i < |artists| ==> artists[i] != "")
            ==> CursorItems(FollowByCursor(artists, limit, after)) == artists[CursorStart(artists, after)..]
  {
    FollowByCursorChained(artists, limit, after);
    FollowByCursorPrefix(artists, limit, after);
    if forall i :: 0 <= i < |artists| ==> artists[i] != "" {
      FollowByCursorAll(artists, limit, after);
    }
  }

  /** With non-empty artist ids the two artist loops make the same calls:
      the cursor the server returns is the id of the last artist on the
      page. */
  lemma {:induction false} CursorLoopsAgree(artists: seq<string>, limit: nat, after: Option<string>)
    requires Distinct(artists) && limit > 0
    requires forall i :: 0 <= i < |artists| ==> artists[i] != ""
    ensures FollowByCursor(artists, limit, after) == FollowByNext(artists, limit, after)
    decreases |artists| - CursorStart(artists, after)
  {
    var p := FollowedPage(artists, after, limit);
    if p.next {
      ResumeAfterLast(artists, after, limit);
      CursorLoopsAgree(artists, limit, p.after);
    }
  }
}

=== FILE: playlist_stream.dfy ===
/** What the two playlist-building routes (create-mega-playlist and
    create-liked-songs-playlist) share: the authentication guard, the
    error event that ends a failed run, and the write phase — create one
    public playlist, add its URIs 100 at a time reporting a running count,
    then send COMPLETE. */
module PlaylistStream {
  import opened Base
  import opened Seqs
  import opened Strings
  import opened Retry
  import opened Api

  /** At most this many URIs per `addTracksToPlaylist` call. */
  const AddBatchSize: nat := 100

  /** `{ stage: "Error: " + message, count: 0 }`. */
  function ErrorEvent(message: string): Event
  {
    Progress("Error: " + message, 0, None)
  }

  /** `for (let i = start; i < n; i += 100)`: add `uris.slice(i, i + 100)`,
      then report `min(i + 100, n)` of `n`. */
  function AddBatchSteps(playlistId: string, uris: seq<string>, start: nat): seq<Step>
    decreases |uris| - start
  {
    if start >= |uris| then []
    else
      [Call(AddTracksToPlaylist(playlistId, uris[start..Min(start + AddBatchSize, |uris|)])),
       Emit(Progress("Adding tracks...", Min(start + AddBatchSize, |uris|), Some(|uris|)))]
      + AddBatchSteps(playlistId, uris, start + AddBatchSize)
  }

  /** One `addTracksToPlaylist(playlistId, batch)` per batch. */
  function AddCalls(playlistId: string, batches: seq<seq<string>>): seq<ApiCall>
  {
    Map(batches, (b: seq<string>) => AddTracksToPlaylist(playlistId, b))
  }

  /** One turn of the write loop: a call for the slice, then its report. */
  lemma AddBatchStepsCons(playlistId: string, uris: seq<string>, start: nat)
    requires start < |uris|
    ensures var next := Min(start + AddBatchSize, |uris|);
            var steps := AddBatchSteps(playlistId, uris, start);
            var rest := AddBatchSteps(playlistId, uris, next);
            && Calls(steps) == [AddTracksToPlaylist(playlistId, uris[start..next])] + Calls(rest)
            && Events(steps) == [Progress("Adding tracks...", next, Some(|uris|))] + Events(rest)
  {
    var next := Min(start + AddBatchSize, |uris|);
    assert AddBatchSteps(playlistId, uris, start + AddBatchSize) == AddBatchSteps(playlistId, uris, next);
    CallThenReport(AddTracksToPlaylist(playlistId, uris[start..next]),
                   Progress("Adding tracks...", next, Some(|uris|)),
                   AddBatchSteps(playlistId, uris, next));
  }

  lemma AddCallsCons(playlistId: string, b: seq<string>, bs: seq<seq<string>>)
    ensures AddCalls(playlistId, [b] + bs) == [AddTracksToPlaylist(playlistId, b)] + AddCalls(playlistId, bs)
  {
  }

  /** The write loop adds the URIs from `start` on in consecutive slices of
      at most 100: its calls are those of the batches of the list. */
  lemma {:induction false} AddBatchCalls(playlistId: string, uris: seq<string>, start: nat)
    requires start <= |uris|
    ensures Calls(AddBatchSteps(playlistId, uris, start))
         == AddCalls(playlistId, Batches(uris, AddBatchSize, start))
    decreases |uris| - start
  {
    if start < |uris| {
      var next := Min(start + AddBatchSize, |uris|);
      AddBatchStepsCons(playlistId, uris, start);
      AddBatchCalls(playlistId, uris, next);
      BatchesCons(uris, AddBatchSize, start);
      AddCallsCons(playlistId, uris[start..next], Batches(uris, AddBatchSize, next));
    }
  }

  /** The reports after the batches `bs`, counting on from `added` out of
      `n`. */
  function Reports(bs: seq<seq<string>>, added: nat, n: nat): seq<Event>
  {
    if |bs| == 0 then []
    else [Progress("Adding tracks...", added + |bs[0]|, Some(n))] + Reports(bs[1..], added + |bs[0]|, n)
  }

  /** The write loop reports after each of the batches. */
  lemma {:induction false} AddBatchReports(playlistId: string, uris: seq<string>, start: nat)
    requires start <= |uris|
    ensures Events(AddBatchSteps(playlistId, uris, start)) == Reports(Batches(uris, AddBatchSize, start), start, |uris|)
    decreases |uris| - start
  {
    if start < |uris| {
      var next := Min(start + AddBatchSize, |uris|);
      AddBatchStepsCons(playlistId, uris, start);
      AddBatchReports(playlistId, uris, next);
      BatchesCons(uris, AddBatchSize, start);
      ReportsCons(uris[start..next], Batches(uris, AddBatchSize, next), start, |uris|);
    } else {
      assert Batches(uris, AddBatchSize, start) == [];
    }
  }

  lemma ReportsCons(b: seq<string>, bs: seq<seq<string>>, added: nat, n: nat)
    ensures Reports([b] + bs, added, n)
         == [Progress("Adding tracks...", added + |b|, Some(n))] + Reports(bs, added + |b|, n)
  {
    assert ([b] + bs)[1..] == bs;
  }

  /** The report after batch `k` counts the items of the first `k + 1`
      batches. */
  lemma {:induction false} ReportsCount(bs: seq<seq<string>>, added: nat, n: nat)
    ensures |Reports(bs, added, n)| == |bs|
    ensures forall k :: 0 <= k < |bs| ==>
              Reports(bs, added, n)[k] == Progress("Adding tracks...", added + |Flatten(bs[..k + 1])|, Some(n))
    decreases |bs|
  {
    if |bs| > 0 {
      var r := Reports(bs, added, n);
      var rest := Reports(bs[1..], added + |bs[0]|, n);
      ReportsCount(bs[1..], added + |bs[0]|, n);
      assert bs == [bs[0]] + bs[1..];
      forall k | 0 <= k < |bs|
        ensures r[k] == Progress("Adding tracks...", added + |Flatten(bs[..k + 1])|, Some(n))
      {
        FlattenConsPrefix(bs[0], bs[1..], k);
        if k > 0 {
          assert bs[1..][..k] == bs[1..][..(k - 1) + 1];
          assert r[k] == rest[k - 1];
        } else {
          assert Flatten(bs[1..][..0]) == [];
        }
      }
    }
  }

  /** After each batch the reported count is the number of URIs added so
      far (counting from `start`), out of the list's length. */
  lemma AddBatchProgress(playlistId: string, uris: seq<string>, start: nat)
    requires start <= |uris|
    ensures var bs := Batches(uris, AddBatchSize, start);
            var es := Events(AddBatchSteps(playlistId, uris, start));
            && |es| == |bs|
            && forall k :: 0 <= k < |es| ==>
                 es[k] == Progress("Adding tracks...", start + |Flatten(bs[..k + 1])|, Some(|uris|))
  {
    AddBatchReports(playlistId, uris, start);
    ReportsCount(Batches(uris, AddBatchSize, start), start, |uris|);
  }

  /** The whole write loop: `ceil(n / 100)` calls whose slices concatenate
      to the URI list, each of at most 100 and all but the last exactly
      100, and the count reported after batch `k` is the number of URIs
      added by then, ending at `n`. */
  lemma AddBatchesCoverUris(playlistId: string, uris: seq<string>)
    ensures var calls := Calls(AddBatchSteps(playlistId, uris, 0));
            var es := Events(AddBatchSteps(playlistId, uris, 0));
            var bs := Chunks(uris, AddBatchSize);
            && calls == AddCalls(playlistId, bs)
            && |calls| == CeilDiv(|uris|, AddBatchSize)
            && Flatten(bs) == uris
            && (forall k :: 0 <= k < |bs| ==> 0 < |bs[k]| <= AddBatchSize)
            && |es| == |bs|
            && (forall k :: 0 <= k < |es| ==> es[k] == Progress("Adding tracks...", |Flatten(bs[..k + 1])|, Some(|uris|)))
            && (|es| > 0 ==> es[|es| - 1] == Progress("Adding tracks...", |uris|, Some(|uris|)))
  {
    var bs := Chunks(uris, AddBatchSize);
    AddBatchCalls(playlistId, uris, 0);
    AddBatchProgress(playlistId, uris, 0);
    assert bs[..|bs|] == bs;
  }

  /** The start of the write phase for `n` ids: report, create the public
      playlist, report. */
  function WriteHead(name: string, description: string, n: nat): seq<Step>
  {
    [Emit(Progress("Creating playlist...", n, None)),
     Call(CreatePlaylist(name, description, true)),
     Emit(Progress("Playlist created, adding tracks...", n, None))]
  }

  /** The start of the write phase makes the one create call and reports
      progress only. */
  lemma WriteHeadShape(name: string, description: string, n: nat)
    ensures Calls(WriteHead(name, description, n)) == [CreatePlaylist(name, description, true)]
    ensures ProgressOnly(WriteHead(name, description, n))
  {
    var head := WriteHead(name, description, n);
    assert head == [head[0]] + [head[1], head[2]];
    ReportThenCall(Progress("Creating playlist...", n, None), CreatePlaylist(name, description, true));
    assert [head[1], head[2]] == [head[1]] + [head[2]];
    StepSingle(head[1]);
    StepSingle(head[2]);
    StepSingle(head[0]);
    CallsAppend([head[1]], [head[2]]);
    EventsAppend([head[1]], [head[2]]);
    CallsAppend([head[0]], [head[1], head[2]]);
    EventsAppend([head[0]], [head[1], head[2]]);
  }

  /** The write phase for the collected `ids`: report, create the public
      playlist, report, add the URIs, then COMPLETE with `totalTracks` the
      number of ids. */
  function WriteSteps(name: string, description: string, created: Created, ids: seq<string>): seq<Step>
  {
    WriteHead(name, description, |ids|)
    + AddBatchSteps(created.id, Map(ids, Uri), 0)
    + [Emit(Complete(created.url, created.id, |ids|))]
  }

  /** The write phase makes one create call, then adds exactly the ids'
      URIs, in order, to the playlist the service created, and its last
      event is COMPLETE with the number of ids. */
  lemma WriteStepsShape(name: string, description: string, created: Created, ids: seq<string>)
    ensures Calls(WriteSteps(name, description, created, ids))
         == [CreatePlaylist(name, description, true)]
            + AddCalls(created.id, Chunks(Map(ids, Uri), AddBatchSize))
    ensures var es := Events(WriteSteps(name, description, created, ids));
            |es| > 0 && es[|es| - 1] == Complete(created.url, created.id, |ids|)
  {
    var head := WriteHead(name, description, |ids|);
    var adds := AddBatchSteps(created.id, Map(ids, Uri), 0);
    var tail: seq<Step> := [Emit(Complete(created.url, created.id, |ids|))];
    CallsAppend(head + adds, tail);
    CallsAppend(head, adds);
    EventsAppend(head + adds, tail);
    AddBatchCalls(created.id, Map(ids, Uri), 0);
    WriteHeadShape(name, description, |ids|);
    StepSingle(tail[0]);
  }

  /** Whatever runs before it, the write phase adds its calls after the
      earlier ones and its COMPLETE event is the script's last. */
  lemma WriteAfter(before: seq<Step>, name: string, description: string, created: Created, ids: seq<string>)
    ensures Calls(before + WriteSteps(name, description, created, ids))
         == Calls(before)
            + [CreatePlaylist(name, description, true)]
            + AddCalls(created.id, Chunks(Map(ids, Uri), AddBatchSize))
    ensures var es := Events(before + WriteSteps(name, description, created, ids));
            |es| > 0 && es[|es| - 1] == Complete(created.url, created.id, |ids|)
  {
    var w := WriteSteps(name, description, created, ids);
    WriteStepsShape(name, description, created, ids);
    CallsAppend(before, w);
    EventsAppend(before, w);
  }

  /** Only the last step of a script may be the COMPLETE event. */
  ghost predicate CompleteOnlyAtEnd(steps: seq<Step>)
  {
    |steps| > 0 && ProgressOnly(steps[..|steps| - 1])
  }

  /** The write loop reports progress only. */
  lemma {:induction false} AddBatchStepsProgress(playlistId: string, uris: seq<string>, start: nat)
    ensures ProgressOnly(AddBatchSteps(playlistId, uris, start))
    decreases |uris| - start
  {
    var steps := AddBatchSteps(playlistId, uris, start);
    if start < |uris| {
      AddBatchStepsProgress(playlistId, uris, start + AddBatchSize);
      assert steps[1..][1..] == AddBatchSteps(playlistId, uris, start + AddBatchSize);
    }
  }

  /** A collection phase that only reports progress, followed by the write
      phase, sends COMPLETE only as its last step. */
  lemma CollectThenWrite(collect: seq<Step>, name: string, description: string, created: Created, ids: seq<string>)
    requires ProgressOnly(collect)
    ensures CompleteOnlyAtEnd(collect + WriteSteps(name, description, created, ids))
  {
    var head := WriteHead(name, description, |ids|);
    var adds := AddBatchSteps(created.id, Map(ids, Uri), 0);
    var all := collect + WriteSteps(name, description, created, ids);
    assert all == (collect + head + adds) + [Emit(Complete(created.url, created.id, |ids|))];
    assert all[..|all| - 1] == collect + head + adds;
    AddBatchStepsProgress(created.id, Map(ids, Uri), 0);
    WriteHeadShape(name, description, |ids|);
    ShapeAppend(collect, head);
    ShapeAppend(collect + head, adds);
  }

  /** What a streaming route did: the events written to the stream and the
      calls that succeeded. */
  datatype StreamRun = StreamRun(events: seq<Event>, done: seq<ApiCall>)

  /** A streaming route around its script: without a truthy
      `source_access_token` only "Error: Not authenticated" is sent and
      nothing is called; otherwise the script runs with the default retry
      policy and, if a call still throws, "Error: " + its message is sent
      last. */
  function RunStream(token: Option<string>, script: seq<Step>, respond: Responder): StreamRun
  {
    if !Truthy(token) then StreamRun([ErrorEvent("Not authenticated")], [])
    else
      var o := Execute(script, respond, DefaultMaxRetries, DefaultDelayMs);
      match o.failure
      case None => StreamRun(o.events, o.done)
      case Some(e) => StreamRun(o.events + [ErrorEvent(e.Message())], o.done)
  }

  /** Without a truthy token the route only reports the missing
      authentication and makes no call. */
  lemma UnauthenticatedStream(token: Option<string>, script: seq<Step>, respond: Responder)
    requires !Truthy(token)
    ensures RunStream(token, script, respond).done == []
    ensures RunStream(token, script, respond).events == [Progress("Error: Not authenticated", 0, None)]
  {
    assert "Error: " + "Not authenticated" == "Error: Not authenticated";
  }

  /** When every call succeeds the stream carries all of the script's
      events and the service receives all of its calls. */
  lemma StreamSucceeds(token: Option<string>, script: seq<Step>, respond: Responder)
    requires Truthy(token)
    requires forall k: nat, i: nat :: respond(k, i).None?
    ensures RunStream(token, script, respond) == StreamRun(Events(script), Calls(script))
  {
    ExecuteAllSucceed(script, respond, DefaultMaxRetries, DefaultDelayMs, 0);
  }

  /** A route that collects and then writes, with every call answered,
      makes all its calls and ends with COMPLETE. */
  lemma CollectWriteSucceeds(token: Option<string>, before: seq<Step>, name: string, description: string, created: Created, ids: seq<string>, respond: Responder)
    requires Truthy(token)
    requires forall k: nat, i: nat :: respond(k, i).None?
    ensures var r := RunStream(token, before + WriteSteps(name, description, created, ids), respond);
            && r.done == Calls(before + WriteSteps(name, description, created, ids))
            && |r.events| > 0
            && r.events[|r.events| - 1] == Complete(created.url, created.id, |ids|)
  {
    StreamSucceeds(token, before + WriteSteps(name, description, created, ids), respond);
    WriteAfter(before, name, description, created, ids);
  }

  /** How a stream ends against the service's answers: every call made came
      back from its retried run; the script ran to its end exactly when all
      of its calls came back, and the stream then carries the script's
      events; otherwise the run stopped at the first call whose retried run
      threw, and the last event is "Error: " + that error's message. */
  ghost predicate EndsAtFirstFailure(r: StreamRun, script: seq<Step>, respond: Responder)
  {
    && (forall j :: 0 <= j < |r.done| ==> CallRun(respond, DefaultMaxRetries, DefaultDelayMs, j).result.Returned?)
    && (r.done == Calls(script) <==>
          forall j :: 0 <= j < |Calls(script)| ==> CallRun(respond, DefaultMaxRetries, DefaultDelayMs, j).result.Returned?)
    && (r.done == Calls(script) ==> r.events == Events(script))
    && (r.done != Calls(script) ==>
          && |r.done| < |Calls(script)|
          && CallRun(respond, DefaultMaxRetries, DefaultDelayMs, |r.done|).result.Raised?
          && |r.events| > 0
          && r.events[|r.events| - 1] == ErrorEvent(CallRun(respond, DefaultMaxRetries, DefaultDelayMs, |r.done|).result.error.Message()))
  }

  /** With a truthy token, the stream ends at the first call whose retried
      run threw and reports that call's error, or runs the whole script when
      every call comes back. */
  lemma StreamEndsAtFirstFailure(token: Option<string>, script: seq<Step>, respond: Responder)
    requires Truthy(token)
    ensures EndsAtFirstFailure(RunStream(token, script, respond), script, respond)
  {
    var o := Execute(script, respond, DefaultMaxRetries, DefaultDelayMs);
    if o.failure.Some? {
      CallsBeforeCall(script, o.stop);
      assert !CallRun(respond, DefaultMaxRetries, DefaultDelayMs, |o.done|).result.Returned?;
    } else {
      assert script[..|script|] == script;
    }
  }

  /** A run either completes the script or stops at a call that threw: the
      events before the error are a prefix of the script's, the last event
      is the error, COMPLETE is never sent, and the calls that went through
      (writes included, which are not undone) are a prefix of the
      script's. */
  lemma StreamStopsAtFailure(token: Option<string>, script: seq<Step>, respond: Responder)
    requires Truthy(token) && CompleteOnlyAtEnd(script)
    ensures var r := RunStream(token, script, respond);
            && r.done <= Calls(script)
            && (r.events == Events(script)
                || (&& |r.events| > 0
                    && r.events[..|r.events| - 1] <= Events(script)
                    && r.events[|r.events| - 1].Progress?
                    && StartsWith(r.events[|r.events| - 1].stage, "Error: ")
                    && forall e :: e in r.events ==> e.Progress?))
    ensures EndsAtFirstFailure(RunStream(token, script, respond), script, respond)
  {
    StreamEndsAtFirstFailure(token, script, respond);
    var o := Execute(script, respond, DefaultMaxRetries, DefaultDelayMs);
    CallsOfPrefix(script, o.stop);
    if o.failure.Some? {
      InterruptedShape(script, o.stop, o.failure.value.Message());
    } else {
      assert script[..|script|] == script;
    }
  }

  /** The events of a run interrupted before the script's last step, with
      the error event after them. */
  lemma InterruptedShape(script: seq<Step>, stop: nat, message: string)
    requires CompleteOnlyAtEnd(script) && stop < |script|
    ensures var ev := Events(script[..stop]) + [ErrorEvent(message)];
            && ev[..|ev| - 1] <= Events(script)
            && ev[|ev| - 1].Progress?
            && StartsWith(ev[|ev| - 1].stage, "Error: ")
            && forall e :: e in ev ==> e.Progress?
  {
    var pre := script[..stop];
    var init := script[..|script| - 1];
    var ev := Events(pre) + [ErrorEvent(message)];
    assert pre == init[..stop];
    EventsOfPrefix(script, stop);
    EventsOfPrefix(init, stop);
    assert ev[..|ev| - 1] == Events(pre);
  }
}

=== FILE: retry.dfy ===
/** `retryWithBackoff` (create-mega-playlist and create-liked-songs-playlist
    routes): call a thunk up to `maxRetries` times, retrying only on HTTP
    502, 429 and 503, waiting `delayMs * 2^i` after failed attempt `i`.
    The thunk is modelled by the outcome of each of its calls; the waits are
    recorded instead of slept. */
module Retry {
  import opened Base

  /** A failure thrown by the remote client; `statusCode` is absent when the
      failure carries no HTTP status. */
  datatype RemoteError = RemoteError(statusCode: Option<int>, message: string)

  /** What a retried call can throw. */
  datatype Error = Remote(cause: RemoteError) | MaxRetriesExceeded {
    /** `error.message`. */
    function Message(): string
    {
      match this
      case Remote(e) => e.message
      case MaxRetriesExceeded => "Max retries exceeded"
    }
  }

  /** Outcome of one call of the thunk. */
  datatype Attempt<T> = Ok(value: T) | Fail(err: RemoteError)

  /** Outcome of the whole retried call: a value or a thrown error. */
  datatype Result<T> = Returned(value: T) | Raised(error: Error)

  /** The result, how many times the thunk was called, and the waits taken. */
  datatype Run<T> = Run(result: Result<T>, calls: nat, delays: seq<int>)

  const DefaultMaxRetries: int := 3
  const DefaultDelayMs: int := 1000

  /** Status codes worth another attempt: bad gateway, too many requests,
      service unavailable. */
  predicate IsRetryable(e: RemoteError)
  {
    e.statusCode == Some(502) || e.statusCode == Some(429) || e.statusCode == Some(503)
  }

  /** An attempt that failed with a retryable status. */
  predicate Transient<T>(a: Attempt<T>)
  {
    a.Fail? && IsRetryable(a.err)
  }

  /** What a single call of the thunk, not retried, returns or throws. */
  function Direct<T>(a: Attempt<T>): Result<T>
  {
    match a
    case Ok(v) => Returned(v)
    case Fail(e) => Raised(Remote(e))
  }

  /** The loop from iteration `i` on. */
  function RetryFrom<T>(fn: nat -> Attempt<T>, maxRetries: int, delayMs: int, i: nat): (r: Run<T>)
    requires i == 0 || i < maxRetries
    ensures maxRetries <= i ==> r == Run(Raised(MaxRetriesExceeded), 0, [])
    ensures i < maxRetries ==> i < r.calls <= maxRetries && |r.delays| == r.calls - 1 - i
    ensures forall k :: 0 <= k < |r.delays| ==> r.delays[k] == delayMs * Pow2(i + k)
    ensures forall j :: i <= j < r.calls - 1 ==> Transient(fn(j))
    ensures i < maxRetries ==> r.result == Direct(fn(r.calls - 1))
    ensures i < maxRetries && r.calls < maxRetries ==> !Transient(fn(r.calls - 1))
    decreases maxRetries - i
  {
    if maxRetries <= i then
      Run(Raised(MaxRetriesExceeded), 0, [])
    else
      match fn(i)
      case Ok(v) => Run(Returned(v), i + 1, [])
      case Fail(e) =>
        if i == maxRetries - 1 || !IsRetryable(e) then
          Run(Raised(Remote(e)), i + 1, [])
        else
          var rest := RetryFrom(fn, maxRetries, delayMs, i + 1);
          Run(rest.result, rest.calls, [delayMs * Pow2(i)] + rest.delays)
  }

  /** `retryWithBackoff(fn, maxRetries, delayMs)`: the thunk is called at most
      `maxRetries` times; every call but the last failed transiently; the
      last call's value or error is passed on unchanged; the loop stops
      before the last permitted attempt only on a success or a
      non-retryable failure; the waits are `delayMs`, `2 * delayMs`, …;
      with no permitted attempt the thunk is never called and
      "Max retries exceeded" is thrown. */
  function RetryWithBackoff<T>(fn: nat -> Attempt<T>, maxRetries: int, delayMs: int): (r: Run<T>)
    ensures maxRetries <= 0 ==> r == Run(Raised(MaxRetriesExceeded), 0, [])
    ensures maxRetries > 0 ==> 0 < r.calls <= maxRetries && |r.delays| == r.calls - 1
    ensures forall k :: 0 <= k < |r.delays| ==> r.delays[k] == delayMs * Pow2(k)
    ensures forall j :: 0 <= j < r.calls - 1 ==> Transient(fn(j))
    ensures maxRetries > 0 ==> r.result == Direct(fn(r.calls - 1))
    ensures 0 < r.calls < maxRetries ==> !Transient(fn(r.calls - 1))
  {
    RetryFrom(fn, maxRetries, delayMs, 0)
  }

  /** The first successful call ends the loop and its value is returned. */
  lemma FirstSuccessReturned<T>(fn: nat -> Attempt<T>, maxRetries: int, delayMs: int, j: nat)
    requires j < maxRetries && fn(j).Ok?
    requires forall k :: 0 <= k < j ==> Transient(fn(k))
    ensures RetryWithBackoff(fn, maxRetries, delayMs).result == Returned(fn(j).value)
    ensures RetryWithBackoff(fn, maxRetries, delayMs).calls == j + 1
  {
  }

  /** A failure that is not retryable is thrown after its one call, with no
      wait before. */
  lemma NonRetryableThrownAtOnce<T>(fn: nat -> Attempt<T>, maxRetries: int, delayMs: int, j: nat)
    requires j < maxRetries && fn(j).Fail? && !IsRetryable(fn(j).err)
    requires forall k :: 0 <= k < j ==> Transient(fn(k))
    ensures RetryWithBackoff(fn, maxRetries, delayMs).result == Raised(Remote(fn(j).err))
    ensures RetryWithBackoff(fn, maxRetries, delayMs).calls == j + 1
    ensures |RetryWithBackoff(fn, maxRetries, delayMs).delays| == j
  {
  }

  /** Transient failures on every permitted attempt: the last one's error is
      thrown unchanged (`Direct` of a failure is that failure thrown) after `maxRetries` calls and `maxRetries - 1` waits. */
  lemma ExhaustedThrowsLastError<T>(fn: nat -> Attempt<T>, maxRetries: int, delayMs: int)
    requires maxRetries > 0
    requires forall k :: 0 <= k < maxRetries ==> Transient(fn(k))
    ensures RetryWithBackoff(fn, maxRetries, delayMs).result == Direct(fn(maxRetries - 1))
    ensures RetryWithBackoff(fn, maxRetries, delayMs).calls == maxRetries
  {
  }

  /** "Max retries exceeded" is thrown exactly when no attempt is permitted:
      with at least one attempt the last attempt always returns or throws. */
  lemma MaxRetriesExceededOnlyWithoutAttempts<T>(fn: nat -> Attempt<T>, maxRetries: int, delayMs: int)
    ensures RetryWithBackoff(fn, maxRetries, delayMs).result == Raised(MaxRetriesExceeded)
        <==> maxRetries <= 0
  {
  }

  /** With a single permitted attempt the helper is the bare call. */
  lemma SingleAttemptIsDirect<T>(fn: nat -> Attempt<T>, delayMs: int)
    ensures RetryWithBackoff(fn, 1, delayMs) == Run(Direct(fn(0)), 1, [])
  {
  }

  /** Two transient failures then a success, with the default three
      attempts: three calls and the waits `delayMs` and `2 * delayMs`. */
  lemma TwoTransientsThenSuccess(delayMs: int)
    ensures var fn := (i: nat) => if i < 2 then Fail(RemoteError(Some(503), "Service Unavailable")) else Ok(i);
            RetryWithBackoff(fn, DefaultMaxRetries, delayMs) == Run(Returned(2), 3, [delayMs, 2 * delayMs])
  {
    var fn := (i: nat) => if i < 2 then Fail(RemoteError(Some(503), "Service Unavailable")) else Ok(i);
    var r := RetryWithBackoff(fn, DefaultMaxRetries, delayMs);
    assert Transient(fn(0)) && Transient(fn(1)) && fn(2).Ok?;
    FirstSuccessReturned(fn, DefaultMaxRetries, delayMs, 2);
    assert r.delays[0] == delayMs * Pow2(0);
    assert r.delays[1] == delayMs * Pow2(1);
  }

  function Sum(s: seq<int>): int
  {
    if |s| == 0 then 0 else Sum(s[..|s| - 1]) + s[|s| - 1]
  }

  /** Geometric waits `d, 2d, …, 2^(m-1) d` add up to `(2^m - 1) d`. */
  lemma {:induction false} GeometricSum(ds: seq<int>, d: int)
    requires forall k :: 0 <= k < |ds| ==> ds[k] == d * Pow2(k)
    ensures Sum(ds) == d * (Pow2(|ds|) - 1)
    decreases |ds|
  {
    if |ds| > 0 {
      var m := |ds| - 1;
      GeometricSum(ds[..m], d);
      assert Sum(ds) == d * (Pow2(m) - 1) + d * Pow2(m);
      assert Pow2(m + 1) == 2 * Pow2(m);
    }
  }

  /** The total time waited before the result is `(2^(calls-1) - 1) * delayMs`. */
  lemma TotalWait<T>(fn: nat -> Attempt<T>, maxRetries: int, delayMs: int)
    ensures var r := RetryWithBackoff(fn, maxRetries, delayMs);
            Sum(r.delays) == delayMs * (Pow2(|r.delays|) - 1)
  {
    var ds := RetryWithBackoff(fn, maxRetries, delayMs).delays;
    assert forall k :: 0 <= k < |ds| ==> ds[k] == delayMs * Pow2(k);
    GeometricSum(ds, delayMs);
  }
}

=== FILE: seqs.dfy ===
/** Sequence vocabulary shared by the collectors and writers: concatenation
    of pages, the `slice(i, i + size)` batching loop, and the
    insertion-ordered pool that a JavaScript `Set` of track ids is. */
module Seqs {
  import opened Base

  /** Concatenation of a sequence of pages or batches. */
  function Flatten<T>(ss: seq<seq<T>>): seq<T>
  {
    if |ss| == 0 then [] else ss[0] + Flatten(ss[1..])
  }

  lemma {:induction false} FlattenAppend<T>(a: seq<seq<T>>, b: seq<seq<T>>)
    ensures Flatten(a + b) == Flatten(a) + Flatten(b)
    decreases |a|
  {
    if |a| == 0 {
      assert a + b == b;
    } else {
      assert (a + b)[1..] == a[1..] + b;
      FlattenAppend(a[1..], b);
    }
  }

  lemma FlattenSingle<T>(s: seq<T>)
    ensures Flatten([s]) == s
  {
    assert [s][1..] == [];
  }

  /** The first `k + 1` pieces of a list with a new head. */
  lemma FlattenConsPrefix<T>(b: seq<T>, bs: seq<seq<T>>, k: nat)
    requires k <= |bs|
    ensures Flatten(([b] + bs)[..k + 1]) == b + Flatten(bs[..k])
  {
    assert ([b] + bs)[..k + 1] == [b] + bs[..k];
    FlattenAppend([b], bs[..k]);
    FlattenSingle(b);
  }

  /** A common head keeps a prefix a prefix. */
  lemma PrefixAppend<T>(a: seq<T>, x: seq<T>, y: seq<T>)
    requires x <= y
    ensures a + x <= a + y
  {
    assert (a + y)[..|a + x|] == a + x;
  }

  /** No element occurs twice. */
  predicate Distinct<T(==)>(s: seq<T>)
  {
    forall i, j :: 0 <= i < j < |s| ==> s[i] != s[j]
  }

  /** The batches `s.slice(i, i + size)` for `i = start, start + size, …`
      while `i < s.length`: the `for` loop every batching writer uses. */
  function Batches<T>(s: seq<T>, size: nat, start: nat): (r: seq<seq<T>>)
    requires size > 0 && start <= |s|
    ensures |r| == CeilDiv(|s| - start, size)
    ensures Flatten(r) == s[start..]
    ensures forall j :: 0 <= j < |r| ==> 0 < |r[j]| <= size
    ensures forall j :: 0 <= j < |r| - 1 ==> |r[j]| == size
    decreases |s| - start
  {
    if start == |s| then
      []
    else
      var rest := Batches(s, size, Min(start + size, |s|));
      assert Flatten([s[start..Min(start + size, |s|)]] + rest)
          == s[start..Min(start + size, |s|)] + Flatten(rest);
      if start + size >= |s| then
        CeilDivOne(|s| - start, size);
        [s[start..]] + rest
      else
        CeilDivStep(|s| - start, size);
        [s[start..start + size]] + rest
  }

  /** The first batch, then the batches after it. */
  lemma BatchesCons<T>(s: seq<T>, size: nat, start: nat)
    requires size > 0 && start < |s|
    ensures Batches(s, size, start)
         == [s[start..Min(start + size, |s|)]] + Batches(s, size, Min(start + size, |s|))
  {
    if start + size >= |s| {
      assert s[start..] == s[start..|s|];
    }
  }

  /** Batching the whole sequence. */
  function Chunks<T>(s: seq<T>, size: nat): (r: seq<seq<T>>)
    requires size > 0
    ensures |r| == CeilDiv(|s|, size)
    ensures Flatten(r) == s
    ensures forall j :: 0 <= j < |r| ==> 0 < |r[j]| <= size
    ensures forall j :: 0 <= j < |r| - 1 ==> |r[j]| == size
  {
    Batches(s, size, 0)
  }

  /** `set.add(x)`: a JavaScript `Set` keeps insertion order, so the pool is
      a sequence to which an element is appended only when it is new. */
  function Insert<T(==)>(pool: seq<T>, x: T): seq<T>
  {
    if x in pool then pool else pool + [x]
  }

  /** Adding every element of `xs`, in order, to the pool: the pool grows
      only at its end. */
  function InsertAll<T(==)>(pool: seq<T>, xs: seq<T>): (r: seq<T>)
    ensures |pool| <= |r| && r[..|pool|] == pool
    decreases |xs|
  {
    if |xs| == 0 then pool
    else
      var r := InsertAll(Insert(pool, xs[0]), xs[1..]);
      assert Insert(pool, xs[0])[..|pool|] == pool;
      r
  }

  /** The pool keeps every element once: it ends up holding exactly the
      elements it held and those inserted, none of them twice. */
  lemma {:induction false} InsertAllSet<T(!new)>(pool: seq<T>, xs: seq<T>)
    ensures Distinct(pool) ==> Distinct(InsertAll(pool, xs))
    ensures forall x :: x in InsertAll(pool, xs) <==> x in pool || x in xs
    decreases |xs|
  {
    if |xs| > 0 {
      InsertAllSet(Insert(pool, xs[0]), xs[1..]);
      assert forall x :: x in xs <==> x == xs[0] || x in xs[1..];
    }
  }

  lemma {:induction false} InsertAllAppend<T(!new)>(pool: seq<T>, a: seq<T>, b: seq<T>)
    ensures InsertAll(pool, a + b) == InsertAll(InsertAll(pool, a), b)
    decreases |a|
  {
    if |a| == 0 {
      assert a + b == b;
    } else {
      assert (a + b)[0] == a[0];
      assert (a + b)[1..] == a[1..] + b;
      InsertAllAppend(Insert(pool, a[0]), a[1..], b);
    }
  }

  /** Inserting a sequence of pages one page at a time pools the same ids
      as inserting their concatenation. */
  lemma {:induction false} InsertAllFlatten<T(!new)>(pool: seq<T>, pages: seq<seq<T>>)
    ensures InsertAll(pool, Flatten(pages))
         == (if |pages| == 0 then pool else InsertAll(InsertAll(pool, pages[0]), Flatten(pages[1..])))
  {
    if |pages| > 0 {
      InsertAllAppend(pool, pages[0], Flatten(pages[1..]));
    }
  }

  /** A sequence without repetitions has as many elements as its set. */
  lemma {:induction false} DistinctCard<T>(s: seq<T>)
    requires Distinct(s)
    ensures |set x | x in s| == |s|
    decreases |s|
  {
    if |s| > 0 {
      var last := s[|s| - 1];
      var init := s[..|s| - 1];
      assert Distinct(init);
      DistinctCard(init);
      assert last !in init;
      assert (set x | x in s) == (set x | x in init) + {last};
    }
  }

  /** Position of the first occurrence of `x`, or `|s|` when there is none. */
  function IndexOf<T(==)>(s: seq<T>, x: T): (k: nat)
    ensures k <= |s|
    ensures k < |s| ==> s[k] == x
    ensures forall j :: 0 <= j < k ==> s[j] != x
  {
    if |s| == 0 then 0
    else if s[0] == x then 0
    else 1 + IndexOf(s[1..], x)
  }

  /** In a sequence without repetitions an element is found where it is. */
  lemma IndexOfDistinct<T>(s: seq<T>, k: nat)
    requires Distinct(s) && k < |s|
    ensures IndexOf(s, s[k]) == k
  {
  }

  /** The elements of `s` that satisfy `p`, in order. */
  function Filter<T>(s: seq<T>, p: T -> bool): (r: seq<T>)
    ensures |r| <= |s|
  {
    if |s| == 0 then []
    else
      var rest := Filter(s[1..], p);
      if p(s[0]) then [s[0]] + rest else rest
  }

  /** The filter keeps exactly the elements that satisfy `p`. */
  lemma {:induction false} FilterMembers<T(!new)>(s: seq<T>, p: T -> bool)
    ensures forall x :: x in Filter(s, p) <==> x in s && p(x)
    decreases |s|
  {
    if |s| > 0 {
      FilterMembers(s[1..], p);
      assert forall x :: x in s <==> x == s[0] || x in s[1..];
    }
  }

  lemma {:induction false} FilterAppend<T>(a: seq<T>, b: seq<T>, p: T -> bool)
    ensures Filter(a + b, p) == Filter(a, p) + Filter(b, p)
    decreases |a|
  {
    if |a| == 0 {
      assert a + b == b;
    } else {
      assert (a + b)[0] == a[0];
      assert (a + b)[1..] == a[1..] + b;
      FilterAppend(a[1..], b, p);
    }
  }

  /** Applying `f` to every element: element `i` of the result is `f` of
      element `i`. */
  function Map<T, U>(s: seq<T>, f: T -> U): (r: seq<U>)
    ensures |r| == |s|
    ensures forall i :: 0 <= i < |s| ==> r[i] == f(s[i])
    decreases |s|
  {
    if |s| == 0 then [] else [f(s[0])] + Map(s[1..], f)
  }

  lemma MapCons<T, U>(x: T, s: seq<T>, f: T -> U)
    ensures Map([x] + s, f) == [f(x)] + Map(s, f)
  {
  }
}

=== FILE: sign_in.dfy ===
/** The whole sign-in round: the page's connect link, the authorize route,
    the provider sending the browser back with a code and the `state` it was
    given, the callback, and the page loading the callback's redirect. */
module SignIn {
  import opened Base
  import opened Strings
  import opened Urls
  import opened Auth
  import opened Callback
  import opened Client

  /** The provider approved and returned a code with the state. */
  function Returned(state: string, code: string): Params
  {
    Params(Some(code), Some(state), None)
  }

  /** The round as written: the authorize route puts only the role and the
      time into the state. `now` is the time of the authorize request,
      `later` that of the callback. */
  function SignInAsWritten(r: Role, mode: Option<string>, code: string, redirectUri: Option<string>, origin: string,
                           grant: Option<Grant>, now: nat, later: nat, page: Page): Load
  {
    match Authorize(Get(ConnectUrl(r, mode), "account"), now)
    case InvalidAccount => Load(page, None)
    case ToProvider(state) =>
      OnLoad(HandleCallback(Returned(state, code), redirectUri, origin, grant, later).location, page)
  }

  /** The round with the state carrying the page's mode. */
  function SignIn(r: Role, mode: Option<string>, code: string, redirectUri: Option<string>, origin: string,
                  grant: Option<Grant>, now: nat, later: nat, page: Page): Load
  {
    var url := ConnectUrl(r, mode);
    match AuthorizeWithMode(Get(url, "account"), Get(url, "mode"), now)
    case InvalidAccount => Load(page, None)
    case ToProvider(state) =>
      OnLoad(HandleCallback(Returned(state, code), redirectUri, origin, grant, later).location, page)
  }

  lemma RoleNameWord(r: Role)
    ensures Word(r.Name())
  {
  }

  lemma KnownModeWord(m: string)
    requires KnownMode(m)
    ensures Word(m)
  {
  }

  /** A decimal number has no separator and needs no escaping. */
  lemma DigitsClean(n: nat)
    ensures Avoids(NatToString(n), "_") && Plain(NatToString(n))
  {
    var s := NatToString(n);
    forall i | 0 <= i < |s| ensures s[i] !in "_" && s[i] !in "&=?#%+" {
      assert IsDigit(s[i]);
    }
  }

  /** A decimal number is none of the page's modes. */
  lemma DigitsNoMode(n: nat)
    ensures NatToString(n) != "none"
    ensures NatToString(n) != FullMigration && NatToString(n) != MegaPlaylist && NatToString(n) != LikedSongsPlaylist
  {
    assert IsDigit(NatToString(n)[0]);
  }

  /** Fields without the separator split apart again. */
  lemma SplitTwo(a: string, b: string)
    requires Avoids(a, "_") && Avoids(b, "_")
    ensures Split(a + "_" + b, "_") == [a, b]
  {
    AvoidsNotContains(a, "_", '_');
    AvoidsNotContains(b, "_", '_');
    assert a + "_"[..0] == a;
    SplitPrefix(a, "_", b);
    SplitNoSep(b, "_");
  }

  lemma SplitThree(a: string, b: string, c: string)
    requires Avoids(a, "_") && Avoids(b, "_") && Avoids(c, "_")
    ensures Split(a + "_" + b + "_" + c, "_") == [a, b, c]
  {
    AvoidsNotContains(a, "_", '_');
    assert a + "_"[..0] == a;
    assert a + "_" + b + "_" + c == a + "_" + (b + "_" + c);
    SplitPrefix(a, "_", b + "_" + c);
    SplitTwo(b, c);
  }

  /** The callback reads the role back from the authorize route's state,
      and takes the time for the mode. */
  lemma StateAsRead(r: Role, now: nat)
    ensures AccountOf(State(r, now)) == r.Name()
    ensures ModeOf(State(r, now)) == NatToString(now)
  {
    RoleNameWord(r);
    WordPlain(r.Name());
    DigitsClean(now);
    SplitTwo(r.Name(), NatToString(now));
    DigitsNoMode(now);
  }

  /** With the mode in the state the callback reads back both the role and
      the mode; "none" stands for no mode. */
  lemma StateWithModeAsRead(r: Role, mode: Option<string>, now: nat)
    requires Truthy(mode) ==> KnownMode(mode.value)
    ensures AccountOf(StateWithMode(r, mode, now)) == r.Name()
    ensures ModeOf(StateWithMode(r, mode, now)) == if Truthy(mode) then mode.value else ""
  {
    var m := if Truthy(mode) then mode.value else "none";
    RoleNameWord(r);
    WordPlain(r.Name());
    DigitsClean(now);
    if Truthy(mode) {
      KnownModeWord(mode.value);
    }
    WordPlain(m);
    SplitThree(r.Name(), m, NatToString(now));
  }

  /** As written, the browser comes back to the page with the time of the
      authorize request where the mode belongs. */
  lemma AsWrittenReturnsTo(r: Role, mode: Option<string>, code: string, redirectUri: Option<string>, origin: string,
                           g: Grant, now: nat, later: nat, page: Page)
    requires Truthy(mode) ==> KnownMode(mode.value)
    requires code != ""
    ensures SignInAsWritten(r, mode, code, redirectUri, origin, Some(g), now, later, page)
         == OnLoad(ConnectedUrl(BaseUrl(redirectUri, origin), r, NatToString(now)), page)
  {
    if Truthy(mode) {
      KnownModeWord(mode.value);
      WordPlain(mode.value);
    }
    ReadConnectUrl(r, mode);
    StateAsRead(r, now);
    var state := State(r, now);
    assert Authorize(Get(ConnectUrl(r, mode), "account"), now) == ToProvider(state);
    assert HandleCallback(Returned(state, code), redirectUri, origin, Some(g), later).location
        == ConnectedUrl(BaseUrl(redirectUri, origin), r, NatToString(now));
  }

  /** With the mode in the state, the browser comes back to the page with
      the mode the user picked, or none. */
  lemma WithModeReturnsTo(r: Role, mode: Option<string>, code: string, redirectUri: Option<string>, origin: string,
                          g: Grant, now: nat, later: nat, page: Page)
    requires Truthy(mode) ==> KnownMode(mode.value)
    requires code != ""
    ensures SignIn(r, mode, code, redirectUri, origin, Some(g), now, later, page)
         == OnLoad(ConnectedUrl(BaseUrl(redirectUri, origin), r, if Truthy(mode) then mode.value else ""), page)
  {
    if Truthy(mode) {
      KnownModeWord(mode.value);
      WordPlain(mode.value);
    }
    ReadConnectUrl(r, mode);
    StateWithModeAsRead(r, mode, now);
    var url := ConnectUrl(r, mode);
    var state := StateWithMode(r, mode, now);
    assert StateWithMode(r, Get(url, "mode"), now) == state;
    assert AuthorizeWithMode(Get(url, "account"), Get(url, "mode"), now) == ToProvider(state);
    assert HandleCallback(Returned(state, code), redirectUri, origin, Some(g), later).location
        == ConnectedUrl(BaseUrl(redirectUri, origin), r, if Truthy(mode) then mode.value else "");
  }

  /** As written, signing in replaces the mode the user picked by the time
      of the authorize request: the page comes back with that number as its
      mode, and after the source account's data is fetched it moves on to
      connecting a target account even in a playlist mode. */
  lemma TimestampBecomesMode(r: Role, mode: Option<string>, code: string, redirectUri: Option<string>, origin: string,
                             g: Grant, now: nat, later: nat, page: Page)
    requires Truthy(mode) ==> KnownMode(mode.value)
    requires code != "" && Avoids(BaseUrl(redirectUri, origin), "?")
    ensures var l := SignInAsWritten(r, mode, code, redirectUri, origin, Some(g), now, later, page);
            && l.page.mode == Some(NatToString(now))
            && l.page.mode != mode
            && l.page.step == StepFor(r)
            && AfterFetch(l.page.mode) == "connect-target"
  {
    AsWrittenReturnsTo(r, mode, code, redirectUri, origin, g, now, later, page);
    DigitsClean(now);
    DigitsNoMode(now);
    ReadConnectedUrl(BaseUrl(redirectUri, origin), r, NatToString(now));
  }

  /** With the state carrying the mode, the page comes back in the mode the
      user picked, at the role's next step; without a mode the page's own
      mode and step are kept. */
  lemma ModeSurvivesSignIn(r: Role, mode: Option<string>, code: string, redirectUri: Option<string>, origin: string,
                           g: Grant, now: nat, later: nat, page: Page)
    requires Truthy(mode) ==> KnownMode(mode.value)
    requires code != "" && Avoids(BaseUrl(redirectUri, origin), "?")
    ensures var l := SignIn(r, mode, code, redirectUri, origin, Some(g), now, later, page);
            && l.loadUser == Some(r)
            && (Truthy(mode) ==> l.page.mode == mode && l.page.step == StepFor(r))
            && (!Truthy(mode) ==> l.page.mode == page.mode && l.page.step == page.step)
  {
    var m := if Truthy(mode) then mode.value else "";
    WithModeReturnsTo(r, mode, code, redirectUri, origin, g, now, later, page);
    if Truthy(mode) {
      KnownModeWord(m);
      WordPlain(m);
    }
    ReadConnectedUrl(BaseUrl(redirectUri, origin), r, m);
  }
}

=== FILE: strings.dfy ===
/** String vocabulary with JavaScript semantics: truthiness of an optional
    string, `Number.prototype.toString()` on naturals, `String.prototype.split`
    and `join` with a string separator (leftmost, non-overlapping matches),
    `startsWith`, and `replace` with a string pattern (first match only). */
module Strings {
  import opened Base

  /** `if (x)` on a string that may be `null`/`undefined`: `""` is falsy. */
  predicate Truthy(o: Option<string>)
  {
    o.Some? && o.value != ""
  }

  predicate IsDigit(c: char)
  {
    '0' <= c <= '9'
  }

  function DigitChar(d: nat): (c: char)
    requires d < 10
    ensures IsDigit(c)
  {
    (('0' as int) + d) as char
  }

  function DigitValue(c: char): (d: nat)
    requires IsDigit(c)
    ensures d < 10
  {
    (c as int) - ('0' as int)
  }

  /** Decimal rendering of a natural number (`String(n)`, `n.toString()`). */
  function NatToString(n: nat): (s: string)
    ensures |s| > 0
    ensures forall i :: 0 <= i < |s| ==> IsDigit(s[i])
  {
    if n < 10 then [DigitChar(n)] else NatToString(n / 10) + [DigitChar(n % 10)]
  }

  /** Reading a string of decimal digits back as a number. */
  function ParseNat(s: string): nat
    requires forall i :: 0 <= i < |s| ==> IsDigit(s[i])
  {
    if |s| == 0 then 0
    else ParseNat(s[..|s| - 1]) * 10 + DigitValue(s[|s| - 1])
  }

  /** The decimal rendering loses nothing: parsing it gives the number back. */
  lemma {:induction false} ParseNatToString(n: nat)
    ensures ParseNat(NatToString(n)) == n
  {
    var s := NatToString(n);
    if n >= 10 {
      assert s[..|s| - 1] == NatToString(n / 10);
      ParseNatToString(n / 10);
    }
  }

  /** `pat` occurs in `s` at position `i`. */
  predicate Occurs(s: string, pat: string, i: int)
  {
    0 <= i && i + |pat| <= |s| && s[i..i + |pat|] == pat
  }

  /** `s.includes(pat)`. */
  predicate Contains(s: string, pat: string)
  {
    exists i :: 0 <= i <= |s| && Occurs(s, pat, i)
  }

  /** `s.startsWith(p)`. */
  predicate StartsWith(s: string, p: string)
  {
    |p| <= |s| && s[..|p|] == p
  }

  /** `parts.join(sep)`. */
  function Join(parts: seq<string>, sep: string): string
  {
    if |parts| == 0 then ""
    else if |parts| == 1 then parts[0]
    else parts[0] + sep + Join(parts[1..], sep)
  }

  lemma JoinCons(x: string, parts: seq<string>, sep: string)
    requires |parts| >= 1
    ensures Join([x + parts[0]] + parts[1..], sep) == x + Join(parts, sep)
  {
    var ps := [x + parts[0]] + parts[1..];
    assert ps[1..] == parts[1..];
  }

  /** `s.split(sep)` for a non-empty separator: scanning from the left, every
      occurrence of `sep` that does not overlap an earlier one ends a field. */
  function Split(s: string, sep: string): (r: seq<string>)
    requires |sep| > 0
    ensures |r| >= 1
    decreases |s|
  {
    if |s| < |sep| then [s]
    else if s[..|sep|] == sep then [""] + Split(s[|sep|..], sep)
    else
      var rest := Split(s[1..], sep);
      [[s[0]] + rest[0]] + rest[1..]
  }

  /** Joining the fields with the separator gives the text back. */
  lemma {:induction false} SplitJoin(s: string, sep: string)
    requires |sep| > 0
    ensures Join(Split(s, sep), sep) == s
    decreases |s|
  {
    if |s| >= |sep| {
      if s[..|sep|] == sep {
        var rest := Split(s[|sep|..], sep);
        SplitJoin(s[|sep|..], sep);
        assert ([""] + rest)[1..] == rest;
        assert s == s[..|sep|] + s[|sep|..];
      } else {
        var rest := Split(s[1..], sep);
        SplitJoin(s[1..], sep);
        JoinCons([s[0]], rest, sep);
        assert s == [s[0]] + s[1..];
      }
    }
  }

  /** `a` may be followed by `sep` without an earlier match: no occurrence of
      `sep` starts inside `a`. */
  predicate EndsBefore(a: string, sep: string)
    requires |sep| > 0
  {
    !Contains(a + sep[..|sep| - 1], sep)
  }

  lemma OccursInTail(s: string, pat: string, i: int)
    requires |s| > 0 && Occurs(s[1..], pat, i)
    ensures Occurs(s, pat, i + 1)
  {
    assert s[1..][i..i + |pat|] == s[i + 1..i + 1 + |pat|];
  }

  lemma OccursInPrefix(s: string, t: string, pat: string, i: int)
    requires Occurs(s, pat, i)
    ensures Occurs(s + t, pat, i)
  {
    assert (s + t)[i..i + |pat|] == s[i..i + |pat|];
  }

  /** A string without the separator is a single field. */
  lemma {:induction false} SplitNoSep(s: string, sep: string)
    requires |sep| > 0 && !Contains(s, sep)
    ensures Split(s, sep) == [s]
    decreases |s|
  {
    if |s| >= |sep| {
      assert !Occurs(s, sep, 0);
      if Contains(s[1..], sep) {
        var i :| Occurs(s[1..], sep, i);
        OccursInTail(s, sep, i);
        assert false;
      }
      SplitNoSep(s[1..], sep);
      assert [s[0]] + s[1..] == s;
    }
  }

  /** A field that ends cleanly before a separator is split off first. */
  lemma {:induction false} SplitPrefix(a: string, sep: string, b: string)
    requires |sep| > 0 && EndsBefore(a, sep)
    ensures Split(a + sep + b, sep) == [a] + Split(b, sep)
    decreases |a|
  {
    var s := a + sep + b;
    var w := a + sep[..|sep| - 1];
    if |a| == 0 {
      assert s == sep + b;
      assert s[..|sep|] == sep;
      assert s[|sep|..] == b;
    } else {
      assert !Occurs(w, sep, 0);
      assert w[..|sep|] == s[..|sep|];
      assert s[1..] == a[1..] + sep + b;
      if Contains(a[1..] + sep[..|sep| - 1], sep) {
        var i :| Occurs(a[1..] + sep[..|sep| - 1], sep, i);
        assert w[1..] == a[1..] + sep[..|sep| - 1];
        OccursInTail(w, sep, i);
        assert false;
      }
      SplitPrefix(a[1..], sep, b);
      assert [a[0]] + a[1..] == a;
    }
  }

  /** Splitting is streaming: after more text `c` arrives, the fields already
      closed stay as they were and only the open last field is re-split. */
  lemma {:induction false} SplitStream(x: string, c: string, sep: string)
    requires |sep| > 0
    ensures Split(x + c, sep)
         == Split(x, sep)[..|Split(x, sep)| - 1] + Split(Split(x, sep)[|Split(x, sep)| - 1] + c, sep)
    decreases |x|
  {
    if |x| < |sep| {
      assert Split(x, sep) == [x];
    } else if x[..|sep|] == sep {
      SplitStream(x[|sep|..], c, sep);
      SplitStreamAtSep(x, c, sep);
    } else {
      SplitStream(x[1..], c, sep);
      SplitStreamSkip(x, c, sep);
    }
  }

  lemma AppendSlices(x: string, c: string, n: nat)
    requires n <= |x|
    ensures (x + c)[..n] == x[..n] && (x + c)[n..] == x[n..] + c
    ensures |x| > 0 ==> (x + c)[0] == x[0]
  {
  }

  /** A separator at the start closes an empty field. */
  lemma SplitAtSep(s: string, sep: string)
    requires |sep| > 0 && |s| >= |sep| && s[..|sep|] == sep
    ensures Split(s, sep) == [""] + Split(s[|sep|..], sep)
  {
  }

  /** A character that starts no separator joins the first field. */
  lemma SplitSkip(s: string, sep: string)
    requires |sep| > 0 && |s| >= |sep| && s[..|sep|] != sep
    ensures Split(s, sep) == [[s[0]] + Split(s[1..], sep)[0]] + Split(s[1..], sep)[1..]
  {
  }

  /** When the rest is one field, so is the whole. */
  lemma SplitSkipOne(s: string, sep: string)
    requires |sep| > 0 && |s| >= |sep| && s[..|sep|] != sep && |Split(s[1..], sep)| == 1
    ensures Split(s, sep) == [s]
  {
    SplitJoin(s[1..], sep);
    assert [s[0]] + s[1..] == s;
  }

  /** SplitStream past a separator at the start, given it for the rest. */
  lemma SplitStreamAtSep(x: string, c: string, sep: string)
    requires |sep| > 0 && |x| >= |sep| && x[..|sep|] == sep
    requires var r := Split(x[|sep|..], sep);
             Split(x[|sep|..] + c, sep) == r[..|r| - 1] + Split(r[|r| - 1] + c, sep)
    ensures Split(x + c, sep)
         == Split(x, sep)[..|Split(x, sep)| - 1] + Split(Split(x, sep)[|Split(x, sep)| - 1] + c, sep)
  {
    var r := Split(x[|sep|..], sep);
    SplitAtSep(x, sep);
    AppendSlices(x, c, |sep|);
    SplitAtSep(x + c, sep);
    AtSepStep(r, Split(x[|sep|..] + c, sep), Split(r[|r| - 1] + c, sep), Split(x + c, sep), Split(x, sep));
  }

  /** The list identity behind SplitStreamAtSep, over the fields as plain
      values. */
  lemma AtSepStep(r: seq<string>, rc: seq<string>, lastR: seq<string>, whole: seq<string>, sx: seq<string>)
    requires |r| >= 1
    requires sx == [""] + r
    requires rc == r[..|r| - 1] + lastR
    requires whole == [""] + rc
    ensures whole == sx[..|sx| - 1] + lastR && sx[|sx| - 1] == r[|r| - 1]
  {
    assert sx[..|sx| - 1] == [""] + r[..|r| - 1];
  }

  /** SplitStream past a character that starts no separator, given it for
      the rest. */
  lemma SplitStreamSkip(x: string, c: string, sep: string)
    requires |sep| > 0 && |x| >= |sep| && x[..|sep|] != sep
    requires var r := Split(x[1..], sep);
             Split(x[1..] + c, sep) == r[..|r| - 1] + Split(r[|r| - 1] + c, sep)
    ensures Split(x + c, sep)
         == Split(x, sep)[..|Split(x, sep)| - 1] + Split(Split(x, sep)[|Split(x, sep)| - 1] + c, sep)
  {
    var r := Split(x[1..], sep);
    SplitSkip(x, sep);
    AppendSlices(x, c, |sep|);
    AppendSlices(x, c, 1);
    SplitSkip(x + c, sep);
    if |r| == 1 {
      SplitSkipOne(x, sep);
    }
    SkipShape(x[0], r, Split(x, sep));
    StreamStep(x[0], r, Split(x[1..] + c, sep), Split(r[|r| - 1] + c, sep), Split(x + c, sep), Split(x, sep),
               Split(Split(x, sep)[|Split(x, sep)| - 1] + c, sep));
  }

  lemma SkipShape(h: char, r: seq<string>, sx: seq<string>)
    requires |r| >= 1 && sx == [[h] + r[0]] + r[1..]
    ensures |sx| == |r| && (|r| > 1 ==> sx[|sx| - 1] == r[|r| - 1])
  {
  }

  /** The list identity behind SplitStreamSkip, over the fields as plain
      values: `r` and `sx` split the text without and with its first
      character, `rc` and `whole` the same followed by the chunk, and
      `lastR` and `lastSx` the last fields followed by the chunk. */
  lemma StreamStep(h: char, r: seq<string>, rc: seq<string>, lastR: seq<string>, whole: seq<string>,
                   sx: seq<string>, lastSx: seq<string>)
    requires |r| >= 1 && |lastR| >= 1
    requires sx == [[h] + r[0]] + r[1..]
    requires rc == r[..|r| - 1] + lastR
    requires whole == [[h] + rc[0]] + rc[1..]
    requires |r| == 1 ==> lastSx == whole
    requires |r| > 1 ==> lastSx == lastR
    ensures whole == sx[..|sx| - 1] + lastSx
  {
    if |r| > 1 {
      assert rc[0] == r[0];
      assert sx[..|sx| - 1] == [[h] + r[0]] + r[1..|r| - 1];
      assert rc[1..] == r[1..|r| - 1] + lastR;
    }
  }

  function ReplaceFirst(s: string, pat: string, rep: string): string
    requires |pat| > 0
  {
    var parts := Split(s, pat);
    if |parts| == 1 then s else parts[0] + rep + Join(parts[1..], pat)
  }

  /** Removing a trailing pattern that occurs nowhere earlier gives the text
      before it back. */
  lemma ReplaceFirstSuffix(base: string, pat: string)
    requires |pat| > 0 && EndsBefore(base, pat)
    ensures ReplaceFirst(base + pat, pat, "") == base
  {
    SplitPrefix(base, pat, "");
    assert base + pat + "" == base + pat;
    SplitNoSep("", pat);
  }

  /** A string without the pattern is left as it is. */
  lemma ReplaceFirstAbsent(s: string, pat: string, rep: string)
    requires |pat| > 0 && !Contains(s, pat)
    ensures ReplaceFirst(s, pat, rep) == s
  {
    SplitNoSep(s, pat);
  }
}

=== FILE: urls.dfy ===
/** Query strings as the routes write them (`key=value` pairs joined by `&`,
    interpolated without encoding) and as the page reads them back
    (`new URLSearchParams(window.location.search).get(key)`). */
module Urls {
  import opened Base
  import opened Seqs
  import opened Strings

  /** No character of `s` is one of `bad`. */
  predicate Avoids(s: string, bad: string)
  {
    forall i :: 0 <= i < |s| ==> s[i] !in bad
  }

  /** A key or value that survives the round trip unchanged: it neither
      delimits (`&`, `=`, `?`, `#`) nor is decoded (`%`, `+`). */
  predicate Plain(s: string)
  {
    Avoids(s, "&=?#%+")
  }

  /** Lower-case letters and hyphens, as in the role, mode, status and step
      names. */
  predicate Word(s: string)
  {
    forall i :: 0 <= i < |s| ==> 'a' <= s[i] <= 'z' || s[i] == '-'
  }

  lemma WordPlain(s: string)
    requires Word(s)
    ensures Plain(s) && Avoids(s, "_")
  {
    forall i | 0 <= i < |s| ensures s[i] !in "&=?#%+" && s[i] !in "_" {
      assert 'a' <= s[i] <= 'z' || s[i] == '-';
    }
  }

  lemma AvoidsAppend(a: string, b: string, bad: string)
    ensures Avoids(a + b, bad) <==> Avoids(a, bad) && Avoids(b, bad)
  {
    if Avoids(a, bad) && Avoids(b, bad) {
      forall i | 0 <= i < |a + b| ensures (a + b)[i] !in bad {
        if i >= |a| {
          assert (a + b)[i] == b[i - |a|];
        }
      }
    }
    if Avoids(a + b, bad) {
      forall i | 0 <= i < |a| ensures a[i] !in bad {
        assert (a + b)[i] == a[i];
      }
      forall i | 0 <= i < |b| ensures b[i] !in bad {
        assert (a + b)[|a| + i] == b[i];
      }
    }
  }

  /** A string without the character `c` does not contain it. */
  lemma AvoidsNotContains(s: string, bad: string, c: char)
    requires Avoids(s, bad) && c in bad
    ensures !Contains(s, [c])
  {
    forall i | 0 <= i <= |s| ensures !Occurs(s, [c], i) {
      if i + 1 <= |s| {
        assert s[i..i + 1] == [s[i]];
      }
    }
  }

  /** `key=value`. */
  function Pair(kv: (string, string)): string
  {
    kv.0 + "=" + kv.1
  }

  /** The query text of a URL built from the pairs in order. */
  function Query(kvs: seq<(string, string)>): string
  {
    Join(Map(kvs, Pair), "&")
  }

  lemma QueryCons(kv: (string, string), kvs: seq<(string, string)>)
    requires |kvs| > 0
    ensures Query([kv] + kvs) == Pair(kv) + "&" + Query(kvs)
  {
    assert Map([kv] + kvs, Pair)[1..] == Map(kvs, Pair);
  }

  lemma QuerySingle(kv: (string, string))
    ensures Query([kv]) == Pair(kv)
  {
  }

  lemma QueryTwo(k1: (string, string), k2: (string, string))
    ensures Query([k1, k2]) == Pair(k1) + "&" + Pair(k2)
  {
    QuerySingle(k2);
    assert [k1, k2] == [k1] + [k2];
    QueryCons(k1, [k2]);
  }

  lemma QueryFour(k1: (string, string), k2: (string, string), k3: (string, string), k4: (string, string))
    ensures Query([k1, k2, k3, k4]) == Pair(k1) + "&" + (Pair(k2) + "&" + (Pair(k3) + "&" + Pair(k4)))
  {
    QueryTwo(k3, k4);
    assert [k2, k3, k4] == [k2] + [k3, k4];
    QueryCons(k2, [k3, k4]);
    assert [k1, k2, k3, k4] == [k1] + [k2, k3, k4];
    QueryCons(k1, [k2, k3, k4]);
  }

  /** Every key is non-empty and every key and value is plain. */
  predicate PlainPairs(kvs: seq<(string, string)>)
  {
    forall i :: 0 <= i < |kvs| ==> kvs[i].0 != "" && Plain(kvs[i].0) && Plain(kvs[i].1)
  }

  /** The value of the first pair with the key: what a reader should see. */
  function FirstValue(kvs: seq<(string, string)>, key: string): Option<string>
  {
    if |kvs| == 0 then None
    else if kvs[0].0 == key then Some(kvs[0].1)
    else FirstValue(kvs[1..], key)
  }

  lemma FirstValueCons(kv: (string, string), kvs: seq<(string, string)>, key: string)
    ensures FirstValue([kv] + kvs, key) == if kv.0 == key then Some(kv.1) else FirstValue(kvs, key)
  {
    assert ([kv] + kvs)[1..] == kvs;
  }

  /** A field of the query: the key before the first `=`, the value after it
      (empty when there is no `=`). */
  function Param(field: string): (string, string)
  {
    var parts := Split(field, "=");
    (parts[0], Join(parts[1..], "="))
  }

  /** The first non-empty field with the key decides; empty fields are
      skipped. */
  function Lookup(fields: seq<string>, key: string): Option<string>
  {
    if |fields| == 0 then None
    else if fields[0] != "" && Param(fields[0]).0 == key then Some(Param(fields[0]).1)
    else Lookup(fields[1..], key)
  }

  /** `URLSearchParams.get(key)` on the query of `url`, the text after its
      first `?` (URLs here carry no fragment). */
  function Get(url: string, key: string): Option<string>
  {
    var parts := Split(url, "?");
    if |parts| == 1 then None else Lookup(Split(Join(parts[1..], "?"), "&"), key)
  }

  lemma PairAvoids(kv: (string, string))
    requires Plain(kv.0) && Plain(kv.1)
    ensures Avoids(Pair(kv), "&?#%+")
  {
    AvoidsAppend(kv.0, "=", "&?#%+");
    AvoidsAppend(kv.0 + "=", kv.1, "&?#%+");
  }

  /** A pair splits back into its key and value. */
  lemma ParamOfPair(kv: (string, string))
    requires Plain(kv.0) && Plain(kv.1)
    ensures Param(Pair(kv)) == kv
  {
    AvoidsNotContains(kv.0, "&=?#%+", '=');
    AvoidsNotContains(kv.1, "&=?#%+", '=');
    assert kv.0 + "" == kv.0;
    SplitPrefix(kv.0, "=", kv.1);
    SplitNoSep(kv.1, "=");
  }

  /** Splitting the query on `&` gives the pairs back. */
  lemma {:induction false} SplitQuery(kvs: seq<(string, string)>)
    requires |kvs| > 0 && PlainPairs(kvs)
    ensures Split(Query(kvs), "&") == Map(kvs, Pair)
    decreases |kvs|
  {
    var m := Map(kvs, Pair);
    PairAvoids(kvs[0]);
    AvoidsNotContains(Pair(kvs[0]), "&?#%+", '&');
    if |kvs| == 1 {
      SplitNoSep(Pair(kvs[0]), "&");
    } else {
      assert m[1..] == Map(kvs[1..], Pair);
      assert Query(kvs) == Pair(kvs[0]) + "&" + Query(kvs[1..]);
      assert Pair(kvs[0]) + "&"[..0] == Pair(kvs[0]);
      SplitPrefix(Pair(kvs[0]), "&", Query(kvs[1..]));
      SplitQuery(kvs[1..]);
      assert m == [Pair(kvs[0])] + m[1..];
    }
  }

  /** Looking a key up among the written pairs finds its first value. */
  lemma {:induction false} LookupPairs(kvs: seq<(string, string)>, key: string)
    requires PlainPairs(kvs)
    ensures Lookup(Map(kvs, Pair), key) == FirstValue(kvs, key)
    decreases |kvs|
  {
    if |kvs| > 0 {
      ParamOfPair(kvs[0]);
      assert Map(kvs, Pair)[1..] == Map(kvs[1..], Pair);
      LookupPairs(kvs[1..], key);
    }
  }

  /** The query text contains no `?`. */
  lemma {:induction false} QueryAvoids(kvs: seq<(string, string)>)
    requires PlainPairs(kvs)
    ensures Avoids(Query(kvs), "?")
    decreases |kvs|
  {
    if |kvs| > 1 {
      PairAvoids(kvs[0]);
      QueryAvoids(kvs[1..]);
      assert Map(kvs, Pair)[1..] == Map(kvs[1..], Pair);
      assert Query(kvs) == Pair(kvs[0]) + "&" + Query(kvs[1..]);
      AvoidsAppend(Pair(kvs[0]), "&", "?");
      AvoidsAppend(Pair(kvs[0]) + "&", Query(kvs[1..]), "?");
    } else if |kvs| == 1 {
      PairAvoids(kvs[0]);
    }
  }

  /** Round trip: a reader of `path?query` sees, for every key, the first
      value written under it, and nothing for a key never written. */
  lemma ReadBack(path: string, kvs: seq<(string, string)>, key: string)
    requires Avoids(path, "?") && PlainPairs(kvs)
    ensures Get(path + "?" + Query(kvs), key) == FirstValue(kvs, key)
  {
    var q := Query(kvs);
    AvoidsNotContains(path, "?", '?');
    assert path + "?"[..0] == path;
    SplitPrefix(path, "?", q);
    QueryAvoids(kvs);
    AvoidsNotContains(q, "?", '?');
    SplitNoSep(q, "?");
    var parts := Split(path + "?" + q, "?");
    assert parts == [path, q];
    assert Join(parts[1..], "?") == q;
    if |kvs| == 0 {
      assert q == "";
      SplitNoSep(q, "&");
      assert Split(q, "&") == [""];
      assert Lookup([""], key) == Lookup([], key);
    } else {
      SplitQuery(kvs);
      LookupPairs(kvs, key);
    }
  }

  /** The round trip for every key at once. */
  lemma ReadBackAll(path: string, kvs: seq<(string, string)>)
    requires Avoids(path, "?") && PlainPairs(kvs)
    ensures forall key :: Get(path + "?" + Query(kvs), key) == FirstValue(kvs, key)
  {
    forall key {
      ReadBack(path, kvs, key);
    }
  }
}
